=== FILE: README.md ===
# Generative agents core: a verified Dafny model

This project models the deterministic core of a Unity simulation of language-model-driven
agents (generative agents). The model covers four groups.

- **The memory engine.** An agent has two memory streams: a short-term queue bounded by a
  limit, and a long-term list that only grows. Seed memories are parsed from semicolon-separated
  text. An importance accumulator fires a reflection and resets to zero.
  - "Recent" retrieval returns the newest long-term memories, newest first.
  - "Relevant" retrieval takes three scores per memory (recency, relevance and importance),
    min-max normalises each, sums them with weights, and keeps the best memory per description.
    It returns at most 3 or 5 memories and marks each one as recalled.
  - The reflection loop splits the language model's replies on `"| "` and stores every insight
    as a long-term Reflection memory, which may trigger a further reflection.
- **The simulation clock.** This covers the clamping setters, the lexicographic comparison, the
  text form `Day d - HH:MM:SS`, and the one-second tick with its carries. It also covers
  seconds-between and hours-between, and `AddHours`.
- **World knowledge.**
  - The scene hierarchy is a tagged rose tree. The world index is built from it, keyed
    `area`, `area:section` and `area:section:object`.
  - A node has a full path and a node type, and its name is validated.
  - An agent's knowledge is three dictionaries. The model covers learning, the queries,
    knowledge profiles, and the mode-dependent forgetting when the agent enters an area or a
    section.
  - An action's intended duration is parsed, and a rule forces a new action once that duration
    is overrun by a quarter.
- **Logging.** This covers the category filter gate and the bounded in-memory buffer. It also
  covers the "recent", "per agent" and "all agents" queries, and the `[key=value]` rendering of
  a log context with `]` escaped.

Everything is immutable data and pure functions. A store, a perception or a log system goes in
and the updated one comes out.

- **The oracle.** The language model, the text embedding, the float square root and the power
  function are one `Oracle` value of total functions.
- **The clock.** The clock value is a parameter (`now`).
- **The scene.** Each scene object carries an abstract `ObjectId`. Which state an object is in
  is a function parameter.

Integers are unbounded, with two exceptions where the source's 32-bit `int` is modelled. The
importance reply is parsed as a 32-bit integer. The `int` running total inside
`CalculateSecondsBetween` wraps, and `DaytimeCycle.SecondsBetweenAsWritten` models that wrap
(see Findings). The day counter and the hour total of `CalculateHoursBetween` are unbounded (see
Left out). Seconds are whole numbers, and scores are reals. A length the source reports with
`string.Length` counts UTF-16 code units, which is two for a character outside the Basic
Multilingual Plane (`Text.Utf16Length`).

## Modules

| file | module | models |
|---|---|---|
| wrappers.dfy | Wrappers | `Option` and `Result` |
| text.dfy | Text | the .NET string operations the core uses: Trim, Split, Replace, Contains, LastIndexOf, StartsWith, int.TryParse, double.Parse, number formatting |
| sorting.dfy | Sorting | descending sort of positions by a key (List.Sort, OrderByDescending), and LINQ `TakeLast` |
| dictionaries.dfy | Dictionaries | a .NET `Dictionary` as a sequence of pairs in enumeration order, with the indexer's overwrite semantics, and LINQ `Distinct` |
| sim_date_time.dfy | SimDateTimes | `SimDateTime` |
| daytime_cycle.dfy | DaytimeCycle | `DaytimeCycle` |
| memory.dfy | Memories | `Memory` |
| retrieval.dfy | Retrieval | the normalise, combine, deduplicate and cap pipeline of relevant retrieval |
| memory_streams.dfy | MemoryStreams | the memory streams of `NpcMemorySystem`, seeding, importance scoring, cosine guards, recent and relevant retrieval |
| memory_engine.dfy | MemoryEngine | adding memories, the reflection accumulator, and `ReflectionSystem` |
| area_node.dfy | AreaNodes | `AreaNode` |
| world_tree.dfy | WorldTrees | `WorldTree` |
| world_perception.dfy | WorldPerception | the knowledge and location part of `NpcWorldPerception` |
| knowledge_profile.dfy | KnowledgeProfiles | `LocationKnowledgeProfile` and how it seeds knowledge |
| action_duration.dfy | ActionDurations | duration extraction, `ParseDuration` and the force-new-action rule |
| log_entry.dfy | LogEntries | `LogEntry` |
| log_system.dfy | LogSystems | `LogSystem` |

## Model

| member | source | states |
|---|---|---|
| Memories.ClampImportance | Scripts/Memory/Memory.cs:50-54 | an importance is always in [1, 10]; an in-range value is kept, a lower one becomes 1 and a higher one becomes 10 |
| Memories.SetImportance | Scripts/Memory/Memory.cs:50-54 | assigning an importance clamps it and leaves the timestamps, description and kind unchanged |
| Memories.NewMemory | Scripts/Memory/Memory.cs:83-91 | a new memory is created and accessed at the same clock value, stores its description and kind as given, and has a clamped importance |
| Memories.Touch | Scripts/Memory/Memory.cs:96-99 | recalling a memory sets only its access time; creation time, description, importance and kind are unchanged |
| Memories.NewMemoryWellformed | Scripts/Memory/Memory.cs:83-91 | a fresh memory is well formed: importance in range, and created ≤ accessed ≤ now |
| Memories.WellformedAsClockAdvances | Scripts/Memory/Memory.cs:83-99 | a well-formed memory stays well formed while the clock does not go back |
| Memories.TouchKeepsWellformed | Scripts/Memory/Memory.cs:96-99 | with a clock that does not go back, a recall keeps the access time at or after the creation time and keeps the content |
| MemoryStreams.DefaultConfig | Scripts/Memory/NpcMemorySystem.cs:76-106 | the default settings are valid: limit 10, threshold 150, weights 1 |
| MemoryStreams.SeedStatements | Scripts/Memory/NpcMemorySystem.cs:257-264 | every seed statement is non-empty, trimmed and free of `;` |
| MemoryStreams.TrimmedIsStatement | Scripts/Memory/NpcMemorySystem.cs:261-264 | a non-blank piece without `;`, once trimmed, is a seed statement |
| MemoryStreams.KeepStatements | Scripts/Memory/NpcMemorySystem.cs:259-268 | the kept pieces are no more than the pieces and are all statements |
| MemoryStreams.KeepOne | Scripts/Memory/NpcMemorySystem.cs:261-264 | a single piece is skipped when it is blank (`IsNullOrWhiteSpace`) and is otherwise kept trimmed |
| MemoryStreams.KeepAppend | Scripts/Memory/NpcMemorySystem.cs:259-268 | the pieces are handled one at a time in order: the pieces of a concatenation keep what each part keeps, one after the other |
| MemoryStreams.KeepCons | Scripts/Memory/NpcMemorySystem.cs:259-268 | the first piece is skipped or kept trimmed, and the rest follow it |
| MemoryStreams.SeedStatementsOfJoin | Scripts/Memory/NpcMemorySystem.cs:252-269 | parsing statements joined with `;` gives back exactly those statements, in order |
| MemoryStreams.KeepAll | Scripts/Memory/NpcMemorySystem.cs:259-268 | a list of statements passes the blank check and the trim unchanged |
| MemoryStreams.Seed | Scripts/Memory/NpcMemorySystem.cs:252-269 | seeding appends one Observation of importance 8, created now, per statement, in order; the existing long-term list, the queue and the accumulator are unchanged; empty text changes nothing |
| MemoryStreams.SeedKeepsInvariant | Scripts/Memory/NpcMemorySystem.cs:252-269 | seeding preserves the store invariant |
| MemoryStreams.ScoreImportance | Scripts/Memory/NpcMemorySystem.cs:625-643 | the importance score is always a 32-bit integer |
| MemoryStreams.ScoreImportanceReadsNumber | Scripts/Memory/NpcMemorySystem.cs:639-640 | a reply that is a 32-bit integer, padded with white space, is taken as that integer |
| MemoryStreams.ScoreImportanceFallsBack | Scripts/Memory/NpcMemorySystem.cs:639-642 | a blank reply falls back to 5 |
| MemoryStreams.DotSymmetric | Scripts/Memory/NpcMemorySystem.cs:529-534 | the dot product accumulated by the loop does not depend on argument order |
| MemoryStreams.DotZero | Scripts/Memory/NpcMemorySystem.cs:529-534 | a zero vector has squared magnitude 0 |
| MemoryStreams.CosineGuards | Scripts/Memory/NpcMemorySystem.cs:520-543 | cosine similarity is 0 for vectors of different lengths and for a zero vector |
| MemoryStreams.CosineSymmetric | Scripts/Memory/NpcMemorySystem.cs:520-543 | cosine similarity is symmetric |
| MemoryStreams.CosineSimilarity | Scripts/Memory/NpcMemorySystem.cs:520-543 | the loop computes the cosine similarity, including both guards |
| MemoryStreams.PoolScores | Scripts/Memory/NpcMemorySystem.cs:371-426 | there is one combined score per pool memory, each within [0, sum of the weights] |
| MemoryStreams.RelevantPositions | Scripts/Memory/NpcMemorySystem.cs:428-443 | the selected positions are in the pool, have pairwise-distinct descriptions, and number at most 3 (short-term) or 5 (long-term) |
| MemoryStreams.RetrieveRelevant | Scripts/Memory/NpcMemorySystem.cs:352-464 | sensory mode returns nothing and changes nothing; otherwise it returns at most the cap, with distinct descriptions; each result is the recalled pool memory at the selected position, and only those memories have their access time set |
| MemoryStreams.Recalled | Scripts/Memory/NpcMemorySystem.cs:446-461 | the returned memories are the selected ones, recalled, with their descriptions in selection order |
| MemoryStreams.RetrieveRelevantKeepsInvariant | Scripts/Memory/NpcMemorySystem.cs:445-452 | relevant retrieval preserves the store invariant |
| MemoryStreams.TouchAtKeepsWellformed | Scripts/Memory/NpcMemorySystem.cs:452 | recalling any selection keeps every memory well formed |
| MemoryStreams.RetrieveRelevantIsTopDistinct | Scripts/Memory/NpcMemorySystem.cs:428-443 | each returned memory scores at least as high as any pool memory with the same description, and every memory whose description was left out scores no higher than any returned one |
| MemoryStreams.NewerOrSameIsTotalPreorder | Scripts/Memory/NpcMemorySystem.cs:344 | the sort's comparison, newest first by `createdAt`, is a total preorder |
| MemoryStreams.RecentPositions | Scripts/Memory/NpcMemorySystem.cs:343-346 | min(n, count) distinct positions, newest first, and no memory left out is newer than one taken |
| MemoryStreams.RecentPrefixSorted | Scripts/Memory/NpcMemorySystem.cs:344-346 | a prefix of the sorted order is itself newest first |
| MemoryStreams.RecentPrefixIsNewest | Scripts/Memory/NpcMemorySystem.cs:344-346 | no memory outside a prefix of the sorted order is newer than one inside it |
| MemoryStreams.RetrieveRecent | Scripts/Memory/NpcMemorySystem.cs:336-347 | outside long-term mode the result is empty; otherwise it holds min(n, count) long-term memories at distinct positions, newest first, with none left out newer than one taken |
| MemoryEngine.CheckReflection | Scripts/Memory/NpcMemorySystem.cs:323-334 | outside long-term mode with reflections, nothing changes; otherwise the importance is added, and reaching the threshold resets the sum to 0 and runs a reflection that adds at least one memory; the queue is unchanged |
| MemoryEngine.PerformReflection | Scripts/Memory/ReflectionSystem.cs:49-81 | outside long-term mode with reflections, nothing changes; otherwise the long-term list grows by reflections created at the clock value `now` and nothing is removed; the queue and the store invariant are kept |
| MemoryEngine.ReflectOnQuestions | Scripts/Memory/ReflectionSystem.cs:57-80 | each question adds at least one memory; existing memories keep their content, and everything added is a reflection created at the clock value `now` |
| MemoryEngine.ReflectOnInsights | Scripts/Memory/ReflectionSystem.cs:67-78 | every insight text becomes a long-term Reflection memory; with no nested reflection the memories added are exactly the insights, in order |
| MemoryEngine.GrowthChains | Scripts/Memory/ReflectionSystem.cs:61-79 | two steps of "only reflections appended, nothing removed" compose into one |
| MemoryEngine.InsightsStep | Scripts/Memory/ReflectionSystem.cs:67-78 | one insight stored, then the rest, adds every insight and keeps earlier content |
| MemoryEngine.AddLongTerm | Scripts/Memory/NpcMemorySystem.cs:288-292 | the memory is appended at the end before the accumulator is checked; anything after it is a reflection; the queue and the store invariant are kept |
| MemoryEngine.AddShort | Scripts/Memory/NpcMemorySystem.cs:274-283 | when the queue is full the oldest memory leaves first; the new memory goes at the tail; the queue never exceeds its limit; the long-term list changes only by reflections |
| MemoryEngine.ShortTermIsWindow | Scripts/Memory/NpcMemorySystem.cs:274-283 | after any run of additions the queue holds the newest `limit` memories in arrival order |
| MemoryEngine.WindowStep | Scripts/Memory/NpcMemorySystem.cs:276-281 | one dequeue-then-enqueue step keeps the "newest `limit`" window |
| MemoryEngine.AddObservation | Scripts/Memory/NpcMemorySystem.cs:295-321 | sensory mode changes nothing; short-term mode enqueues exactly one scored Observation and leaves the long-term list alone; long-term mode appends it to the long-term list and leaves the queue alone |
| Retrieval.MinOf | Scripts/Memory/NpcMemorySystem.cs:377-403 | the minimum is a member no greater than any score |
| Retrieval.MaxOf | Scripts/Memory/NpcMemorySystem.cs:377-403 | the maximum is a member no smaller than any score |
| Retrieval.Normalize | Scripts/Memory/NpcMemorySystem.cs:411-421 | a normalised score is in [0, 1]; it is 0.5 when max ≤ min, and otherwise 0 at the minimum and 1 at the maximum |
| Retrieval.Fraction | Scripts/Memory/NpcMemorySystem.cs:412 | a part of a positive whole divides to a value in [0, 1] |
| Retrieval.NormalizeMonotone | Scripts/Memory/NpcMemorySystem.cs:411-421 | normalisation keeps the order of raw scores |
| Retrieval.DivMonotone | Scripts/Memory/NpcMemorySystem.cs:412 | division by a positive range keeps order |
| Retrieval.NormalizeAll | Scripts/Memory/NpcMemorySystem.cs:409-421 | every normalised value is in [0, 1] and the order of the raw scores is kept; when all raw values are equal, every normalised value is 0.5 |
| Retrieval.Weighted | Scripts/Memory/NpcMemorySystem.cs:423 | a weighted component lies in [0, weight] |
| Retrieval.Combine | Scripts/Memory/NpcMemorySystem.cs:423 | a combined score lies in [0, recency + relevance + importance weight] |
| Retrieval.CombinedScores | Scripts/Memory/NpcMemorySystem.cs:409-426 | one combined score per memory, each within [0, sum of the weights] |
| Retrieval.SlotOf | Scripts/Memory/NpcMemorySystem.cs:435 | the lookup finds the stored slot with that description, or reports that there is none |
| Retrieval.Put | Scripts/Memory/NpcMemorySystem.cs:435-439 | a new description is appended; a description already kept keeps its slot and its description order; the kept descriptions stay distinct |
| Retrieval.Walk | Scripts/Memory/NpcMemorySystem.cs:431-443 | the walk keeps earlier results, keeps descriptions distinct and never passes the cap |
| Retrieval.WalkCovers | Scripts/Memory/NpcMemorySystem.cs:441-442 | a walk that stops below the cap has kept every description it passed |
| Retrieval.FirstOccurrences | Scripts/Memory/NpcMemorySystem.cs:430-439 | reference definition: the first position of each unseen description, in walk order, with distinct descriptions |
| Retrieval.Take | Scripts/Memory/NpcMemorySystem.cs:441-442 | the first k elements, or all when there are fewer |
| Retrieval.WalkIsFirstOccurrences | Scripts/Memory/NpcMemorySystem.cs:431-443 | on a descending walk the loop's result is the first k first occurrences of each description |
| Retrieval.StepKeeps | Scripts/Memory/NpcMemorySystem.cs:435-439 | on a descending walk a repeated description never replaces the one kept, because its score is not greater |
| Retrieval.StepAppends | Scripts/Memory/NpcMemorySystem.cs:435-439 | a new description on a descending walk is appended and dominates the rest of the walk |
| Retrieval.FirstOccurrencesKeepBest | Scripts/Memory/NpcMemorySystem.cs:430-439 | on a descending walk each kept memory scores at least as high as every memory with the same description |
| Retrieval.FirstOccurrencesAreTop | Scripts/Memory/NpcMemorySystem.cs:431-443 | the first k first occurrences score at least as high as any memory whose description was not taken |
| Retrieval.SelectRelevant | Scripts/Memory/NpcMemorySystem.cs:428-443 | the selection has distinct descriptions and at most `cap` positions; below the cap it covers every description in the pool |
| Retrieval.Rank | Scripts/Memory/NpcMemorySystem.cs:431 | the walk order is a permutation of the pool, sorted by descending score |
| Retrieval.RankCovers | Scripts/Memory/NpcMemorySystem.cs:431 | every pool position occurs in the walk order |
| Retrieval.SelectRelevantIsFirstOccurrences | Scripts/Memory/NpcMemorySystem.cs:428-443 | the selection equals the first `cap` first occurrences along the descending order |
| Retrieval.SelectRelevantKeepsBest | Scripts/Memory/NpcMemorySystem.cs:430-439 | each selected memory scores at least as high as any memory with the same description |
| Retrieval.SelectRelevantIsTop | Scripts/Memory/NpcMemorySystem.cs:428-443 | no memory whose description was left out scores higher than a selected one |
| Sorting.InsertPos | Scripts/Memory/NpcMemorySystem.cs:344 | the insertion point follows every key at least as large and precedes the first smaller one |
| Sorting.Insert | Scripts/Memory/NpcMemorySystem.cs:344 | insertion adds one position |
| Sorting.InsertKeepsSorted | Scripts/Memory/NpcMemorySystem.cs:344 | inserting into a descending order keeps it descending |
| Sorting.InsertKeepsElements | Scripts/Memory/NpcMemorySystem.cs:344 | insertion keeps every position, adds the new one, and keeps positions distinct |
| Sorting.SortDesc | Scripts/Memory/NpcMemorySystem.cs:343-344 | the result is a permutation of the positions, sorted by descending key |
| Sorting.PermutationCovers | Scripts/Memory/NpcMemorySystem.cs:343-346 | a permutation contains every position |
| Sorting.Last | Scripts/Logging/LogSystem.cs:214 | `TakeLast(n)` gives the final min(n, length) elements of the sequence, in order: its length is that minimum and it is a suffix of the input |
| Sorting.LastOfLast | Scripts/Logging/LogSystem.cs:139-143 | trimming to the last n before appending and trimming again is the same as trimming once |
| SimDateTimes.Clamp | Scripts/Systems/SimDateTime.cs:30 | `Mathf.Clamp` lands in [lo, hi], keeps in-range values and sends others to the nearer bound |
| SimDateTimes.SetDay | Scripts/Systems/SimDateTime.cs:20-24 | the day is never below 1, keeps values ≥ 1 and changes no other field |
| SimDateTimes.SetHours | Scripts/Systems/SimDateTime.cs:27-31 | hours are clamped to [0, 24], upper bound included; no other field changes |
| SimDateTimes.SetMinutes | Scripts/Systems/SimDateTime.cs:34-38 | minutes are clamped to [0, 60], upper bound included; no other field changes |
| SimDateTimes.SetSeconds | Scripts/Systems/SimDateTime.cs:41-45 | seconds are clamped to [0, 60], upper bound included; no other field changes |
| SimDateTimes.CompareInt | Scripts/Systems/SimDateTime.cs:60-68 | `int.CompareTo` is -1, 0 or 1 and agrees with `<` and `==` |
| SimDateTimes.CompareTo | Scripts/Systems/SimDateTime.cs:57-69 | the comparison is lexicographic on (day, hours, minutes, seconds), and 0 exactly on equal times |
| SimDateTimes.CompareToAntisymmetric | Scripts/Systems/SimDateTime.cs:57-69 | swapping the arguments negates the result |
| SimDateTimes.CompareToTransitive | Scripts/Systems/SimDateTime.cs:57-69 | ≤ and < chain, so the comparison is a total order |
| SimDateTimes.ToStringRoundTrip | Scripts/Systems/SimDateTime.cs:71-74 | `Day d - HH:MM:SS` with two-digit fields reads back as the same time |
| SimDateTimes.ParseLayout | Scripts/Systems/SimDateTime.cs:73 | the text form is laid out as `Day `, the day, ` - ` and three colon-separated two-digit fields |
| DaytimeCycle.Tick | Scripts/Systems/DaytimeCycle.cs:50-76 | a tick from a valid time gives a valid time and, away from the saturated hour, is exactly one second later |
| DaytimeCycle.HoursBetween | Scripts/Systems/DaytimeCycle.cs:101-109 | hours-between is seconds-between divided by 3600 |
| DaytimeCycle.TickFromSaturatedHourLosesTime | Scripts/Systems/DaytimeCycle.cs:50-76 | a tick from hour 24, 59:59 rolls over to the next day at 00:00:00, which is 3599 seconds earlier |
| DaytimeCycle.SecondsBetweenIsDifference | Scripts/Systems/DaytimeCycle.cs:111-119 | seconds-between is 0 on equal times, antisymmetric, and additive |
| DaytimeCycle.SecondsBetweenAgreesWithCompareTo | Scripts/Systems/DaytimeCycle.cs:111-119 | for valid times the sign of seconds-between agrees with the comparison |
| DaytimeCycle.Wrap32 | Scripts/Systems/DaytimeCycle.cs:114-115 | C#'s unchecked `int` result: in the 32-bit range, congruent to the exact value modulo 2^32, and equal to it when it fits |
| DaytimeCycle.SecondsBetweenAsWritten | Scripts/Systems/DaytimeCycle.cs:111-119 | the code as written, with its `int` totals, differs from the elapsed seconds by a multiple of 2^32, and equals them when both totals fit in an `int` |
| DaytimeCycle.SecondsBetweenAsWrittenUpToDay24855 | Scripts/Systems/DaytimeCycle.cs:111-119 | for running-clock times up to day 24855 the code as written gives the elapsed seconds, and their sign agrees with the comparison |
| DaytimeCycle.SecondsBetweenAsWrittenWraps | Scripts/Systems/DaytimeCycle.cs:114-115 | from day 2 to day 24858 the code as written reports -2147408896 seconds, although the later time compares greater and is 2147558400 seconds later |
| DaytimeCycle.AddHoursAsWritten | Scripts/Systems/DaytimeCycle.cs:121-124 | adding hours through the clamping setter leaves hours in [0, 24] and the other fields unchanged |
| DaytimeCycle.AddHoursSaturates | Scripts/Systems/DaytimeCycle.cs:121-124 | once hours would reach 24 they stay at 24, and the next tick moves to the next day at hour 0 |
| DaytimeCycle.AddHoursAsWrittenLosesHours | Scripts/Systems/DaytimeCycle.cs:121-124 | adding 8 hours at 20:00 on day 1 advances the clock by only 4 hours |
| DaytimeCycle.AddHours | Scripts/Systems/DaytimeCycle.cs:121-124 | adding k hours to a valid time, with the hours carried into days, gives a valid time exactly 3600·k seconds later |
| Dictionaries.Get | Scripts/Systems/WorldPerception/WorldTree.cs:178 | a lookup fails exactly on a missing key, and otherwise finds the stored pair |
| Dictionaries.GetCons | Scripts/Systems/WorldPerception/WorldTree.cs:178 | a lookup checks the first pair before the rest |
| Dictionaries.Put | Scripts/Systems/WorldPerception/WorldTree.cs:106 | after an indexer assignment the key maps to the new value and every other key is unchanged |
| Dictionaries.PutKeys | Scripts/Systems/WorldPerception/WorldTree.cs:106 | overwriting keeps the key's place in enumeration order; a new key goes last |
| Dictionaries.LastValue | Scripts/Systems/WorldPerception/WorldTree.cs:106-156 | reference definition: the value of the last pair with that key |
| Dictionaries.InsertionOrderDistinct | Scripts/Logging/LogSystem.cs:224 | `Distinct` keeps each element once, and exactly the elements of the input |
| Dictionaries.PutAllGet | Scripts/Systems/WorldPerception/WorldTree.cs:106-156 | after a run of assignments each key holds the last value assigned to it, or its old value |
| Dictionaries.PutAllKeys | Scripts/Systems/WorldPerception/WorldTree.cs:106-156 | after a run of assignments the keys enumerate in order of first assignment |
| Dictionaries.PutNew | Scripts/Systems/WorldPerception/WorldTree.cs:106 | assigning a new key appends the pair |
| Dictionaries.PutAllFresh | Scripts/Systems/WorldPerception/WorldTree.cs:106-156 | assignments to distinct keys give exactly those pairs in order |
| Dictionaries.LastValueAt | Scripts/Systems/WorldPerception/WorldTree.cs:106-156 | the last pair with a key determines its value |
| AreaNodes.NewNode | Scripts/Systems/WorldPerception/AreaNode.cs:60-71 | the constructor fails exactly on a blank name; a new node stores its name, object and parent, has no children and is not an object |
| AreaNodes.AddChild | Scripts/Systems/WorldPerception/AreaNode.cs:80-86 | a null child is rejected; otherwise exactly one child is appended and nothing else changes |
| AreaNodes.AnyNamed | Scripts/Systems/WorldPerception/AreaNode.cs:95 | true exactly when some node in the list has the name |
| AreaNodes.HasChild | Scripts/Systems/WorldPerception/AreaNode.cs:93-96 | true exactly when some direct child has the name |
| AreaNodes.PathNames | Scripts/Systems/WorldPerception/AreaNode.cs:104-110 | the names from the root down end with the node's own name |
| AreaNodes.FullPathIsJoin | Scripts/Systems/WorldPerception/AreaNode.cs:104-110 | the full path is the names from the root down, joined with `:` |
| AreaNodes.FullPathSplits | Scripts/Systems/WorldPerception/AreaNode.cs:104-110 | with colon-free names, splitting the full path on `:` gives back the names |
| AreaNodes.NodeType | Scripts/Systems/WorldPerception/AreaNode.cs:113-123 | a node is of type Object exactly when it is flagged as one |
| AreaNodes.NodeTypeByDepth | Scripts/Systems/WorldPerception/AreaNode.cs:113-123 | a non-object node is World at depth 0, Area at depth 1 and Section at depth 2 or more |
| AreaNodes.AllNameChars | Scripts/Systems/WorldPerception/AreaNode.cs:129 | true exactly when every character is a letter, digit, space or `_` |
| AreaNodes.ValidateName | Scripts/Systems/WorldPerception/AreaNode.cs:126-130 | a name is valid exactly when it is not blank and every character is a letter, digit, space or `_` |
| AreaNodes.ValidNameIsUsable | Scripts/Systems/WorldPerception/AreaNode.cs:60-71 | a valid name is accepted by the constructor and contains no `:` |
| WorldTrees.ObjectEntriesPlaced | Scripts/Systems/WorldPerception/WorldTree.cs:141-160 | every object entry is an Object-tagged child of its section |
| WorldTrees.SectionEntriesPlaced | Scripts/Systems/WorldPerception/WorldTree.cs:119-134 | every entry under an area is a Sector-tagged child or an object of one |
| WorldTrees.AreaEntriesPlaced | Scripts/Systems/WorldPerception/WorldTree.cs:99-112 | every entry sits under an Area-tagged child of the root |
| WorldTrees.EntriesPlaced | Scripts/Systems/WorldPerception/WorldTree.cs:99-160 | every node that `Entries` (AreaEntries, SectionEntries and ObjectEntries in turn) yields is a correctly tagged node at the right depth |
| WorldTrees.ObjectEntriesComplete | Scripts/Systems/WorldPerception/WorldTree.cs:141-160 | every Object-tagged child of a section is indexed |
| WorldTrees.SectionEntriesComplete | Scripts/Systems/WorldPerception/WorldTree.cs:119-134 | every Sector-tagged child of an area, and every object in it, is indexed |
| WorldTrees.AreaEntriesComplete | Scripts/Systems/WorldPerception/WorldTree.cs:99-112 | every Area-tagged child of the root, and everything under it, is indexed |
| WorldTrees.EntriesComplete | Scripts/Systems/WorldPerception/WorldTree.cs:99-160 | `Entries` yields every correctly tagged area, section and object, under its names |
| WorldTrees.Build | Scripts/Systems/WorldPerception/WorldTree.cs:99-160 | the build fails exactly when some node to be indexed has a blank name, which makes the node constructor throw; otherwise every node processed can be looked up under its key |
| WorldTrees.KeyDeterminesNames | Scripts/Systems/WorldPerception/WorldTree.cs:128-154 | with colon-free names, equal keys mean equal name paths |
| WorldTrees.LastNamed | Scripts/Systems/WorldPerception/WorldTree.cs:106-156 | reference definition: the last processed node with those names |
| WorldTrees.LastValueIsLastNamed | Scripts/Systems/WorldPerception/WorldTree.cs:106-156 | the last value stored under a key is the last node processed with those names |
| WorldTrees.EntriesHaveNames | Scripts/Systems/WorldPerception/WorldTree.cs:99-160 | every indexed node has one to three names |
| WorldTrees.LookupFindsLastNamed | Scripts/Systems/WorldPerception/WorldTree.cs:106-156 | looking up a key finds the last node processed with those names: later nodes overwrite earlier ones |
| WorldTrees.TaggedNames | Scripts/Systems/WorldPerception/WorldTree.cs:183-185 | a name is listed exactly when some child with the tag has it, and there are no more names than children |
| WorldTrees.TaggedNamesAppend | Scripts/Systems/WorldPerception/WorldTree.cs:183-185 | the listing keeps sibling order: the names of two runs of children are those of the first run followed by those of the second |
| WorldTrees.WithoutColon | Scripts/Systems/WorldPerception/WorldTree.cs:168 | the filter keeps exactly the keys without `:` and keeps them distinct |
| WorldTrees.GetAllAreas | Scripts/Systems/WorldPerception/WorldTree.cs:166-169 | the areas listed are exactly the index keys without `:` |
| WorldTrees.GetSectionsInArea | Scripts/Systems/WorldPerception/WorldTree.cs:175-186 | an unknown area lists no sections; for an area key, a name is listed exactly when a Sector-tagged child of the stored node has it; a key that is not an area lists nothing |
| WorldTrees.GetObjectsInSection | Scripts/Systems/WorldPerception/WorldTree.cs:193-205 | an unknown `area:section` lists no objects; for a section key, a name is listed exactly when an Object-tagged child of the stored node has it; any other key lists nothing |
| WorldTrees.GetObjectGameObject | Scripts/Systems/WorldPerception/WorldTree.cs:259-268 | the result is null exactly when `area:section:object` is not in the index |
| WorldTrees.SectionKeyIsJoin | Scripts/Systems/WorldPerception/WorldTree.cs:196 | the section lookup key is the two names joined with `:` |
| WorldTrees.ObjectKeyIsJoin | Scripts/Systems/WorldPerception/WorldTree.cs:261 | the object lookup key is the three names joined with `:` |
| WorldTrees.JoinedHasColon | Scripts/Systems/WorldPerception/WorldTree.cs:168 | a key of two or more names contains `:` |
| WorldTrees.BuiltKeys | Scripts/Systems/WorldPerception/WorldTree.cs:99-160 | the index keys are distinct and are exactly the keys of the indexed nodes |
| WorldTrees.ColonFreeKeyIsArea | Scripts/Systems/WorldPerception/WorldTree.cs:105-106 | an indexed key without `:` belongs to an Area-tagged child of the root |
| WorldTrees.ListedAreaIsArea | Scripts/Systems/WorldPerception/WorldTree.cs:166-169 | every area listed is an Area-tagged child of the root |
| WorldTrees.AreaIsListed | Scripts/Systems/WorldPerception/WorldTree.cs:166-169 | every Area-tagged child of the root with a colon-free name is listed |
| WorldTrees.AllAreasAreAreaNames | Scripts/Systems/WorldPerception/WorldTree.cs:166-169 | the areas listed are distinct, and are exactly the colon-free names of Area-tagged children of the root |
| WorldTrees.SectionsInAreaLookup | Scripts/Systems/WorldPerception/WorldTree.cs:176-187 | the sections of an area are the names of the Sector-tagged children of the last node indexed under that name, in child order; the list is empty when there is no such node |
| WorldTrees.ObjectsInSectionLookup | Scripts/Systems/WorldPerception/WorldTree.cs:194-206 | the objects of a section are the names of the Object-tagged children of the last node indexed under `area:section`, in child order |
| WorldTrees.NamedObjectIsInScene | Scripts/Systems/WorldPerception/WorldTree.cs:141-160 | an indexed object is an Object child of a Sector child of an Area child of the root |
| WorldTrees.PlacedObjectInScene | Scripts/Systems/WorldPerception/WorldTree.cs:141-160 | a placed entry with three names is an object in the scene |
| WorldTrees.ObjectInSceneIsNamed | Scripts/Systems/WorldPerception/WorldTree.cs:141-160 | every object in the scene is indexed |
| WorldTrees.ObjectNamedIffInScene | Scripts/Systems/WorldPerception/WorldTree.cs:141-160 | an object is indexed exactly when it is in the scene under its area and section |
| WorldTrees.ObjectLookup | Scripts/Systems/WorldPerception/WorldTree.cs:259-268 | looking up `area:section:object` finds the last such object processed, or null |
| WorldTrees.SectionNodePath | Scripts/Systems/WorldPerception/WorldTree.cs:154 | a section node's full path is `World:area:section` |
| WorldTrees.ObjectKeyAsWrittenAgrees | Scripts/Systems/WorldPerception/WorldTree.cs:154-155 | when no name contains `World:`, stripping it gives the intended `area:section:object` key |
| WorldTrees.ObjectKeyAsWrittenMisses | Scripts/Systems/WorldPerception/WorldTree.cs:154-155 | for an area named `<prefix>World`, the stored key loses the area name and differs from the intended key |
| WorldTrees.NewWorldKitchenCup | Scripts/Systems/WorldPerception/WorldTree.cs:154-155 | the object Cup in section Kitchen of area NewWorld is stored under a key that is not `NewWorld:Kitchen:Cup` |
| WorldPerception.TryAdd | Scripts/Systems/WorldPerception/NpcWorldPerception.cs:468 | `TryAdd` adds the key, never overwrites, and gives a new key the value |
| WorldPerception.LearnArea | Scripts/Systems/WorldPerception/NpcWorldPerception.cs:466-469 | the area becomes known with value true, an existing entry is kept, and nothing else changes |
| WorldPerception.LearnSection | Scripts/Systems/WorldPerception/NpcWorldPerception.cs:472-477 | `area:section` becomes known with value `area`, without overwriting; nothing else changes |
| WorldPerception.LearnObject | Scripts/Systems/WorldPerception/NpcWorldPerception.cs:480-487 | `area:section:object` becomes known with value `area:section`, without overwriting; nothing else changes |
| WorldPerception.LearnIdempotent | Scripts/Systems/WorldPerception/NpcWorldPerception.cs:466-487 | learning the same thing twice is the same as learning it once |
| WorldPerception.GetKnownAreas | Scripts/Systems/WorldPerception/NpcWorldPerception.cs:490-493 | the areas listed are exactly the known ones |
| WorldPerception.SectionFieldOfKey | Scripts/Systems/WorldPerception/NpcWorldPerception.cs:496-502 | with colon-free names, the second field of a section key is its section |
| WorldPerception.ObjectFieldOfKey | Scripts/Systems/WorldPerception/NpcWorldPerception.cs:505-512 | with colon-free names, the third field of an object key is its object |
| WorldPerception.LearnedSectionIsListed | Scripts/Systems/WorldPerception/NpcWorldPerception.cs:496-502 | a section just learned is listed for its area |
| WorldPerception.LearnedObjectIsListed | Scripts/Systems/WorldPerception/NpcWorldPerception.cs:505-512 | an object just learned is listed for its section |
| WorldPerception.ShapedSectionKey | Scripts/Systems/WorldPerception/NpcWorldPerception.cs:500 | a two-field key under `area:` is `area:` plus its second field |
| WorldPerception.KnownSectionsInAreaExactly | Scripts/Systems/WorldPerception/NpcWorldPerception.cs:496-525 | when every section key has two fields, a section is listed for an area exactly when it is known there |
| WorldPerception.ClearOldMemories | Scripts/Systems/WorldPerception/NpcWorldPerception.cs:400-431 | only the current and excepted areas stay known, and exactly the sections and objects under a forgotten area are removed; nothing is added |
| WorldPerception.EnterAreaAsWrittenForgetsDestination | Scripts/Systems/WorldPerception/NpcWorldPerception.cs:349-358 | as written, moving from area a to a known area b in short-term mode forgets b's known sections |
| WorldPerception.EnterArea | Scripts/Systems/WorldPerception/NpcWorldPerception.cs:339-372 | the new area becomes current and known. Sensory mode forgets everything else. Otherwise the old location becomes the previous one. Long-term mode only adds the area. Short-term mode, when the area changes, keeps only the old and new areas and drops the sections and objects of every other area |
| WorldPerception.EnterAreaKeepsDestination | Scripts/Systems/WorldPerception/NpcWorldPerception.cs:349-358 | in short-term mode, with colon-free area names, entering an area keeps every section and object already known in it |
| WorldPerception.SamePrefixArea | Scripts/Systems/WorldPerception/NpcWorldPerception.cs:413 | a key lies under at most one colon-free area |
| WorldPerception.ClearSectionObjects | Scripts/Systems/WorldPerception/NpcWorldPerception.cs:434-450 | with a null or empty area or section nothing changes; otherwise exactly the objects under `area:section:` are removed, and areas and sections are unchanged |
| WorldPerception.ClearedSectionListsNothing | Scripts/Systems/WorldPerception/NpcWorldPerception.cs:434-450 | after clearing a section, no object is listed for it |
| WorldPerception.GetObjectReference | Scripts/Systems/WorldPerception/NpcWorldPerception.cs:535-541 | an unknown object gives null; a known one gives what the world index holds |
| WorldPerception.ObserveObject | Scripts/Systems/WorldPerception/NpcWorldPerception.cs:544-559 | an observation is made exactly when the object is known, found in the index and has a state; its text is `The <object> in the <section> is <state>` |
| WorldPerception.PerceiveObjects | Scripts/Systems/WorldPerception/NpcWorldPerception.cs:453-463 | every listed object becomes known and only those are added; areas and sections are unchanged |
| WorldPerception.ObservedCons | Scripts/Systems/WorldPerception/NpcWorldPerception.cs:457-461 | what the first object and then the later ones gave, in that order, each observes an object of the list |
| WorldPerception.PerceivedObservations | Scripts/Systems/WorldPerception/NpcWorldPerception.cs:457-461 | there is at most one observation per object, and each one observes a listed object |
| WorldPerception.EnterSection | Scripts/Systems/WorldPerception/NpcWorldPerception.cs:374-397 | the section becomes current. Sensory mode first clears the old section's objects; other modes record the old section as previous. Inside a current area the section and all its world objects become known. Areas never change |
| KnowledgeProfiles.LearnObjects | Scripts/Systems/WorldPerception/NpcWorldPerception.cs:309-312 | every listed object becomes known in the section, and only those are added |
| KnowledgeProfiles.LearnSectionWith | Scripts/Systems/WorldPerception/NpcWorldPerception.cs:305-313 | a section and then the given objects in it become known; that section is the only new section, and every new object is one of those given |
| KnowledgeProfiles.LearnWholeSection | Scripts/Systems/WorldPerception/NpcWorldPerception.cs:305-313 | the section and every object the world index lists in it become known; the only new section is this one, and every new object is one the index lists in it |
| KnowledgeProfiles.GrowsKeepsSection | Scripts/Systems/WorldPerception/NpcWorldPerception.cs:466-487 | knowledge of a section and its objects survives further learning |
| KnowledgeProfiles.NewKeysInTransitive | Scripts/Systems/WorldPerception/NpcWorldPerception.cs:299-337 | "everything added lies under the area" composes |
| KnowledgeProfiles.OneSectionKeysIn | Scripts/Systems/WorldPerception/NpcWorldPerception.cs:305-313 | learning one section of an area adds only keys under that area |
| KnowledgeProfiles.LearnAllSections | Scripts/Systems/WorldPerception/NpcWorldPerception.cs:303-314 | every listed section becomes known with all its objects; every new section is a listed one, and every new object is one the index lists in such a section |
| KnowledgeProfiles.WholeStep | Scripts/Systems/WorldPerception/NpcWorldPerception.cs:303-314 | one whole section and then the rest leave every section of the list known with all its objects, add only keys under the area, and lose nothing |
| KnowledgeProfiles.WholeBound | Scripts/Systems/WorldPerception/NpcWorldPerception.cs:303-314 | one whole section and then the rest add only the sections listed and the objects the index lists in them |
| KnowledgeProfiles.LearnListedSection | Scripts/Systems/WorldPerception/NpcWorldPerception.cs:317-335 | a profile section becomes known with all its world objects or only its specific objects, as its flag says; nothing else is added |
| KnowledgeProfiles.LearnListedSections | Scripts/Systems/WorldPerception/NpcWorldPerception.cs:315-336 | every profile section of the area becomes known with its objects; every new section is a profile section, and every new object is one its entry makes known |
| KnowledgeProfiles.ListedStep | Scripts/Systems/WorldPerception/NpcWorldPerception.cs:315-336 | one profile section and then the rest add only the profile sections and the objects their entries make known |
| KnowledgeProfiles.ApplyKnownArea | Scripts/Systems/WorldPerception/NpcWorldPerception.cs:299-337 | the area is always learned. With "know all sections", every section the world lists in the area becomes known with all its objects, and nothing else is added. Otherwise exactly the listed sections, with all or their specific objects, are added. Nothing known is lost |
| KnowledgeProfiles.ProfileAreas | Scripts/Systems/WorldPerception/NpcWorldPerception.cs:291-297 | every known area of every profile is applied |
| KnowledgeProfiles.ApplyKnownAreas | Scripts/Systems/WorldPerception/NpcWorldPerception.cs:285-296 | nothing known is lost; the known areas afterwards are exactly the old ones plus the listed ones; every entry's sections are known with all or with its specific objects, as the entry says; and every new section or object key is one some entry makes known |
| KnowledgeProfiles.EntryAddsOnly | Scripts/Systems/WorldPerception/NpcWorldPerception.cs:299-337 | each key one entry adds is a section or object that entry makes known |
| KnowledgeProfiles.AppliedStep | Scripts/Systems/WorldPerception/NpcWorldPerception.cs:285-288 | what the first entry made known is still known after the rest |
| KnowledgeProfiles.AppliedGrows | Scripts/Systems/WorldPerception/NpcWorldPerception.cs:299-337 | what an applied entry made known survives any later learning |
| KnowledgeProfiles.FromStep | Scripts/Systems/WorldPerception/NpcWorldPerception.cs:285-288 | keys added by the first entry or by the rest all come from some entry of the list |
| KnowledgeProfiles.SectionsFromStep | Scripts/Systems/WorldPerception/NpcWorldPerception.cs:285-288 | the section half of FromStep |
| KnowledgeProfiles.ObjectsFromStep | Scripts/Systems/WorldPerception/NpcWorldPerception.cs:285-288 | the object half of FromStep |
| KnowledgeProfiles.ApplyKnownAreasAppend | Scripts/Systems/WorldPerception/NpcWorldPerception.cs:278-296 | applying the profile entries and then the own entries is applying their concatenation |
| KnowledgeProfiles.AreasOfBoth | Scripts/Systems/WorldPerception/NpcWorldPerception.cs:278-289 | the areas known after two lists of entries are the old ones and those named in either list |
| KnowledgeProfiles.InitializeKnowledge | Scripts/Systems/WorldPerception/NpcWorldPerception.cs:94-99 | outside long-term mode nothing is learned; in long-term mode the known areas become the old ones plus every profile area and every instance area, every profile and instance entry is applied (its sections known with their objects), and every new section or object key is one of those entries makes known |
| KnowledgeProfiles.ApplyKnownAreaTwice | Scripts/Systems/WorldPerception/NpcWorldPerception.cs:299-337 | applying a known area twice is the same as once |
| KnowledgeProfiles.LearnObjectsKnown | Scripts/Systems/WorldPerception/NpcWorldPerception.cs:480-487 | learning objects already known changes nothing |
| KnowledgeProfiles.LearnAllSectionsKnown | Scripts/Systems/WorldPerception/NpcWorldPerception.cs:303-314 | learning sections already known with their objects changes nothing |
| KnowledgeProfiles.LearnListedSectionsKnown | Scripts/Systems/WorldPerception/NpcWorldPerception.cs:315-336 | learning profile sections already known changes nothing |
| ActionDurations.ParseDuration | Scripts/Systems/WorldPerception/NpcWorldPerception.cs:256-276 | without a unit word the duration is 0 seconds; with "hour" it is the leading number times 3600; a non-number is an error; a result is never negative |
| ActionDurations.ExtractDuration | Scripts/Systems/WorldPerception/NpcWorldPerception.cs:155-159 | a duration is found exactly when the last `(` is past index 0 and before the last `)`; the action is then the text up to `(`, the duration, and `)` |
| ActionDurations.ForcesNewAction | Scripts/Systems/WorldPerception/NpcWorldPerception.cs:155-176 | no duration never forces; an unparsable one is an error; a force needs positive elapsed time |
| ActionDurations.UnitWordChars | Scripts/Systems/WorldPerception/NpcWorldPerception.cs:260-270 | unit words are lower-case letters; only "hour" has an `h` and "second" has no `m` |
| ActionDurations.DurationAmount | Scripts/Systems/WorldPerception/NpcWorldPerception.cs:262 | the text before the first space of `<n> <unit>` is the number |
| ActionDurations.WordOccurs | Scripts/Systems/WorldPerception/NpcWorldPerception.cs:260 | the unit word occurs in `<n> <unit>` |
| ActionDurations.CharAbsent | Scripts/Systems/WorldPerception/NpcWorldPerception.cs:265-270 | a word starting with a character absent from `<n> <unit>` does not occur in it |
| ActionDurations.AmountOf | Scripts/Systems/WorldPerception/NpcWorldPerception.cs:262 | the amount of `<n> <unit>` parses to n |
| ActionDurations.ParseReadText | Scripts/Systems/WorldPerception/NpcWorldPerception.cs:256-276 | when a text contains its unit word, none before it in the checking order, and a number first, the duration is that number of units in seconds |
| ActionDurations.DurationTextReads | Scripts/Systems/WorldPerception/NpcWorldPerception.cs:256-276 | `<n> <unit>` shows its unit word first in the checking order and its number first |
| ActionDurations.ParseDurationOf | Scripts/Systems/WorldPerception/NpcWorldPerception.cs:256-276 | `<n> hour(s)`, `<n> minute(s)` and `<n> second(s)` parse to n·3600, n·60 and n seconds |
| ActionDurations.ForcesNewActionOf | Scripts/Systems/WorldPerception/NpcWorldPerception.cs:155-176 | an action ending in `(<n> <unit>)` forces a new action exactly when elapsed time exceeds 1.25 times n units |
| LogEntries.NewLogEntry | Scripts/Logging/LogEntry.cs:24-34 | the entry stores the simulated time, category, level, message, context and agent id as given |
| LogEntries.EscapeCons | Scripts/Logging/LogEntry.cs:64 | escaping works character by character: `]` becomes `\]` and anything else stays |
| LogEntries.EscapedBrackets | Scripts/Logging/LogEntry.cs:64 | every `]` in an escaped value follows a backslash |
| LogEntries.UnescapeEscape | Scripts/Logging/LogEntry.cs:64 | escaping loses nothing: removing the backslashes gives the value back |
| LogEntries.Pair | Scripts/Logging/LogEntry.cs:66 | a rendered pair ends in `]` |
| LogEntries.AppendedIsJoin | Scripts/Logging/LogEntry.cs:59-67 | the builder holds the pieces, each followed by one space |
| LogEntries.TrimAfterBracket | Scripts/Logging/LogEntry.cs:69 | trimming removes exactly the one trailing space |
| LogEntries.RenderIsJoin | Scripts/Logging/LogEntry.cs:59-69 | the rendering is the pieces separated by single spaces, with none after the last |
| LogEntries.GetContextAsString | Scripts/Logging/LogEntry.cs:54-70 | empty exactly for a null or empty context; otherwise the pieces joined by single spaces |
| LogSystems.LastFilter | Scripts/Logging/LogSystem.cs:90-93 | a category has a filter setting exactly when some filter names it |
| LogSystems.LastFilterAt | Scripts/Logging/LogSystem.cs:90-93 | the last filter naming a category decides it |
| LogSystems.ApplyFilters | Scripts/Logging/LogSystem.cs:90-93 | the filtered categories are added, each with its last filter's setting; others keep their value |
| LogSystems.AddDefaults | Scripts/Logging/LogSystem.cs:95-98 | every category is present; a category already set keeps its value, and any other is enabled |
| LogSystems.InitializeCategories | Scripts/Logging/LogSystem.cs:85-98 | with logging off the map stays empty; otherwise every category is present, with its last filter's setting or enabled |
| LogSystems.LaterFilterWins | Scripts/Logging/LogSystem.cs:90-93 | a later filter for a category overrides an earlier one |
| LogSystems.UnfilteredIsEnabled | Scripts/Logging/LogSystem.cs:95-98 | a category without a filter is enabled |
| LogSystems.Initialize | Scripts/Logging/LogSystem.cs:85-98 | initialisation builds the category map and starts with an empty buffer |
| LogSystems.BoundedAppend | Scripts/Logging/LogSystem.cs:139-143 | append then drop the oldest if over the maximum: a buffer within capacity becomes the last `max` of old plus new |
| LogSystems.Log | Scripts/Logging/LogSystem.cs:125-143 | the configuration never changes; a rejected entry stores nothing; an accepted one is appended with at most the oldest dropped, so the buffer stays within the maximum |
| LogSystems.BufferIsWindow | Scripts/Logging/LogSystem.cs:128-143 | after any run of log calls the buffer is the last `max` of the old buffer followed by the accepted entries, in order |
| LogSystems.WindowStep | Scripts/Logging/LogSystem.cs:128-143 | one log call keeps the sliding-window form |
| LogSystems.WindowAfter | Scripts/Logging/LogSystem.cs:139-143 | appending one entry to the window is the window of the longer sequence |
| LogSystems.SameGate | Scripts/Logging/LogSystem.cs:128-135 | two systems with the same configuration accept the same entries |
| LogSystems.GetRecentLogs | Scripts/Logging/LogSystem.cs:203-207 | a negative count is an error; otherwise the last min(count, size) entries, in order |
| LogSystems.Matching | Scripts/Logging/LogSystem.cs:212-213 | only entries of the agent are kept |
| LogSystems.MatchingMembers | Scripts/Logging/LogSystem.cs:212-213 | an entry is kept exactly when it is in the buffer and belongs to the agent |
| LogSystems.MatchingAppend | Scripts/Logging/LogSystem.cs:212-213 | filtering keeps buffer order: it distributes over concatenation |
| LogSystems.GetAgentLogs | Scripts/Logging/LogSystem.cs:210-216 | with m the agent's entries in buffer order, the result is the final min(maxCount, length of m) of them, in order, and none for a count that is not positive; every entry returned belongs to the agent |
| LogSystems.AgentIdsOf | Scripts/Logging/LogSystem.cs:221-223 | exactly the non-empty agent ids present in the buffer |
| LogSystems.GetAllAgentIds | Scripts/Logging/LogSystem.cs:219-226 | distinct ids, and exactly the non-empty ids present in the buffer |
| LogSystems.SerializeContext | Scripts/Logging/LogSystem.cs:306-343 | empty exactly for a null or empty context; otherwise the filtered context rendered as pieces joined by single spaces |
| LogSystems.FilteredNotEmpty | Scripts/Logging/LogSystem.cs:312-326 | filtering never empties a non-empty context |
| LogSystems.NoLargeFieldSerialised | Scripts/Logging/LogSystem.cs:316-321 | neither `Prompt` nor `Response` is ever rendered |
| LogSystems.PromptLoggedAsLength | Scripts/Logging/LogSystem.cs:317-321 | a string prompt is rendered as `PromptLength` with its length in UTF-16 code units |
| LogSystems.ContextRenderingsAgree | Scripts/Logging/LogSystem.cs:306-343 | for a context without `Prompt` or `Response` keys, the log system's rendering equals the entry's rendering |
| Text.TrimStart | Scripts/Memory/NpcMemorySystem.cs:264 | removes exactly the leading white space: a suffix of the text, not starting with white space |
| Text.TrimEnd | Scripts/Logging/LogSystem.cs:342 | removes exactly the trailing white space: a prefix of the text, not ending with white space |
| Text.Trim | Scripts/Memory/NpcMemorySystem.cs:264 | the trimmed text sits inside the original with only white space around it; it is empty exactly for blank text, and otherwise starts and ends without white space |
| Text.TrimIsInfix | Scripts/Memory/NpcMemorySystem.cs:264 | trimming both ends leaves an infix with white space only around it |
| Text.TrimEnds | Scripts/Memory/NpcMemorySystem.cs:264 | a trimmed text neither starts nor ends with white space |
| Text.TrimPadded | Scripts/Memory/NpcMemorySystem.cs:639 | trimming removes blank padding on both sides of a word |
| Text.TrimTrimmed | Scripts/Memory/NpcMemorySystem.cs:264 | text without white space at its ends is its own trim |
| Text.TrimIdempotent | Scripts/Memory/NpcMemorySystem.cs:264 | trimming twice is trimming once |
| Text.FindFrom | Scripts/Systems/WorldPerception/NpcWorldPerception.cs:260 | the search finds the first occurrence at or after the start, or reports there is none |
| Text.OccurrenceIsContained | Scripts/Systems/WorldPerception/NpcWorldPerception.cs:260 | an occurrence anywhere means the text contains the pattern |
| Text.ContainsIffOccurs | Scripts/Systems/WorldPerception/NpcWorldPerception.cs:260 | the text contains the pattern exactly when the pattern occurs somewhere in it |
| Text.Utf16Length | Scripts/Logging/LogSystem.cs:320 | `string.Length` counts UTF-16 code units: between one and two per character, one per character exactly when none lies outside the Basic Multilingual Plane, and two per character exactly when all do |
| Text.Utf16LengthAppend | Scripts/Logging/LogSystem.cs:320 | the code-unit count of a concatenation is the sum of the counts |
| Text.Utf16LengthOfEmoji | Scripts/Logging/LogSystem.cs:320 | the one-character text U+1F600 (an emoji) has length 2 |
| Text.NotContains | Scripts/Systems/WorldPerception/NpcWorldPerception.cs:260 | a pattern that occurs nowhere is not contained |
| Text.Split | Scripts/Memory/NpcMemorySystem.cs:257 | splitting gives at least one piece, and no piece contains the separator |
| Text.JoinSplit | Scripts/Memory/ReflectionSystem.cs:99 | joining the pieces with the separator gives back the text |
| Text.SplitEmpty | Scripts/Memory/ReflectionSystem.cs:99 | an empty reply splits into one empty piece |
| Text.SplitJoin | Scripts/Memory/NpcMemorySystem.cs:257 | splitting pieces joined by a one-character separator they do not contain gives back the pieces |
| Text.HeadBeforeFirst | Scripts/Systems/WorldPerception/NpcWorldPerception.cs:262 | the text before the first separator contains none |
| Text.ReplaceAbsent | Scripts/Systems/WorldPerception/WorldTree.cs:155 | replacing a pattern that does not occur changes nothing |
| Text.ReplaceAfter | Scripts/Systems/WorldPerception/WorldTree.cs:155 | a prefix with no occurrence starting in it is kept as is |
| Text.ReplaceAtFront | Scripts/Logging/LogSystem.cs:337 | an occurrence at the front is replaced and the scan continues after it |
| Text.LastIndexOf | Scripts/Systems/WorldPerception/NpcWorldPerception.cs:155-156 | the result is -1 or an index of the character, with no occurrence after it |
| Text.LastIndexOfIs | Scripts/Systems/WorldPerception/NpcWorldPerception.cs:155-156 | the last occurrence of the character is found |
| Text.NatToString | Scripts/Systems/SimDateTime.cs:73 | a number prints as digits, without a leading zero |
| Text.NatToStringRoundTrip | Scripts/Systems/SimDateTime.cs:73 | the printed digits read back as the number |
| Text.PadNat2 | Scripts/Systems/SimDateTime.cs:73 | `{x:00}` prints at least two digits, exactly two below 100, reading back as x |
| Text.ParseInt32 | Scripts/Memory/NpcMemorySystem.cs:639 | a parsed value is a 32-bit integer |
| Text.ParseInt32RoundTrip | Scripts/Memory/NpcMemorySystem.cs:639-640 | every 32-bit integer, printed, parses back to itself |
| Text.ParseDigits | Scripts/Memory/NpcMemorySystem.cs:639 | a digit string, with or without a `-`, parses to its value exactly when that fits in 32 bits |
| Text.DigitsHaveNoDot | Scripts/Systems/WorldPerception/NpcWorldPerception.cs:262 | a digit string has no decimal point |
| Text.ParseDecimal | Scripts/Systems/WorldPerception/NpcWorldPerception.cs:262 | a digit string parses to its value, and a parsed value is never negative |

## Left out

- Unity lifecycle and singletons (`Start`, `Awake`, `Update`, the coroutine timer, `Instance`): the mode, the flags, the clock value and the world index are parameters.
- Concurrency: every awaited call is a sequential step, and the fire-and-forget `AddObservation` is taken to complete before the next operation.
- The language model and all prompt text (`GenerateCharacterDescription`, `CreatePromptForLLM`, `PromptForAction`, `GetWorldPerceptionDescription`, `ChangeObjectState`): replies are oracle functions. The question reply depends only on the recent descriptions, and the insight reply only on the question and the relevant descriptions.
- The embedding cache, `GetEmbeddingFromLLM`, `GenerateFallbackEmbedding` and `NormalizeVector`: the embedding is an oracle function. Because it is a function, the cache cannot change a result.
- Floating point: floats and doubles are reals. Rounding, NaN and infinities are not modelled, and `Mathf.Sqrt` and `Mathf.Pow` are oracle functions.
- The recency score itself: the model states the score as the decay factor raised to the hours since the last access. It does not prove that the score decreases with age, because the power function is an oracle.
- SimDateTime seconds are whole numbers, so `DoTimeStep`'s `seconds %= 60f` on a fractional value is not modelled.
- Logging from the memory engine (`LogMemoryCreation`, `LogMemoryRetrieval`), `LogLLMPrompt`, `LogLLMResponse`, `LogAction`, `CountTokens`, console and file output, and `LogEntry.ToString`: these are output only. The wall-clock time stamp of an entry is dropped.
- The `LogCategory` enum's file is not part of this model. The categories are those the core logs under (Memory, LLM, Action); the `System` category that `DaytimeCycle.Start` logs under is left out with that call.
- `WorldTree.GetAreaNode`, `GetNaturalLanguageDescription`, `PrintWorldHierarchy` and `AreaNode.PrintHierarchy`: lookups without logic, unimplemented code, or debug output.
- `NpcMemorySystem.SetCurrentAction`, `UpdateCurrentLocation`, `SetPreviousDayPlan` and `InitializeCharacter`: these are field assignments plus an `AddObservation`, which is modelled.
- `UpdateCurrentLocation` after `EnterArea` and `EnterSection`: the observation it adds is not part of the perception model.
- A blank node name in the scene makes `BuildWorldTree` throw part-way through. The model returns a failure and no index, rather than the partly built dictionary.
- The model restricts char.IsLetterOrDigit to ASCII letters and digits; .NET accepts every Unicode letter and digit. char.IsWhiteSpace is modelled as the Unicode white-space set.
- `double.Parse` reads unsigned decimals (`12`, `1.5`) only. Signs, exponents, group separators and culture formats are not modelled. A text it cannot read is an error value (None), not an exception.
- `int.TryParse` reads an optional sign and decimal digits after the reply is trimmed.
- The model compares text ordinally, character by character. In .NET, `string.StartsWith(string)` compares with the current culture, and `string.Contains(string)` is ordinal. Culture-specific matching is not modelled.
- WorldPerception.GetKnownSectionsInArea: returns a set rather than a list, so enumeration order and repeated names are not modelled.
- WorldPerception.GetKnownObjectsInSection: returns a set, for the same reason.
- The knowledge dictionaries are Dafny maps, because `knownAreas` and the others have entries removed and their enumeration order is never observed by the model.
- MemoryStreams.RetrieveRecent: `List.Sort` is unstable. The contract states what any correct sort gives (size, newest first, and no newer memory left out), not which of several equally old memories is taken.
- MemoryEngine.ReflectOnInsights: states that exactly the insights are added only when no nested reflection fires. When one fires, it states that every insight is added and that everything added is a reflection.
- MemoryEngine.ReflectOnQuestions: one retrieval and one insight request per question is the structure of the function. The contract states only the growth of the long-term list.
- MemoryEngine.PerformReflection: the clock is held at one value, `now`, for a whole reflection, and so are ReflectOnQuestions and ReflectOnInsights. In the source each insight memory is created, and each recalled memory is touched, at the clock reading taken after its awaited language-model calls, while the clock keeps ticking. The model gives all of them the reading at the start of the reflection.
- MemoryStreams.KeepStatements: its own contract states only the shape of what is kept. That blank pieces are skipped and the others kept trimmed, in order, is stated by MemoryStreams.KeepOne and MemoryStreams.KeepAppend.
- MemoryEngine.CheckReflection: the insert → reflect → insert recursion carries a `fuel` bound. With no fuel left, a reflection that is due is skipped, and the accumulator is still reset.
- WorldPerception.PerceivedObservations: bounds the observations by the objects and ties each one to an object. It does not state their order.
- WorldTrees.GetSectionsInArea: its own contract states which names are listed, not their order. The order is stated by WorldTrees.SectionsInAreaLookup together with WorldTrees.TaggedNamesAppend, for colon-free area names.
- WorldTrees.GetObjectsInSection: its own contract states which names are listed, not their order. The order is stated by WorldTrees.ObjectsInSectionLookup together with WorldTrees.TaggedNamesAppend, for colon-free names.
- WorldTrees.Build: each object is stored under the intended key `area:section:object`. The key the code builds is WorldTrees.ObjectKeyAsWritten, and the two differ only when a name contains `World:` (see Findings).
- `EnterArea`'s call to `ClearOldMemories` is modelled as the comment beside it intends; the code as written is modelled separately (see Findings).
- `DaytimeCycle.AddHours` is modelled with the hours carried into days; the code as written is modelled separately (see Findings).
- DaytimeCycle.SecondsBetweenIsDifference and DaytimeCycle.SecondsBetweenAgreesWithCompareTo state the exact elapsed seconds. The code as written is DaytimeCycle.SecondsBetweenAsWritten, which agrees with them up to day 24855 and wraps from day 24856 on (see Findings).
- DaytimeCycle.Tick: the day counter is unbounded. In the source `Day++` is 32-bit and wraps at `int.MaxValue`, after which the setter's `Mathf.Max(1, value)` resets the day to 1. That wrap is not modelled.
- DaytimeCycle.HoursBetween: `(Day - 1) * 24 + Hours` is 32-bit in the source and wraps from about day 89,478,486 on. The model computes it exactly, so hours-between stays the exact elapsed seconds divided by 3600.

## Findings

| source | as written | input that shows it | evidently intended | confidence | as-written member | corrected member |
|---|---|---|---|---|---|---|
| Scripts/Systems/DaytimeCycle.cs:121-124 | `Hours += k` goes through the clamping setter, so hours past 24 are cut to 24 and nothing carries into the day | day 1 20:00:00 plus 8 hours is day 1 24:00:00, 4 hours later instead of 8; a tick from hour 24, 59:59 then moves 3599 seconds back | carry whole days, so the clock advances by k hours | not executed | DaytimeCycle.AddHoursAsWrittenLosesHours | DaytimeCycle.AddHours |
| Scripts/Systems/DaytimeCycle.cs:111-119 | the day, hour and minute terms are summed in `int`, which wraps once the total passes 2^31 - 1 seconds, from day 24856 on | from day 2 00:00:00 to day 24858 00:00:00 the result is -2147408896 seconds, although the second time is 2147558400 seconds later | the exact elapsed seconds, with the sign of `CompareTo` | not executed; it needs a span of about 68 simulated years | DaytimeCycle.SecondsBetweenAsWrittenWraps | DaytimeCycle.SecondsBetweenAgreesWithCompareTo |
| Scripts/Systems/WorldPerception/WorldTree.cs:154-155 | `Replace("World:", "")` strips every occurrence of `World:`, not only the root's prefix | area `NewWorld`, section `Kitchen`, object `Cup`: the key stored is `NewKitchen:Cup` | strip only the leading `World:`, giving `NewWorld:Kitchen:Cup` | not executed | WorldTrees.NewWorldKitchenCup | WorldTrees.ObjectLookup |
| Scripts/Systems/WorldPerception/NpcWorldPerception.cs:349-358 | `ClearOldMemories(previousArea)` runs before `currentArea` is updated, so the area kept and the area excepted are both the one being left | short-term mode, in area `a`, with area `b` and section `b:s` known; entering `b` forgets `b:s` | keep the current and the previous area, as the comment on line 354 says | not executed | WorldPerception.EnterAreaAsWrittenForgetsDestination | WorldPerception.EnterAreaKeepsDestination |

## Where the code and its description differ

The model follows the code in each case.

- Relevant retrieval walks the memories in descending combined score and keeps the first memory seen for each description. It stops as soon as the cap is reached, and returns the kept memories in the order they were first kept. The result is the same set as "deduplicate, then take the best", but the walk is what is modelled.
- The importance reply is read as any 32-bit integer, not only 1 to 10. The memory constructor then clamps it.
- An hour field of 24 can be stored, because the setter's upper bound is inclusive.
- The sort behind recent retrieval is not stable, so ties between equally old memories are not ordered.

=== FILE: action_duration.dfy ===
/** The intended duration an agent's current action carries, as in
    `<name> is making coffee (3 minutes)`, and the rule that forces a new action once it has been
    overrun by a quarter. */
module ActionDurations {
  import opened Wrappers
  import opened Text

  datatype TimeUnit = Hours | Minutes | Seconds

  /** The seconds one unit stands for. */
  function UnitSeconds(u: TimeUnit): real {
    match u
    case Hours => 3600.0
    case Minutes => 60.0
    case Seconds => 1.0
  }

  /** The word a duration names its unit with, singular or plural. */
  function UnitWord(u: TimeUnit, plural: bool): string {
    if plural then BaseWord(u) + "s" else BaseWord(u)
  }

  /** `ParseDuration`: the unit is found by substring, "hour" before "minute" before "second";
      the amount is the text before the first space. Without a unit word the duration is zero;
      an amount that is not a number is an error (None). */
  function ParseDuration(text: string): (r: Option<real>)
    ensures r.Some? ==> r.value >= 0.0
    ensures !Contains(text, "hour") && !Contains(text, "minute") && !Contains(text, "second") ==>
      r == Some(0.0)
    ensures Contains(text, "hour") ==>
      r == (match ParseDecimal(Split(text, " ")[0]) case None => None case Some(h) => Some(h * 3600.0))
  {
    var amount := ParseDecimal(Split(text, " ")[0]);
    if Contains(text, "hour") then
      match amount case None => None case Some(h) => Some(h * 60.0 * 60.0)
    else if Contains(text, "minute") then
      match amount case None => None case Some(m) => Some(m * 60.0)
    else if Contains(text, "second") then
      amount
    else Some(0.0)
  }

  /** The text between the last '(' and the last ')', when the '(' is not the first character
      and the ')' comes after it. */
  function ExtractDuration(action: string): (r: Option<string>)
    ensures r.Some? <==> 0 < LastIndexOf(action, '(') < LastIndexOf(action, ')')
    ensures r.Some? ==>
      var start := LastIndexOf(action, '(');
      var end := LastIndexOf(action, ')');
      action == action[..start] + "(" + r.value + ")" + action[end + 1..]
      && (forall i | 0 <= i < |r.value| :: r.value[i] != '(')
  {
    var start := LastIndexOf(action, '(');
    var end := LastIndexOf(action, ')');
    if start > 0 && end > start then
      var d := action[start + 1..end];
      assert action == action[..start] + [action[start]] + d + [action[end]] + action[end + 1..];
      Some(d)
    else None
  }

  /** Whether the elapsed seconds exceed the intended duration by more than a quarter. An action
      without a duration is never forced; a duration whose amount is not a number is an error. */
  function ForcesNewAction(action: string, elapsed: real): (r: Result<bool, string>)
    ensures ExtractDuration(action).None? ==> r == Success(false)
    ensures r.Failure? <==>
      ExtractDuration(action).Some? && ParseDuration(ExtractDuration(action).value).None?
    ensures r == Success(true) ==> elapsed > 0.0
  {
    match ExtractDuration(action)
    case None => Success(false)
    case Some(d) =>
      match ParseDuration(d)
      case None => Failure("duration amount is not a number")
      case Some(seconds) => Success(elapsed > seconds * 1.25)
  }

  /** Unit words are lower-case letters; only "hour" has an 'h', and "second" has no 'm'. */
  lemma UnitWordChars(u: TimeUnit, plural: bool)
    ensures forall i | 0 <= i < |UnitWord(u, plural)| :: 'a' <= UnitWord(u, plural)[i] <= 'z'
    ensures u != Hours ==> forall i | 0 <= i < |UnitWord(u, plural)| :: UnitWord(u, plural)[i] != 'h'
    ensures u == Seconds ==> forall i | 0 <= i < |UnitWord(u, plural)| :: UnitWord(u, plural)[i] != 'm'
  {
  }

  /** A rendered amount, a space and a unit word. */
  function DurationText(n: nat, u: TimeUnit, plural: bool): string {
    NatToString(n) + " " + UnitWord(u, plural)
  }

  /** The amount is the text before the first space. */
  lemma DurationAmount(n: nat, u: TimeUnit, plural: bool)
    ensures Split(DurationText(n, u, plural), " ")[0] == NatToString(n)
  {
    var digits := NatToString(n);
    var t := DurationText(n, u, plural);
    assert IsAt(t, " ", |digits|) by {
      assert t[|digits|..|digits| + 1] == " ";
    }
    forall j | 0 <= j < |digits| ensures !IsAt(t, " ", j) {
      assert t[j] == digits[j];
      assert t[j..j + 1][0] == t[j];
    }
    FindFromFirst(t, " ", 0, |digits|);
    assert Split(t, " ") == [t[..|digits|]] + Split(t[|digits| + 1..], " ");
    assert t[..|digits|] == digits;
  }

  /** The unit word occurs right after the space. */
  lemma WordOccurs(n: nat, u: TimeUnit, plural: bool, pat: string)
    requires StartsWith(UnitWord(u, plural), pat)
    ensures Contains(DurationText(n, u, plural), pat)
  {
    var t := DurationText(n, u, plural);
    var j := |NatToString(n)| + 1;
    assert t[j..j + |pat|] == UnitWord(u, plural)[..|pat|];
    OccurrenceIsContained(t, pat, j);
  }

  /** A pattern whose first character is neither a digit, a space nor a letter of the unit word
      does not occur in a duration text. */
  lemma CharAbsent(n: nat, u: TimeUnit, plural: bool, pat: string)
    requires |pat| > 0 && !IsDigit(pat[0]) && pat[0] != ' '
    requires forall i | 0 <= i < |UnitWord(u, plural)| :: UnitWord(u, plural)[i] != pat[0]
    ensures !Contains(DurationText(n, u, plural), pat)
  {
    var digits := NatToString(n);
    var t := DurationText(n, u, plural);
    forall i | 0 <= i < |t| ensures t[i] != pat[0] {
      if i < |digits| {
        assert t[i] == digits[i];
      } else if i > |digits| {
        assert t[i] == UnitWord(u, plural)[i - |digits| - 1];
      }
    }
    FirstCharAbsent(t, pat);
  }

  /** The amount of a duration text reads back as the number. */
  lemma AmountOf(n: nat, u: TimeUnit, plural: bool)
    ensures ParseDecimal(Split(DurationText(n, u, plural), " ")[0]) == Some(n as real)
  {
    DurationAmount(n, u, plural);
    NatToStringRoundTrip(n);
  }

  /** The word that identifies a unit. */
  function BaseWord(u: TimeUnit): string {
    match u case Hours => "hour" case Minutes => "minute" case Seconds => "second"
  }

  /** What ParseDuration looks at in a text: which unit words occur, and the amount. */
  predicate ReadsAs(t: string, x: real, u: TimeUnit) {
    Contains(t, BaseWord(u))
    && (u != Hours ==> !Contains(t, "hour"))
    && (u == Seconds ==> !Contains(t, "minute"))
    && ParseDecimal(Split(t, " ")[0]) == Some(x)
  }

  lemma ParseReadText(t: string, x: real, u: TimeUnit)
    requires ReadsAs(t, x, u)
    ensures ParseDuration(t) == Some(x * UnitSeconds(u))
  {
  }

  lemma DurationTextReads(n: nat, u: TimeUnit, plural: bool)
    ensures ReadsAs(DurationText(n, u, plural), n as real, u)
  {
    AmountOf(n, u, plural);
    UnitWordChars(u, plural);
    assert UnitWord(u, plural)[..|BaseWord(u)|] == BaseWord(u);
    WordOccurs(n, u, plural, BaseWord(u));
    if u != Hours {
      CharAbsent(n, u, plural, "hour");
    }
    if u == Seconds {
      CharAbsent(n, u, plural, "minute");
    }
  }

  /** A duration written as a whole number and a unit word parses to that many units'
      seconds. */
  lemma ParseDurationOf(n: nat, u: TimeUnit, plural: bool)
    ensures ParseDuration(DurationText(n, u, plural)) == Some(n as real * UnitSeconds(u))
  {
    DurationTextReads(n, u, plural);
    ParseReadText(DurationText(n, u, plural), n as real, u);
  }

  /** An action ending in `(<n> <unit>)` forces a new action exactly when more than a quarter
      longer than `n` units has passed. */
  lemma ForcesNewActionOf(prefix: string, n: nat, u: TimeUnit, plural: bool, elapsed: real)
    requires prefix != ""
    ensures ForcesNewAction(prefix + "(" + DurationText(n, u, plural) + ")", elapsed)
      == Success(elapsed > n as real * UnitSeconds(u) * 1.25)
  {
    var d := DurationText(n, u, plural);
    var action := prefix + "(" + d + ")";
    var digits := NatToString(n);
    UnitWordChars(u, plural);
    forall j | 0 <= j < |d| ensures d[j] != '(' && d[j] != ')' {
      if j < |digits| {
        assert d[j] == digits[j];
      } else if j > |digits| {
        assert d[j] == UnitWord(u, plural)[j - |digits| - 1];
      }
    }
    forall j | |prefix| < j < |action| ensures action[j] != '(' {
      if j < |action| - 1 {
        assert action[j] == d[j - |prefix| - 1];
      }
    }
    LastIndexOfIs(action, '(', |prefix|);
    LastIndexOfIs(action, ')', |action| - 1);
    assert action[|prefix| + 1..|action| - 1] == d;
    ParseDurationOf(n, u, plural);
  }
}

=== FILE: area_node.dfy ===
/** A node of the world hierarchy: the world root, an area, a section of an area, or an object
    inside a section. */
module AreaNodes {
  import opened Wrappers
  import opened Text

  /** The scene object a node stands for, by identity. */
  type ObjectId = nat

  /** `parent` holds the parent as it was when this node was constructed. Only its name and its
      own parent are ever read through it, and neither changes after construction. */
  datatype AreaNode = AreaNode(
    name: string,
    worldObject: ObjectId,
    parent: Option<AreaNode>,
    children: seq<AreaNode>,
    isObject: bool)

  /** The node kinds `GetNodeType` reports. */
  const ObjectType := "Object"
  const SectionType := "Section"
  const AreaType := "Area"
  const WorldType := "World"

  /** The constructor: a blank name is an argument error; otherwise the node starts without
      children and is not an object. */
  function NewNode(name: string, worldObject: ObjectId, parent: Option<AreaNode>): (r: Result<AreaNode, string>)
    ensures r.Failure? <==> IsBlank(name)
    ensures r.Success? ==>
      r.value.name == name && r.value.worldObject == worldObject
      && r.value.parent == parent && r.value.children == [] && !r.value.isObject
  {
    if IsBlank(name) then Failure("Area name cannot be null or empty")
    else Success(AreaNode(name, worldObject, parent, [], false))
  }

  /** `AddChild`: a missing child is an argument error; otherwise the child goes at the end and
      nothing else changes. */
  function AddChild(node: AreaNode, child: Option<AreaNode>): (r: Result<AreaNode, string>)
    ensures r.Failure? <==> child.None?
    ensures r.Success? ==> r.value.children == node.children + [child.value]
    ensures r.Success? ==>
      r.value.name == node.name && r.value.parent == node.parent
      && r.value.worldObject == node.worldObject && r.value.isObject == node.isObject
  {
    match child
    case None => Failure("Cannot add null child node")
    case Some(c) => Success(node.(children := node.children + [c]))
  }

  /** Whether some node of the list is named `n`, scanning from the front. */
  function AnyNamed(nodes: seq<AreaNode>, n: string): (b: bool)
    ensures b <==> exists i | 0 <= i < |nodes| :: nodes[i].name == n
  {
    if nodes == [] then false
    else nodes[0].name == n || AnyNamed(nodes[1..], n)
  }

  /** `HasChild`: true exactly when a direct child carries the name. */
  function HasChild(node: AreaNode, n: string): (b: bool)
    ensures b <==> exists i | 0 <= i < |node.children| :: node.children[i].name == n
  {
    AnyNamed(node.children, n)
  }

  /** The names from the root down to the node. */
  function PathNames(node: AreaNode): (ns: seq<string>)
    ensures |ns| >= 1 && ns[|ns| - 1] == node.name
    decreases node
  {
    match node.parent
    case None => [node.name]
    case Some(p) => PathNames(p) + [node.name]
  }

  /** `GetFullPath`: the root's name, or the parent's path, a colon and the node's name. */
  function FullPath(node: AreaNode): string
    decreases node
  {
    match node.parent
    case None => node.name
    case Some(p) => FullPath(p) + ":" + node.name
  }

  /** The full path is the names from the root joined with colons. */
  lemma {:induction false} FullPathIsJoin(node: AreaNode)
    ensures FullPath(node) == Join(PathNames(node), ":")
    decreases node
  {
    match node.parent
    case None =>
    case Some(p) =>
      FullPathIsJoin(p);
      JoinSnoc(PathNames(p), node.name, ":");
  }

  /** Joining a list with one more part at the end adds a separator and that part. */
  lemma {:induction false} JoinSnoc(parts: seq<string>, last: string, sep: string)
    requires |parts| >= 1
    ensures Join(parts + [last], sep) == Join(parts, sep) + sep + last
    decreases |parts|
  {
    if |parts| == 1 {
      assert parts + [last] == [parts[0], last];
      assert [parts[0], last][1..] == [last];
    } else {
      assert (parts + [last])[1..] == parts[1..] + [last];
      JoinSnoc(parts[1..], last, sep);
    }
  }

  /** When no name on the way from the root holds a colon, the full path splits back into those
      names: the path names the node unambiguously. */
  lemma FullPathSplits(node: AreaNode)
    requires forall i | 0 <= i < |PathNames(node)| :: !Contains(PathNames(node)[i], ":")
    ensures Split(FullPath(node), ":") == PathNames(node)
  {
    FullPathIsJoin(node);
    SplitJoin(PathNames(node), ":");
  }

  /** How many ancestors the node has. */
  function Depth(node: AreaNode): nat
    decreases node
  {
    match node.parent
    case None => 0
    case Some(p) => 1 + Depth(p)
  }

  /** `GetNodeType`: the object flag first, then the position in the hierarchy. */
  function NodeType(node: AreaNode): (t: string)
    ensures t == ObjectType <==> node.isObject
  {
    if node.isObject then ObjectType
    else if node.parent.Some? && node.parent.value.parent.Some? then SectionType
    else if node.parent.Some? then AreaType
    else WorldType
  }

  /** Apart from objects, the reported type is the depth: the root is the world, its children are
      areas, and everything deeper is a section. */
  lemma NodeTypeByDepth(node: AreaNode)
    requires !node.isObject
    ensures NodeType(node) == WorldType <==> Depth(node) == 0
    ensures NodeType(node) == AreaType <==> Depth(node) == 1
    ensures NodeType(node) == SectionType <==> Depth(node) >= 2
  {
    match node.parent
    case None =>
    case Some(p) =>
      match p.parent
      case None =>
      case Some(g) =>
        assert Depth(node) == 2 + Depth(g);
  }

  /** char.IsLetterOrDigit, restricted to ASCII letters and digits. */
  predicate IsLetterOrDigit(c: char) {
    ('a' <= c <= 'z') || ('A' <= c <= 'Z') || IsDigit(c)
  }

  predicate IsNameChar(c: char) {
    IsLetterOrDigit(c) || c == ' ' || c == '_'
  }

  /** Whether every character of `s` may appear in a node name, scanning from the front. */
  function AllNameChars(s: string): (b: bool)
    ensures b <==> forall i | 0 <= i < |s| :: IsNameChar(s[i])
  {
    if s == [] then true
    else IsNameChar(s[0]) && AllNameChars(s[1..])
  }

  /** `ValidateName`: not blank, and only letters, digits, spaces and underscores. */
  function ValidateName(name: string): (b: bool)
    ensures b <==> !IsBlank(name) && forall i | 0 <= i < |name| :: IsNameChar(name[i])
  {
    !IsBlank(name) && AllNameChars(name)
  }

  /** A valid name is accepted by the constructor and holds no colon, so it can never be
      mistaken for a path. */
  lemma ValidNameIsUsable(name: string, worldObject: ObjectId, parent: Option<AreaNode>)
    requires ValidateName(name)
    ensures NewNode(name, worldObject, parent).Success?
    ensures !Contains(name, ":")
  {
    forall j: nat ensures !IsAt(name, ":", j) {
      if j + 1 <= |name| {
        assert name[j..j + 1][0] == name[j];
      }
    }
    NotContains(name, ":");
  }
}

=== FILE: daytime_cycle.dfy ===
/** The simulation clock: the one-second tick with its second -> minute -> hour -> day carry,
    the elapsed-time arithmetic between two timestamps, and the hour jump used by the demo keys. */
module DaytimeCycle {
  import opened Text
  import opened SimDateTimes

  /** One step of the clock coroutine. Each increment and each modulo goes through the
      clamping property setters, exactly as the coroutine writes them. */
  function Tick(t: SimDateTime): (r: SimDateTime)
    ensures Valid(t) ==> Valid(r)
    ensures TicksCleanly(t) ==> TotalSeconds(r) == TotalSeconds(t) + 1
  {
    var t1 := SetSeconds(t, t.seconds + 1);
    var t2 := if t1.seconds >= 60 then
                var u := SetMinutes(t1, t1.minutes + 1);
                SetSeconds(u, u.seconds % 60)
              else t1;
    var t3 := if t2.minutes >= 60 then
                var u := SetHours(t2, t2.hours + 1);
                SetMinutes(u, u.minutes % 60)
              else t2;
    if t3.hours >= 24 then
      var u := SetDay(t3, t3.day + 1);
      SetHours(u, u.hours % 24)
    else t3
  }

  /** The timestamp as seconds since the start of day 1. */
  function TotalSeconds(t: SimDateTime): int {
    (t.day - 1) * 86400 + t.hours * 3600 + t.minutes * 60 + t.seconds
  }

  /** `CalculateSecondsBetween(from, to)`. */
  function SecondsBetween(from: SimDateTime, to: SimDateTime): int {
    TotalSeconds(to) - TotalSeconds(from)
  }

  /** C#'s unchecked `int` arithmetic: the exact value reduced into the 32-bit range. */
  function Wrap32(x: int): (r: int)
    ensures InInt32(r)
    ensures (x - r) % 0x1_0000_0000 == 0
    ensures InInt32(x) ==> r == x
  {
    (x + 0x8000_0000) % 0x1_0000_0000 - 0x8000_0000
  }

  /** The whole-minute part of a timestamp, in seconds. `CalculateSecondsBetween` sums it in
      `int`, so it wraps before the `float` seconds are added; a wrap after each product and
      sum gives the same value as one wrap of the exact sum. */
  function MinuteSecondsAsWritten(t: SimDateTime): int {
    Wrap32((t.day - 1) * 86400 + t.hours * 3600 + t.minutes * 60)
  }

  /** The whole-minute part of a timestamp fits in an `int`. */
  predicate MinuteSecondsFit(t: SimDateTime) {
    InInt32((t.day - 1) * 86400 + t.hours * 3600 + t.minutes * 60)
  }

  /** `CalculateSecondsBetween(from, to)` as written: it differs from the elapsed seconds by a
      multiple of 2^32, and equals them while both totals fit in an `int`. */
  function SecondsBetweenAsWritten(from: SimDateTime, to: SimDateTime): (r: int)
    ensures (r - SecondsBetween(from, to)) % 0x1_0000_0000 == 0
    ensures MinuteSecondsFit(from) && MinuteSecondsFit(to) ==> r == SecondsBetween(from, to)
  {
    var a := (from.day - 1) * 86400 + from.hours * 3600 + from.minutes * 60;
    var b := (to.day - 1) * 86400 + to.hours * 3600 + to.minutes * 60;
    var r := (MinuteSecondsAsWritten(to) + to.seconds) - (MinuteSecondsAsWritten(from) + from.seconds);
    assert r - SecondsBetween(from, to) == (Wrap32(b) - b) - (Wrap32(a) - a);
    ModDifference(b - Wrap32(b), a - Wrap32(a));
    r
  }

  /** A difference of multiples of 2^32 is one. */
  lemma ModDifference(x: int, y: int)
    requires x % 0x1_0000_0000 == 0 && y % 0x1_0000_0000 == 0
    ensures (y - x) % 0x1_0000_0000 == 0
  {
    var m := 0x1_0000_0000;
    assert x == (x / m) * m && y == (y / m) * m;
    assert y - x == (y / m - x / m) * m;
  }

  /** Every running-clock time up to day 24855 fits, so there the code as written computes the
      elapsed seconds and their sign agrees with `CompareTo`. */
  lemma SecondsBetweenAsWrittenUpToDay24855(a: SimDateTime, b: SimDateTime)
    requires Valid(a) && Valid(b) && a.day <= 24855 && b.day <= 24855
    ensures SecondsBetweenAsWritten(a, b) == SecondsBetween(a, b)
    ensures SecondsBetweenAsWritten(a, b) > 0 <==> CompareTo(b, a) > 0
    ensures SecondsBetweenAsWritten(a, b) < 0 <==> CompareTo(b, a) < 0
  {
    SecondsBetweenAgreesWithCompareTo(a, b);
  }

  /** From day 2 to day 24858 the later `int` total wraps, so the code as written reports a
      time 24856 days later as about 24854 days earlier. */
  lemma SecondsBetweenAsWrittenWraps()
    ensures var from, to := SimDateTime(2, 0, 0, 0), SimDateTime(24858, 0, 0, 0);
      Valid(from) && Valid(to) && CompareTo(to, from) > 0
      && SecondsBetween(from, to) == 2147558400
      && SecondsBetweenAsWritten(from, to) == -2147408896
  {
    assert MinuteSecondsAsWritten(SimDateTime(2, 0, 0, 0)) == 86400;
    assert MinuteSecondsAsWritten(SimDateTime(24858, 0, 0, 0)) == -2147322496;
  }

  /** `CalculateHoursBetween(from, to)`, computed field by field over the reals; it is the
      elapsed seconds divided by 3600. */
  function HoursBetween(from: SimDateTime, to: SimDateTime): (h: real)
    ensures h == SecondsBetween(from, to) as real / 3600.0
  {
    var fromHours := ((from.day - 1) * 24 + from.hours) as real + from.minutes as real / 60.0 + from.seconds as real / 3600.0;
    var toHours := ((to.day - 1) * 24 + to.hours) as real + to.minutes as real / 60.0 + to.seconds as real / 3600.0;
    toHours - fromHours
  }

  /** The times from which one tick advances the clock by exactly one second: every
      running-clock time, and also a time whose hour was saturated at 24 unless it is at
      minute 59, second 59. */
  predicate TicksCleanly(t: SimDateTime) {
    t.day >= 1 && 0 <= t.minutes < 60 && 0 <= t.seconds < 60
    && (0 <= t.hours < 24 || (t.hours == 24 && !(t.minutes == 59 && t.seconds == 59)))
  }

  /** From 24:59:59 the hour increment is clamped away, so the tick moves the clock back by
      3599 seconds instead of forward by one. */
  lemma TickFromSaturatedHourLosesTime(d: int)
    requires d >= 1
    ensures Tick(SimDateTime(d, 24, 59, 59)) == SimDateTime(d + 1, 0, 0, 0)
    ensures SecondsBetween(SimDateTime(d, 24, 59, 59), Tick(SimDateTime(d, 24, 59, 59))) == -3599
  {
  }

  /** Elapsed seconds are a difference of positions: zero from a time to itself, antisymmetric,
      and additive along a chain of three times. */
  lemma SecondsBetweenIsDifference(a: SimDateTime, b: SimDateTime, c: SimDateTime)
    ensures SecondsBetween(a, a) == 0
    ensures SecondsBetween(a, b) == -SecondsBetween(b, a)
    ensures SecondsBetween(a, b) + SecondsBetween(b, c) == SecondsBetween(a, c)
  {
  }

  /** For running-clock times, the sign of the elapsed seconds from `a` to `b` is `b.CompareTo(a)`. */
  lemma SecondsBetweenAgreesWithCompareTo(a: SimDateTime, b: SimDateTime)
    requires Valid(a) && Valid(b)
    ensures SecondsBetween(a, b) > 0 <==> CompareTo(b, a) > 0
    ensures SecondsBetween(a, b) == 0 <==> CompareTo(b, a) == 0
    ensures SecondsBetween(a, b) < 0 <==> CompareTo(b, a) < 0
  {
    if a.day != b.day {
      assert TotalSeconds(a) >= (a.day - 1) * 86400 && TotalSeconds(a) < a.day * 86400;
      assert TotalSeconds(b) >= (b.day - 1) * 86400 && TotalSeconds(b) < b.day * 86400;
      if a.day < b.day {
        assert a.day * 86400 <= (b.day - 1) * 86400;
      } else {
        assert b.day * 86400 <= (a.day - 1) * 86400;
      }
    }
  }

  /** `AddHours` as written: the Hours setter clamps, so the hour saturates at 24 and never
      carries into the day. */
  function AddHoursAsWritten(t: SimDateTime, k: int): (r: SimDateTime)
    ensures 0 <= r.hours <= 24
    ensures r.day == t.day && r.minutes == t.minutes && r.seconds == t.seconds
  {
    SetHours(t, t.hours + k)
  }

  /** Jumping past midnight stops at hour 24; the next tick then starts the next day at hour 0,
      so the hours beyond midnight are lost. */
  lemma AddHoursSaturates(t: SimDateTime, k: int)
    requires Valid(t) && t.hours + k >= 24
    ensures AddHoursAsWritten(t, k).hours == 24
    ensures Tick(AddHoursAsWritten(t, k)).day == t.day + 1
    ensures Tick(AddHoursAsWritten(t, k)).hours == 0
  {
  }

  /** The demo's "advance time by 8 hours" at 20:00 on day 1 advances the clock by 4 hours only. */
  lemma AddHoursAsWrittenLosesHours()
    ensures SecondsBetween(SimDateTime(1, 20, 0, 0), AddHoursAsWritten(SimDateTime(1, 20, 0, 0), 8)) == 4 * 3600
  {
  }

  /** `AddHours` with the carry into the day that advancing time calls for. Moving back before
      the start of day 1 stops at day 1, hour 0. */
  function AddHours(t: SimDateTime, k: int): (r: SimDateTime)
    requires Valid(t)
    ensures Valid(r)
    ensures r.minutes == t.minutes && r.seconds == t.seconds
    ensures (t.day - 1) * 24 + t.hours + k >= 0 ==> SecondsBetween(t, r) == 3600 * k
  {
    var total := (t.day - 1) * 24 + t.hours + k;
    var h := if total < 0 then 0 else total;
    SimDateTime(h / 24 + 1, h % 24, t.minutes, t.seconds)
  }
}

=== FILE: dictionaries.dfy ===
/** A .NET Dictionary that is only ever assigned to, never removed from. Its keys enumerate in
    the order they were first inserted, and assigning to a key already present keeps its place. */
module Dictionaries {
  import opened Wrappers
  import opened Sorting

  /** The entries in enumeration order. */
  type Dict<K, V> = seq<(K, V)>

  function Keys<K, V>(d: Dict<K, V>): (ks: seq<K>)
    ensures |ks| == |d|
    ensures forall i | 0 <= i < |d| :: ks[i] == d[i].0
  {
    seq(|d|, i requires 0 <= i < |d| => d[i].0)
  }

  /** The keys of a dictionary with a first entry. */
  lemma KeysCons<K, V>(x: (K, V), rest: Dict<K, V>)
    ensures Keys([x] + rest) == [x.0] + Keys(rest)
    ensures ([x] + rest)[0] == x && ([x] + rest)[1..] == rest
  {
  }

  lemma KeysFirst<K, V>(d: Dict<K, V>)
    requires d != []
    ensures Keys(d) == [d[0].0] + Keys(d[1..])
    ensures d == [d[0]] + d[1..]
  {
  }

  /** TryGetValue: the value of the first entry with the key. */
  function Get<K(==,!new), V>(d: Dict<K, V>, k: K): (r: Option<V>)
    ensures r.None? <==> k !in Keys(d)
    ensures r.Some? ==> (k, r.value) in d
  {
    if d == [] then None
    else if d[0].0 == k then Some(d[0].1)
    else
      KeysFirst(d);
      Get(d[1..], k)
  }

  /** Looking up in a dictionary with a first entry. */
  lemma GetCons<K(!new), V>(x: (K, V), rest: Dict<K, V>)
    ensures forall j :: Get([x] + rest, j) == if x.0 == j then Some(x.1) else Get(rest, j)
  {
    KeysCons(x, rest);
  }

  /** The indexer's setter, `d[k] = v`: overwrite in place, or add at the end. */
  function Put<K(==,!new), V>(d: Dict<K, V>, k: K, v: V): (r: Dict<K, V>)
    ensures Get(r, k) == Some(v)
    ensures forall j | j != k :: Get(r, j) == Get(d, j)
  {
    if d == [] then [(k, v)]
    else
      GetCons(d[0], d[1..]);
      if d[0].0 == k then
        GetCons((k, v), d[1..]);
        [(k, v)] + d[1..]
      else
        var rest := Put(d[1..], k, v);
        GetCons(d[0], rest);
        [d[0]] + rest
  }

  /** Assigning keeps the key order; a new key goes to the end. */
  lemma {:induction false} PutKeys<K(!new), V>(d: Dict<K, V>, k: K, v: V)
    ensures Keys(Put(d, k, v)) == if k in Keys(d) then Keys(d) else Keys(d) + [k]
    decreases |d|
  {
    if d != [] {
      KeysFirst(d);
      if d[0].0 == k {
        KeysCons((k, v), d[1..]);
      } else {
        PutKeys(d[1..], k, v);
        KeysStep(d[0], Put(d[1..], k, v), d[1..], k);
      }
    }
  }

  /** The keys after assigning behind a first entry with another key. */
  lemma KeysStep<K(!new), V>(x: (K, V), rest: Dict<K, V>, tail: Dict<K, V>, k: K)
    requires x.0 != k
    requires Keys(rest) == if k in Keys(tail) then Keys(tail) else Keys(tail) + [k]
    ensures Keys([x] + rest) == if k in Keys([x] + tail) then Keys([x] + tail) else Keys([x] + tail) + [k]
  {
    KeysCons(x, rest);
    KeysCons(x, tail);
    assert [x.0] + (Keys(tail) + [k]) == [x.0] + Keys(tail) + [k];
  }

  /** Assigning the pairs one after another, from the front. */
  function PutAll<K(==,!new), V>(d: Dict<K, V>, pairs: seq<(K, V)>): Dict<K, V>
    decreases |pairs|
  {
    if pairs == [] then d
    else
      var n := |pairs| - 1;
      Put(PutAll(d, pairs[..n]), pairs[n].0, pairs[n].1)
  }

  /** The value of the last pair with the key: the assignment that wins. */
  function LastValue<K(==,!new), V>(pairs: seq<(K, V)>, k: K): (r: Option<V>)
    ensures r.Some? ==> (k, r.value) in pairs
    ensures r.None? ==> forall i | 0 <= i < |pairs| :: pairs[i].0 != k
    decreases |pairs|
  {
    if pairs == [] then None
    else
      var n := |pairs| - 1;
      if pairs[n].0 == k then Some(pairs[n].1)
      else
        var r := LastValue(pairs[..n], k);
        assert r.Some? ==> (k, r.value) in pairs[..n];
        r
  }

  /** The keys of a list without repetitions, each at its first occurrence. */
  function InsertionOrder<K(==,!new)>(ks: seq<K>): (r: seq<K>)
    decreases |ks|
  {
    if ks == [] then []
    else
      var n := |ks| - 1;
      var p := InsertionOrder(ks[..n]);
      if ks[n] in p then p else p + [ks[n]]
  }

  /** The first-occurrence list holds each key once, and exactly the keys of the input. */
  lemma {:induction false} InsertionOrderDistinct<K(!new)>(ks: seq<K>)
    ensures Distinct(InsertionOrder(ks))
    ensures forall k :: k in InsertionOrder(ks) <==> k in ks
    decreases |ks|
  {
    if ks != [] {
      var n := |ks| - 1;
      InsertionOrderDistinct(ks[..n]);
      assert ks == ks[..n] + [ks[n]];
    }
  }

  /** After a run of assignments a key's value is that of its last assignment, or its old value
      when it was never assigned. */
  lemma {:induction false} PutAllGet<K(!new), V>(d: Dict<K, V>, pairs: seq<(K, V)>, k: K)
    ensures Get(PutAll(d, pairs), k) == if LastValue(pairs, k).Some? then LastValue(pairs, k) else Get(d, k)
    decreases |pairs|
  {
    if pairs != [] {
      PutAllGet(d, pairs[..|pairs| - 1], k);
    }
  }

  /** Starting from an empty dictionary, the keys enumerate in order of first assignment. */
  lemma {:induction false} PutAllKeys<K(!new), V>(pairs: seq<(K, V)>)
    ensures Keys(PutAll([], pairs)) == InsertionOrder(Keys(pairs))
    decreases |pairs|
  {
    if pairs != [] {
      var n := |pairs| - 1;
      var ks, prev := Keys(pairs), PutAll([], pairs[..n]);
      PutAllKeys(pairs[..n]);
      PutKeys(prev, pairs[n].0, pairs[n].1);
      assert ks[..n] == Keys(pairs[..n]) && ks[n] == pairs[n].0;
      assert PutAll([], pairs) == Put(prev, pairs[n].0, pairs[n].1);
      assert InsertionOrder(ks) == if ks[n] in InsertionOrder(ks[..n]) then InsertionOrder(ks[..n])
                                   else InsertionOrder(ks[..n]) + [ks[n]];
    }
  }

  /** Assigning a key not yet present adds it at the end. */
  lemma {:induction false} PutNew<K(!new), V>(d: Dict<K, V>, k: K, v: V)
    requires k !in Keys(d)
    ensures Put(d, k, v) == d + [(k, v)]
    decreases |d|
  {
    if d != [] {
      KeysFirst(d);
      PutNew(d[1..], k, v);
      KeysCons(d[0], d[1..] + [(k, v)]);
    }
  }

  /** Assigning pairs whose keys are all different, into an empty dictionary, keeps them as they
      are. */
  lemma {:induction false} PutAllFresh<K(!new), V>(pairs: seq<(K, V)>)
    requires Distinct(Keys(pairs))
    ensures PutAll([], pairs) == pairs
    decreases |pairs|
  {
    if pairs != [] {
      var n := |pairs| - 1;
      FreshLast(pairs);
      PutAllFresh(pairs[..n]);
      PutNew(pairs[..n], pairs[n].0, pairs[n].1);
      InitAndLast(pairs);
    }
  }

  /** A non-empty sequence is its front followed by its last element. */
  lemma InitAndLast<T>(s: seq<T>)
    requires s != []
    ensures s[..|s| - 1] + [s[|s| - 1]] == s
  {
  }

  lemma FreshLast<K(!new), V>(pairs: seq<(K, V)>)
    requires pairs != [] && Distinct(Keys(pairs))
    ensures Distinct(Keys(pairs[..|pairs| - 1]))
    ensures pairs[|pairs| - 1].0 !in Keys(pairs[..|pairs| - 1])
  {
    var n := |pairs| - 1;
    assert Keys(pairs[..n]) == Keys(pairs)[..n];
  }

  /** The winning assignment is the last one with the key. */
  lemma {:induction false} LastValueAt<K(!new), V>(pairs: seq<(K, V)>, i: nat, k: K)
    requires i < |pairs| && pairs[i].0 == k
    requires forall j | i < j < |pairs| :: pairs[j].0 != k
    ensures LastValue(pairs, k) == Some(pairs[i].1)
    decreases |pairs|
  {
    var n := |pairs| - 1;
    if i < n {
      LastValueAt(pairs[..n], i, k);
    }
  }
}

=== FILE: knowledge_profile.dfy ===
/** What an agent in LongTerm mode knows of the world before it has seen any of it: the areas,
    sections and objects its knowledge profiles and its own list name, completed from the world
    index where they say "all". */
module KnowledgeProfiles {
  import opened Memories
  import opened Sorting
  import opened WorldTrees
  import opened WorldPerception

  /** A section the agent knows, with all of its objects or only the ones listed. */
  datatype KnownSection = KnownSection(sectionName: string, knowAllObjects: bool, specificObjects: seq<string>)

  /** An area the agent knows, with all of its sections or only the ones listed. */
  datatype KnownArea = KnownArea(areaName: string, knowAllSections: bool, sections: seq<KnownSection>)

  datatype KnowledgeProfile = KnowledgeProfile(knownAreas: seq<KnownArea>)

  /** Every new object key lies in the section `area:section`. */
  ghost predicate NewObjectsIn(k: Knowledge, r: Knowledge, area: string, section: string) {
    forall key | key in r.objects && key !in k.objects :: exists o :: key == ObjectKey(area, section, o)
  }

  /** Every new section key lies in `area`, and so does every new object key. */
  ghost predicate NewKeysIn(k: Knowledge, r: Knowledge, area: string) {
    (forall key | key in r.sections && key !in k.sections :: exists s :: key == SectionKey(area, s))
    && (forall key | key in r.objects && key !in k.objects :: exists s, o :: key == ObjectKey(area, s, o))
  }

  /** Every new object key is one of `objs` in the section `area:section`. */
  ghost predicate NewObjectsAmong(k: Knowledge, r: Knowledge, area: string, section: string, objs: seq<string>) {
    forall key | key in r.objects && key !in k.objects :: exists o | o in objs :: key == ObjectKey(area, section, o)
  }

  /** The `knowAllSections` bound: every new section is one of `sections`, and every new object
      is one the world index lists in such a section. */
  ghost predicate AddsOnlyWhole(k: Knowledge, r: Knowledge, idx: Index, area: string, sections: seq<string>) {
    (forall key | key in r.sections && key !in k.sections :: exists s | s in sections :: key == SectionKey(area, s))
    && (forall key | key in r.objects && key !in k.objects ::
          exists s, o | s in sections && o in GetObjectsInSection(idx, area, s) :: key == ObjectKey(area, s, o))
  }

  /** The listed-sections bound: every new section is a listed one, and every new object is one
      its entry makes known. */
  ghost predicate AddsOnlyListed(k: Knowledge, r: Knowledge, idx: Index, area: string, sections: seq<KnownSection>) {
    (forall key | key in r.sections && key !in k.sections ::
       exists ks | ks in sections :: key == SectionKey(area, ks.sectionName))
    && (forall key | key in r.objects && key !in k.objects ::
          exists ks, o | ks in sections && o in SectionObjects(idx, area, ks) :: key == ObjectKey(area, ks.sectionName, o))
  }

  /** Learns the objects one after another. */
  function LearnObjects(k: Knowledge, area: string, section: string, objs: seq<string>): (r: Knowledge)
    ensures Grows(k, r)
    ensures r.areas == k.areas && r.sections == k.sections
    ensures forall i | 0 <= i < |objs| :: KnowsObject(r, area, section, objs[i])
    ensures forall key | key in r.objects && key !in k.objects ::
      exists i | 0 <= i < |objs| :: key == ObjectKey(area, section, objs[i])
    decreases |objs|
  {
    if objs == [] then k
    else
      var r := LearnObjects(LearnObject(k, area, section, objs[0]), area, section, objs[1..]);
      assert forall i | 1 <= i < |objs| :: objs[i] == objs[1..][i - 1];
      r
  }

  /** Learns a section and then the given objects in it: the section is the only new section,
      and the new objects are among the given ones. */
  function LearnSectionWith(k: Knowledge, area: string, section: string, objs: seq<string>): (r: Knowledge)
    ensures Grows(k, r) && r.areas == k.areas
    ensures KnowsSection(r, area, section)
    ensures forall o | o in objs :: KnowsObject(r, area, section, o)
    ensures r.sections.Keys == k.sections.Keys + {SectionKey(area, section)}
    ensures NewObjectsIn(k, r, area, section)
    ensures NewObjectsAmong(k, r, area, section, objs)
  {
    var r := LearnObjects(LearnSection(k, area, section), area, section, objs);
    assert forall o | o in objs :: exists i | 0 <= i < |objs| :: o == objs[i];
    assert forall i | 0 <= i < |objs| :: objs[i] in objs;
    r
  }

  /** Learns a section and then the objects the world index lists in it. */
  function LearnWholeSection(k: Knowledge, idx: Index, area: string, section: string): (r: Knowledge)
    ensures Grows(k, r) && r.areas == k.areas
    ensures KnowsSection(r, area, section)
    ensures forall o | o in GetObjectsInSection(idx, area, section) :: KnowsObject(r, area, section, o)
    ensures r.sections.Keys == k.sections.Keys + {SectionKey(area, section)}
    ensures NewObjectsIn(k, r, area, section)
    ensures NewObjectsAmong(k, r, area, section, GetObjectsInSection(idx, area, section))
  {
    LearnSectionWith(k, area, section, GetObjectsInSection(idx, area, section))
  }

  /** The section is known, and so is each of the objects. */
  predicate KnowsSectionWith(k: Knowledge, area: string, section: string, objs: seq<string>) {
    KnowsSection(k, area, section) && forall o | o in objs :: KnowsObject(k, area, section, o)
  }

  lemma GrowsKeepsSection(k: Knowledge, r: Knowledge, area: string, section: string, objs: seq<string>)
    requires Grows(k, r) && KnowsSectionWith(k, area, section, objs)
    ensures KnowsSectionWith(r, area, section, objs)
  {
  }

  lemma NewKeysInTransitive(k: Knowledge, k1: Knowledge, r: Knowledge, area: string)
    requires NewKeysIn(k, k1, area) && NewKeysIn(k1, r, area)
    ensures NewKeysIn(k, r, area)
  {
    forall key | key in r.sections && key !in k.sections ensures exists s :: key == SectionKey(area, s) {
      if key in k1.sections {
      }
    }
    forall key | key in r.objects && key !in k.objects ensures exists s, o :: key == ObjectKey(area, s, o) {
      if key in k1.objects {
      }
    }
  }

  /** Learning one section with its objects adds keys of the area only. */
  lemma OneSectionKeysIn(k: Knowledge, r: Knowledge, area: string, section: string)
    requires r.sections.Keys == k.sections.Keys + {SectionKey(area, section)}
    requires NewObjectsIn(k, r, area, section)
    ensures NewKeysIn(k, r, area)
  {
    forall key | key in r.objects && key !in k.objects ensures exists s, o :: key == ObjectKey(area, s, o) {
      var o :| key == ObjectKey(area, section, o);
    }
  }

  /** The `knowAllSections` branch: every section the world index lists in the area, each with
      all of its objects. */
  function LearnAllSections(k: Knowledge, idx: Index, area: string, sections: seq<string>): (r: Knowledge)
    ensures Grows(k, r) && r.areas == k.areas
    ensures forall i | 0 <= i < |sections| ::
      KnowsSectionWith(r, area, sections[i], GetObjectsInSection(idx, area, sections[i]))
    ensures NewKeysIn(k, r, area)
    ensures AddsOnlyWhole(k, r, idx, area, sections)
    decreases |sections|
  {
    if sections == [] then k
    else
      var k1 := LearnWholeSection(k, idx, area, sections[0]);
      var r := LearnAllSections(k1, idx, area, sections[1..]);
      WholeStep(k, k1, r, idx, area, sections);
      WholeBound(k, k1, r, idx, area, sections);
      r
  }

  /** One whole section, then the rest: every section of the list is known with its objects,
      and only keys under the area are added. */
  lemma WholeStep(k: Knowledge, k1: Knowledge, r: Knowledge, idx: Index, area: string, sections: seq<string>)
    requires sections != []
    requires Grows(k, k1) && k1.areas == k.areas
    requires KnowsSectionWith(k1, area, sections[0], GetObjectsInSection(idx, area, sections[0]))
    requires k1.sections.Keys == k.sections.Keys + {SectionKey(area, sections[0])}
    requires NewObjectsIn(k, k1, area, sections[0])
    requires Grows(k1, r) && r.areas == k1.areas
    requires forall i | 0 <= i < |sections[1..]| ::
      KnowsSectionWith(r, area, sections[1..][i], GetObjectsInSection(idx, area, sections[1..][i]))
    requires NewKeysIn(k1, r, area)
    ensures Grows(k, r) && r.areas == k.areas
    ensures forall i | 0 <= i < |sections| ::
      KnowsSectionWith(r, area, sections[i], GetObjectsInSection(idx, area, sections[i]))
    ensures NewKeysIn(k, r, area)
  {
    assert forall i | 1 <= i < |sections| :: sections[i] == sections[1..][i - 1];
    GrowsKeepsSection(k1, r, area, sections[0], GetObjectsInSection(idx, area, sections[0]));
    OneSectionKeysIn(k, k1, area, sections[0]);
    NewKeysInTransitive(k, k1, r, area);
  }

  /** One whole section, then the rest, adds only what the whole list allows. */
  lemma WholeBound(k: Knowledge, k1: Knowledge, r: Knowledge, idx: Index, area: string, sections: seq<string>)
    requires sections != []
    requires k1.sections.Keys == k.sections.Keys + {SectionKey(area, sections[0])}
    requires NewObjectsAmong(k, k1, area, sections[0], GetObjectsInSection(idx, area, sections[0]))
    requires AddsOnlyWhole(k1, r, idx, area, sections[1..])
    ensures AddsOnlyWhole(k, r, idx, area, sections)
  {
    forall key | key in r.sections && key !in k.sections
      ensures exists s | s in sections :: key == SectionKey(area, s)
    {
      if key in k1.sections {
        assert key == SectionKey(area, sections[0]) && sections[0] in sections;
      } else {
        var s :| s in sections[1..] && key == SectionKey(area, s);
        assert s in sections;
      }
    }
    forall key | key in r.objects && key !in k.objects
      ensures exists s, o | s in sections && o in GetObjectsInSection(idx, area, s) :: key == ObjectKey(area, s, o)
    {
      if key in k1.objects {
        var o :| o in GetObjectsInSection(idx, area, sections[0]) && key == ObjectKey(area, sections[0], o);
        assert sections[0] in sections;
      } else {
        var s, o :| s in sections[1..] && o in GetObjectsInSection(idx, area, s) && key == ObjectKey(area, s, o);
        assert s in sections;
      }
    }
  }

  /** The objects a listed section makes known: all of them, or the ones it names. */
  function SectionObjects(idx: Index, area: string, ks: KnownSection): seq<string> {
    if ks.knowAllObjects then GetObjectsInSection(idx, area, ks.sectionName) else ks.specificObjects
  }

  /** Learns a listed section, then its objects. */
  function LearnListedSection(k: Knowledge, idx: Index, area: string, ks: KnownSection): (r: Knowledge)
    ensures Grows(k, r) && r.areas == k.areas
    ensures KnowsSectionWith(r, area, ks.sectionName, SectionObjects(idx, area, ks))
    ensures NewKeysIn(k, r, area)
    ensures r.sections.Keys == k.sections.Keys + {SectionKey(area, ks.sectionName)}
    ensures NewObjectsAmong(k, r, area, ks.sectionName, SectionObjects(idx, area, ks))
  {
    var r := LearnSectionWith(k, area, ks.sectionName, SectionObjects(idx, area, ks));
    OneSectionKeysIn(k, r, area, ks.sectionName);
    r
  }

  /** The listed-sections branch: each listed section, with all or the named objects. */
  function LearnListedSections(k: Knowledge, idx: Index, area: string, sections: seq<KnownSection>): (r: Knowledge)
    ensures Grows(k, r) && r.areas == k.areas
    ensures forall i | 0 <= i < |sections| ::
      KnowsSectionWith(r, area, sections[i].sectionName, SectionObjects(idx, area, sections[i]))
    ensures NewKeysIn(k, r, area)
    ensures AddsOnlyListed(k, r, idx, area, sections)
    decreases |sections|
  {
    if sections == [] then k
    else
      var k1 := LearnListedSection(k, idx, area, sections[0]);
      var r := LearnListedSections(k1, idx, area, sections[1..]);
      assert forall i | 1 <= i < |sections| :: sections[i] == sections[1..][i - 1];
      GrowsKeepsSection(k1, r, area, sections[0].sectionName, SectionObjects(idx, area, sections[0]));
      NewKeysInTransitive(k, k1, r, area);
      ListedStep(k, k1, r, idx, area, sections);
      r
  }

  /** One listed section, then the rest, adds only what the whole list allows. */
  lemma ListedStep(k: Knowledge, k1: Knowledge, r: Knowledge, idx: Index, area: string, sections: seq<KnownSection>)
    requires sections != []
    requires k1.sections.Keys == k.sections.Keys + {SectionKey(area, sections[0].sectionName)}
    requires NewObjectsAmong(k, k1, area, sections[0].sectionName, SectionObjects(idx, area, sections[0]))
    requires AddsOnlyListed(k1, r, idx, area, sections[1..])
    ensures AddsOnlyListed(k, r, idx, area, sections)
  {
    var ks0 := sections[0];
    assert ks0 in sections;
    forall key | key in r.sections && key !in k.sections
      ensures exists ks | ks in sections :: key == SectionKey(area, ks.sectionName)
    {
      if key in k1.sections {
        assert key == SectionKey(area, ks0.sectionName);
      } else {
        var ks :| ks in sections[1..] && key == SectionKey(area, ks.sectionName);
        assert ks in sections;
      }
    }
    forall key | key in r.objects && key !in k.objects
      ensures exists ks, o | ks in sections && o in SectionObjects(idx, area, ks) :: key == ObjectKey(area, ks.sectionName, o)
    {
      if key in k1.objects {
        var o :| o in SectionObjects(idx, area, ks0) && key == ObjectKey(area, ks0.sectionName, o);
      } else {
        var ks, o :| ks in sections[1..] && o in SectionObjects(idx, area, ks) && key == ObjectKey(area, ks.sectionName, o);
        assert ks in sections;
      }
    }
  }

  /** `ApplyKnownArea`: learns the area, then its sections and objects as the entry says. Only
      keys inside the area are added, and nothing known is lost. */
  function ApplyKnownArea(k: Knowledge, idx: Index, ka: KnownArea): (r: Knowledge)
    ensures Grows(k, r)
    ensures r.areas.Keys == k.areas.Keys + {ka.areaName}
    ensures NewKeysIn(k, r, ka.areaName)
    ensures ka.knowAllSections ==>
      forall s | s in GetSectionsInArea(idx, ka.areaName) ::
        KnowsSectionWith(r, ka.areaName, s, GetObjectsInSection(idx, ka.areaName, s))
    ensures !ka.knowAllSections ==>
      forall i | 0 <= i < |ka.sections| ::
        KnowsSectionWith(r, ka.areaName, ka.sections[i].sectionName, SectionObjects(idx, ka.areaName, ka.sections[i]))
    ensures ka.knowAllSections ==> AddsOnlyWhole(k, r, idx, ka.areaName, GetSectionsInArea(idx, ka.areaName))
    ensures !ka.knowAllSections ==> AddsOnlyListed(k, r, idx, ka.areaName, ka.sections)
  {
    var k1 := LearnArea(k, ka.areaName);
    if ka.knowAllSections then
      var sections := GetSectionsInArea(idx, ka.areaName);
      var r := LearnAllSections(k1, idx, ka.areaName, sections);
      assert forall s | s in sections :: exists i | 0 <= i < |sections| :: s == sections[i];
      r
    else LearnListedSections(k1, idx, ka.areaName, ka.sections)
  }

  /** The areas of the profiles, in order. */
  function ProfileAreas(profiles: seq<KnowledgeProfile>): (r: seq<KnownArea>)
    ensures forall p, ka | p in profiles && ka in p.knownAreas :: ka in r
    decreases |profiles|
  {
    if profiles == [] then [] else profiles[0].knownAreas + ProfileAreas(profiles[1..])
  }

  /** What an applied entry leaves known: its area, and its sections with their objects as
      the entry says. */
  predicate Applied(k: Knowledge, idx: Index, ka: KnownArea) {
    && KnowsArea(k, ka.areaName)
    && (ka.knowAllSections ==>
          forall s | s in GetSectionsInArea(idx, ka.areaName) ::
            KnowsSectionWith(k, ka.areaName, s, GetObjectsInSection(idx, ka.areaName, s)))
    && (!ka.knowAllSections ==>
          forall i | 0 <= i < |ka.sections| ::
            KnowsSectionWith(k, ka.areaName, ka.sections[i].sectionName, SectionObjects(idx, ka.areaName, ka.sections[i])))
  }

  /** A section key the entry can make known. */
  ghost predicate SectionFrom(idx: Index, ka: KnownArea, key: string) {
    if ka.knowAllSections then
      exists s | s in GetSectionsInArea(idx, ka.areaName) :: key == SectionKey(ka.areaName, s)
    else
      exists ks | ks in ka.sections :: key == SectionKey(ka.areaName, ks.sectionName)
  }

  /** An object key the entry can make known. */
  ghost predicate ObjectFrom(idx: Index, ka: KnownArea, key: string) {
    if ka.knowAllSections then
      exists s, o | s in GetSectionsInArea(idx, ka.areaName) && o in GetObjectsInSection(idx, ka.areaName, s) ::
        key == ObjectKey(ka.areaName, s, o)
    else
      exists ks, o | ks in ka.sections && o in SectionObjects(idx, ka.areaName, ks) ::
        key == ObjectKey(ka.areaName, ks.sectionName, o)
  }

  /** Every new section and object key is one some entry of `areas` can make known. */
  ghost predicate AddsOnlyFrom(k: Knowledge, r: Knowledge, idx: Index, areas: seq<KnownArea>) {
    (forall key | key in r.sections && key !in k.sections :: exists i | 0 <= i < |areas| :: SectionFrom(idx, areas[i], key))
    && (forall key | key in r.objects && key !in k.objects :: exists i | 0 <= i < |areas| :: ObjectFrom(idx, areas[i], key))
  }

  /** `ApplyKnownArea`'s contract, read per key: what it adds, the entry can make known. */
  lemma EntryAddsOnly(k: Knowledge, r: Knowledge, idx: Index, ka: KnownArea)
    requires ka.knowAllSections ==> AddsOnlyWhole(k, r, idx, ka.areaName, GetSectionsInArea(idx, ka.areaName))
    requires !ka.knowAllSections ==> AddsOnlyListed(k, r, idx, ka.areaName, ka.sections)
    ensures AddsOnlyFrom(k, r, idx, [ka])
  {
    forall key | key in r.sections && key !in k.sections ensures SectionFrom(idx, [ka][0], key) {
    }
    forall key | key in r.objects && key !in k.objects ensures ObjectFrom(idx, [ka][0], key) {
    }
  }

  /** Applies the entries one after another. */
  function ApplyKnownAreas(k: Knowledge, idx: Index, areas: seq<KnownArea>): (r: Knowledge)
    ensures Grows(k, r)
    ensures forall x :: x in r.areas <==> x in k.areas || exists i | 0 <= i < |areas| :: x == areas[i].areaName
    ensures forall i | 0 <= i < |areas| :: Applied(r, idx, areas[i])
    ensures AddsOnlyFrom(k, r, idx, areas)
    decreases |areas|
  {
    if areas == [] then k
    else
      var k1 := ApplyKnownArea(k, idx, areas[0]);
      var r := ApplyKnownAreas(k1, idx, areas[1..]);
      AreasStep(k, k1, r, areas);
      AppliedStep(k1, r, idx, areas);
      EntryAddsOnly(k, k1, idx, areas[0]);
      FromStep(k, k1, r, idx, areas);
      r
  }

  /** One entry, then the rest, makes known the areas of the whole list. */
  lemma AreasStep(k: Knowledge, k1: Knowledge, r: Knowledge, areas: seq<KnownArea>)
    requires areas != []
    requires k1.areas.Keys == k.areas.Keys + {areas[0].areaName}
    requires forall x :: x in r.areas <==> x in k1.areas || exists i | 0 <= i < |areas[1..]| :: x == areas[1..][i].areaName
    ensures forall x :: x in r.areas <==> x in k.areas || exists i | 0 <= i < |areas| :: x == areas[i].areaName
  {
    assert forall i | 1 <= i < |areas| :: areas[i] == areas[1..][i - 1];
    forall x | x in r.areas ensures x in k.areas || exists i | 0 <= i < |areas| :: x == areas[i].areaName {
      if x !in k.areas && x != areas[0].areaName {
        var j :| 0 <= j < |areas[1..]| && x == areas[1..][j].areaName;
        assert x == areas[j + 1].areaName;
      }
    }
  }

  /** What the first entry left known survives the rest. */
  lemma AppliedStep(k1: Knowledge, r: Knowledge, idx: Index, areas: seq<KnownArea>)
    requires areas != [] && Grows(k1, r) && Applied(k1, idx, areas[0])
    requires forall i | 0 <= i < |areas[1..]| :: Applied(r, idx, areas[1..][i])
    ensures forall i | 0 <= i < |areas| :: Applied(r, idx, areas[i])
  {
    AppliedGrows(k1, r, idx, areas[0]);
    forall i | 1 <= i < |areas| ensures Applied(r, idx, areas[i]) {
      assert areas[i] == areas[1..][i - 1];
    }
  }

  lemma AppliedGrows(k: Knowledge, r: Knowledge, idx: Index, ka: KnownArea)
    requires Grows(k, r) && Applied(k, idx, ka)
    ensures Applied(r, idx, ka)
  {
    if ka.knowAllSections {
      forall s | s in GetSectionsInArea(idx, ka.areaName)
        ensures KnowsSectionWith(r, ka.areaName, s, GetObjectsInSection(idx, ka.areaName, s))
      {
        GrowsKeepsSection(k, r, ka.areaName, s, GetObjectsInSection(idx, ka.areaName, s));
      }
    } else {
      forall i | 0 <= i < |ka.sections|
        ensures KnowsSectionWith(r, ka.areaName, ka.sections[i].sectionName, SectionObjects(idx, ka.areaName, ka.sections[i]))
      {
        GrowsKeepsSection(k, r, ka.areaName, ka.sections[i].sectionName, SectionObjects(idx, ka.areaName, ka.sections[i]));
      }
    }
  }

  /** Keys the first entry adds, and keys the rest add, all come from the whole list. */
  lemma FromStep(k: Knowledge, k1: Knowledge, r: Knowledge, idx: Index, areas: seq<KnownArea>)
    requires areas != []
    requires AddsOnlyFrom(k, k1, idx, [areas[0]]) && AddsOnlyFrom(k1, r, idx, areas[1..])
    ensures AddsOnlyFrom(k, r, idx, areas)
  {
    SectionsFromStep(k.sections, k1.sections, r.sections, idx, areas);
    ObjectsFromStep(k.objects, k1.objects, r.objects, idx, areas);
  }

  lemma SectionsFromStep(k: map<string, string>, k1: map<string, string>, r: map<string, string>,
                         idx: Index, areas: seq<KnownArea>)
    requires areas != []
    requires forall key | key in k1 && key !in k :: exists i | 0 <= i < |[areas[0]]| :: SectionFrom(idx, [areas[0]][i], key)
    requires forall key | key in r && key !in k1 :: exists i | 0 <= i < |areas[1..]| :: SectionFrom(idx, areas[1..][i], key)
    ensures forall key | key in r && key !in k :: exists i | 0 <= i < |areas| :: SectionFrom(idx, areas[i], key)
  {
    forall key | key in r && key !in k
      ensures exists i | 0 <= i < |areas| :: SectionFrom(idx, areas[i], key)
    {
      if key in k1 {
        assert SectionFrom(idx, [areas[0]][0], key);
      } else {
        var j :| 0 <= j < |areas[1..]| && SectionFrom(idx, areas[1..][j], key);
        assert areas[1..][j] == areas[j + 1];
      }
    }
  }

  lemma ObjectsFromStep(k: map<string, string>, k1: map<string, string>, r: map<string, string>,
                        idx: Index, areas: seq<KnownArea>)
    requires areas != []
    requires forall key | key in k1 && key !in k :: exists i | 0 <= i < |[areas[0]]| :: ObjectFrom(idx, [areas[0]][i], key)
    requires forall key | key in r && key !in k1 :: exists i | 0 <= i < |areas[1..]| :: ObjectFrom(idx, areas[1..][i], key)
    ensures forall key | key in r && key !in k :: exists i | 0 <= i < |areas| :: ObjectFrom(idx, areas[i], key)
  {
    forall key | key in r && key !in k
      ensures exists i | 0 <= i < |areas| :: ObjectFrom(idx, areas[i], key)
    {
      if key in k1 {
        assert ObjectFrom(idx, [areas[0]][0], key);
      } else {
        var j :| 0 <= j < |areas[1..]| && ObjectFrom(idx, areas[1..][j], key);
        assert areas[1..][j] == areas[j + 1];
      }
    }
  }

  /** Applying two lists one after the other is applying their concatenation. */
  lemma {:induction false} ApplyKnownAreasAppend(k: Knowledge, idx: Index, a: seq<KnownArea>, b: seq<KnownArea>)
    ensures ApplyKnownAreas(ApplyKnownAreas(k, idx, a), idx, b) == ApplyKnownAreas(k, idx, a + b)
    decreases |a|
  {
    if a == [] {
      assert a + b == b;
    } else {
      AppendTail(a, b);
      ApplyKnownAreasAppend(ApplyKnownArea(k, idx, a[0]), idx, a[1..], b);
    }
  }

  /** `InitializeKnowledge`: only an agent with long-term memory starts out knowing anything;
      its profiles apply first, then its own entries. */
  function InitializeKnowledge(mode: MemoryMode, k: Knowledge, idx: Index,
                               profiles: seq<KnowledgeProfile>, own: seq<KnownArea>): (r: Knowledge)
    ensures mode != LongTerm ==> r == k
    ensures mode == LongTerm ==> Grows(k, r)
    ensures mode == LongTerm ==>
      forall x :: x in r.areas <==>
        x in k.areas
        || (exists ka | ka in ProfileAreas(profiles) :: x == ka.areaName)
        || (exists ka | ka in own :: x == ka.areaName)
    ensures mode == LongTerm ==> var all := ProfileAreas(profiles) + own;
      (forall i | 0 <= i < |all| :: Applied(r, idx, all[i])) && AddsOnlyFrom(k, r, idx, all)
  {
    if mode != LongTerm then k
    else
      var fromProfiles := ApplyKnownAreas(k, idx, ProfileAreas(profiles));
      var r := ApplyKnownAreas(fromProfiles, idx, own);
      AreasOfBoth(k, fromProfiles, r, ProfileAreas(profiles), own);
      ApplyKnownAreasAppend(k, idx, ProfileAreas(profiles), own);
      r
  }

  /** The areas known after two lists are the old ones and those of either list. */
  lemma AreasOfBoth(k: Knowledge, k1: Knowledge, r: Knowledge, a: seq<KnownArea>, b: seq<KnownArea>)
    requires forall x :: x in k1.areas <==> x in k.areas || exists i | 0 <= i < |a| :: x == a[i].areaName
    requires forall x :: x in r.areas <==> x in k1.areas || exists i | 0 <= i < |b| :: x == b[i].areaName
    ensures forall x :: x in r.areas <==>
      x in k.areas || (exists ka | ka in a :: x == ka.areaName) || (exists ka | ka in b :: x == ka.areaName)
  {
    assert forall i | 0 <= i < |a| :: a[i] in a;
    assert forall i | 0 <= i < |b| :: b[i] in b;
    forall x | (exists ka | ka in a :: x == ka.areaName) ensures x in r.areas {
      var ka :| ka in a && x == ka.areaName;
      var i :| 0 <= i < |a| && a[i] == ka;
    }
    forall x | (exists ka | ka in b :: x == ka.areaName) ensures x in r.areas {
      var ka :| ka in b && x == ka.areaName;
      var i :| 0 <= i < |b| && b[i] == ka;
    }
  }

  /** An entry applied twice adds nothing the second time. */
  lemma ApplyKnownAreaTwice(k: Knowledge, idx: Index, ka: KnownArea)
    ensures ApplyKnownArea(ApplyKnownArea(k, idx, ka), idx, ka) == ApplyKnownArea(k, idx, ka)
  {
    var r := ApplyKnownArea(k, idx, ka);
    assert LearnArea(r, ka.areaName) == r;
    if ka.knowAllSections {
      var sections := GetSectionsInArea(idx, ka.areaName);
      LearnAllSectionsKnown(r, idx, ka.areaName, sections);
    } else {
      LearnListedSectionsKnown(r, idx, ka.areaName, ka.sections);
    }
  }

  lemma {:induction false} LearnObjectsKnown(k: Knowledge, area: string, section: string, objs: seq<string>)
    requires forall i | 0 <= i < |objs| :: KnowsObject(k, area, section, objs[i])
    ensures LearnObjects(k, area, section, objs) == k
    decreases |objs|
  {
    if objs != [] {
      assert LearnObject(k, area, section, objs[0]) == k;
      LearnObjectsKnown(k, area, section, objs[1..]);
    }
  }

  lemma {:induction false} LearnAllSectionsKnown(k: Knowledge, idx: Index, area: string, sections: seq<string>)
    requires forall i | 0 <= i < |sections| ::
      KnowsSectionWith(k, area, sections[i], GetObjectsInSection(idx, area, sections[i]))
    ensures LearnAllSections(k, idx, area, sections) == k
    decreases |sections|
  {
    if sections != [] {
      var objs := GetObjectsInSection(idx, area, sections[0]);
      assert LearnSection(k, area, sections[0]) == k;
      LearnObjectsKnown(k, area, sections[0], objs);
      LearnAllSectionsKnown(k, idx, area, sections[1..]);
    }
  }

  lemma {:induction false} LearnListedSectionsKnown(k: Knowledge, idx: Index, area: string, sections: seq<KnownSection>)
    requires forall i | 0 <= i < |sections| ::
      KnowsSectionWith(k, area, sections[i].sectionName, SectionObjects(idx, area, sections[i]))
    ensures LearnListedSections(k, idx, area, sections) == k
    decreases |sections|
  {
    if sections != [] {
      var ks := sections[0];
      assert LearnSection(k, area, ks.sectionName) == k;
      LearnObjectsKnown(k, area, ks.sectionName, SectionObjects(idx, area, ks));
      LearnListedSectionsKnown(k, idx, area, sections[1..]);
    }
  }
}

=== FILE: log_entry.dfy ===
/** One record of the log, and its context rendered as `[key=value]` pairs. */
module LogEntries {
  import opened Wrappers
  import opened Text
  import opened SimDateTimes
  import opened Dictionaries

  /** The categories the code logs under. */
  datatype LogCategory = Memory | LLM | Action

  /** Severity, in increasing order. */
  datatype LogLevel = Debug | Info | Warning | Error

  /** The enum's underlying value, which `<` compares. */
  function LevelRank(l: LogLevel): nat {
    match l
    case Debug => 0
    case Info => 1
    case Warning => 2
    case Error => 3
  }

  /** A context value: a null reference, a string, an integer, or any other object, given by
      what its ToString returns. */
  datatype Value = Null | Str(s: string) | Int(i: int) | Other(text: string)

  /** The context dictionary, in enumeration order. */
  type Context = Dict<string, Value>

  /** The wall-clock time stamp is left out; the simulated one is kept. A null context or agent
      id is None. */
  datatype LogEntry = LogEntry(
    simTimeStamp: SimDateTime,
    category: LogCategory,
    level: LogLevel,
    message: string,
    context: Option<Context>,
    agentId: Option<string>)

  /** The constructor: the simulated time is read from the clock, and every argument is stored
      as given. */
  function NewLogEntry(now: SimDateTime, category: LogCategory, level: LogLevel, message: string,
                       context: Option<Context>, agentId: Option<string>): (e: LogEntry)
    ensures e.simTimeStamp == now
    ensures e.category == category && e.level == level && e.message == message
    ensures e.context == context && e.agentId == agentId
  {
    LogEntry(now, category, level, message, context, agentId)
  }

  /** `kvp.Value?.ToString() ?? "null"`. */
  function ValueString(v: Value): string {
    match v
    case Null => "null"
    case Str(s) => s
    case Int(i) => IntToString(i)
    case Other(text) => text
  }

  /** Every `]` becomes `\]`. */
  function Escape(s: string): string {
    ReplaceAll(s, "]", "\\]")
  }

  /** Escaping one character at a time: a `]` becomes `\]`, anything else stays. */
  lemma EscapeCons(c: char, s: string)
    ensures Escape([c] + s) == (if c == ']' then "\\]" else [c]) + Escape(s)
  {
    assert ([c] + s)[1..] == s;
    assert ([c] + s)[..1] == [c];
  }

  /** In an escaped text every `]` follows a backslash: none is left unescaped. */
  lemma {:induction false} EscapedBrackets(s: string)
    ensures forall i | 0 <= i < |Escape(s)| && Escape(s)[i] == ']' :: i > 0 && Escape(s)[i - 1] == '\\'
    decreases |s|
  {
    if s != [] {
      EscapeCons(s[0], s[1..]);
      assert [s[0]] + s[1..] == s;
      EscapedBrackets(s[1..]);
      EscapeStart(s[1..]);
      var head := if s[0] == ']' then "\\]" else [s[0]];
      var r := Escape(s);
      assert r == head + Escape(s[1..]);
      forall i | 0 <= i < |r| && r[i] == ']' ensures i > 0 && r[i - 1] == '\\' {
        if i >= |head| {
          assert r[i] == Escape(s[1..])[i - |head|];
          if i - |head| > 0 {
            assert r[i - 1] == Escape(s[1..])[i - |head| - 1];
          }
        }
      }
    }
  }

  /** An escaped text does not start with `]`. */
  lemma EscapeStart(s: string)
    ensures Escape(s) == [] || Escape(s)[0] != ']'
  {
    if s != [] {
      EscapeCons(s[0], s[1..]);
      assert [s[0]] + s[1..] == s;
    }
  }

  /** Removing the backslash of every `\]`. */
  function Unescape(s: string): string {
    ReplaceAll(s, "\\]", "]")
  }

  /** Escaping loses nothing: unescaping gives the original text back. */
  lemma {:induction false} UnescapeEscape(s: string)
    ensures Unescape(Escape(s)) == s
    decreases |s|
  {
    if s != [] {
      EscapeCons(s[0], s[1..]);
      assert [s[0]] + s[1..] == s;
      UnescapeEscape(s[1..]);
      var rest := Escape(s[1..]);
      if s[0] == ']' {
        ReplaceAtFront(rest, "\\]", "]");
        assert "\\]" + rest == Escape(s);
      } else {
        EscapeStart(s[1..]);
        var t := [s[0]] + rest;
        assert !IsAt(t, "\\]", 0) by {
          if |t| >= 2 {
            assert t[1] == rest[0];
            assert t[..2][1] == t[1];
          }
        }
        assert t[1..] == rest;
      }
    }
  }

  /** One rendered pair. */
  function Pair(key: string, v: Value): (r: string)
    ensures |r| >= 1 && r[|r| - 1] == ']'
  {
    "[" + key + "=" + Escape(ValueString(v)) + "]"
  }

  /** The rendered pairs, in enumeration order. */
  function Pieces(d: Context): (ps: seq<string>)
    ensures |ps| == |d|
    ensures forall i | 0 <= i < |d| :: ps[i] == Pair(d[i].0, d[i].1)
  {
    seq(|d|, i requires 0 <= i < |d| => Pair(d[i].0, d[i].1))
  }

  /** What the string builder holds: each pair followed by a space. */
  function Appended(d: Context): string
    decreases |d|
  {
    if d == [] then "" else Pair(d[0].0, d[0].1) + " " + Appended(d[1..])
  }

  /** The builder's text, with trailing white space trimmed. */
  function Render(d: Context): string {
    TrimEnd(Appended(d))
  }

  lemma {:induction false} AppendedIsJoin(d: Context)
    requires d != []
    ensures Appended(d) == Join(Pieces(d), " ") + " "
    decreases |d|
  {
    if |d| > 1 {
      AppendedIsJoin(d[1..]);
      assert Pieces(d)[1..] == Pieces(d[1..]);
    }
  }

  /** Trimming removes the one trailing space after a `]`. */
  lemma TrimAfterBracket(x: string)
    requires |x| >= 1 && x[|x| - 1] == ']'
    ensures TrimEnd(x + " ") == x
  {
    assert (x + " ")[..|x|] == x;
  }

  lemma JoinEndsInBracket(ps: seq<string>)
    requires |ps| >= 1
    requires forall i | 0 <= i < |ps| :: |ps[i]| >= 1 && ps[i][|ps[i]| - 1] == ']'
    ensures |Join(ps, " ")| >= 1 && Join(ps, " ")[|Join(ps, " ")| - 1] == ']'
  {
    JoinSnocBack(ps);
  }

  lemma {:induction false} JoinSnocBack(ps: seq<string>)
    requires |ps| >= 1
    ensures Join(ps, " ") == Join(ps[..|ps| - 1], " ") + (if |ps| == 1 then "" else " ") + ps[|ps| - 1]
    decreases |ps|
  {
    if |ps| > 2 {
      JoinSnocBack(ps[1..]);
      assert ps[1..][..|ps[1..]| - 1] == ps[..|ps| - 1][1..];
    } else if |ps| == 2 {
      assert ps[..1] == [ps[0]];
    }
  }

  /** The pairs are separated by single spaces, with none after the last. */
  lemma RenderIsJoin(d: Context)
    ensures Render(d) == Join(Pieces(d), " ")
  {
    if d != [] {
      AppendedIsJoin(d);
      JoinEndsInBracket(Pieces(d));
      TrimAfterBracket(Join(Pieces(d), " "));
    }
  }

  /** `GetContextAsString`: empty for a null or empty context, otherwise the rendered pairs. */
  function GetContextAsString(e: LogEntry): (r: string)
    ensures r == "" <==> e.context.None? || e.context.value == []
    ensures e.context.Some? ==> r == Join(Pieces(e.context.value), " ")
  {
    match e.context
    case None => ""
    case Some(d) =>
      if |d| == 0 then ""
      else
        RenderIsJoin(d);
        JoinEndsInBracket(Pieces(d));
        Render(d)
  }
}

=== FILE: log_system.dfy ===
/** The log's in-memory part: which categories are enabled, the gate every entry passes, the
    bounded buffer of recent entries, the queries over it, and the context serialiser used for
    log lines. File and console output are not modelled. */
module LogSystems {
  import opened Wrappers
  import opened Text
  import opened Sorting
  import opened Dictionaries
  import opened SimDateTimes
  import opened LogEntries

  /** One configured category filter. */
  datatype CategoryFilter = CategoryFilter(category: LogCategory, enabled: bool)

  /** Every value of the category enum. */
  const AllCategories: seq<LogCategory> := [Memory, LLM, Action]

  /** The flag the last filter naming the category sets, if any filter names it. */
  function LastFilter(filters: seq<CategoryFilter>, c: LogCategory): (r: Option<bool>)
    ensures r.None? <==> forall i | 0 <= i < |filters| :: filters[i].category != c
    decreases |filters|
  {
    if filters == [] then None
    else
      var later := LastFilter(filters[1..], c);
      if later.Some? then later
      else if filters[0].category == c then Some(filters[0].enabled)
      else None
  }

  /** The flag of the filter at `i` is the one that counts when no later filter names its
      category. */
  lemma {:induction false} LastFilterAt(filters: seq<CategoryFilter>, i: nat)
    requires i < |filters|
    requires forall j | i < j < |filters| :: filters[j].category != filters[i].category
    ensures LastFilter(filters, filters[i].category) == Some(filters[i].enabled)
    decreases |filters|
  {
    if i > 0 {
      LastFilterAt(filters[1..], i - 1);
    } else {
      assert forall j | 0 <= j < |filters[1..]| :: filters[1..][j].category != filters[0].category by {
        forall j | 0 <= j < |filters[1..]| ensures filters[1..][j].category != filters[0].category {
          assert filters[1..][j] == filters[j + 1];
        }
      }
    }
  }

  /** `enabledCategories[filter.Category] = filter.Enabled` for each filter in turn. */
  function ApplyFilters(m: map<LogCategory, bool>, filters: seq<CategoryFilter>): (r: map<LogCategory, bool>)
    ensures forall c :: c in r <==> c in m || LastFilter(filters, c).Some?
    ensures forall c | c in r :: r[c] == if LastFilter(filters, c).Some? then LastFilter(filters, c).value else m[c]
    decreases |filters|
  {
    if filters == [] then m
    else ApplyFilters(m[filters[0].category := filters[0].enabled], filters[1..])
  }

  /** `enabledCategories.TryAdd(category, true)` for each category in turn. */
  function AddDefaults(m: map<LogCategory, bool>, cats: seq<LogCategory>): (r: map<LogCategory, bool>)
    ensures forall c :: c in r <==> c in m || c in cats
    ensures forall c | c in r :: r[c] == if c in m then m[c] else true
    decreases |cats|
  {
    if cats == [] then m
    else AddDefaults(if cats[0] in m then m else m[cats[0] := true], cats[1..])
  }

  /** `InitializeLogging`'s category map: nothing when logging is disabled; otherwise the flag of
      the last filter naming a category, and enabled for every category no filter names. */
  function InitializeCategories(enableLogging: bool, filters: seq<CategoryFilter>): (m: map<LogCategory, bool>)
    ensures !enableLogging ==> m == map[]
    ensures enableLogging ==> forall c :: c in m && m[c] == LastFilter(filters, c).GetOr(true)
  {
    if !enableLogging then map[]
    else
      assert forall c: LogCategory :: c in AllCategories by {
        forall c: LogCategory ensures c in AllCategories {
          assert c == Memory || c == LLM || c == Action;
        }
      }
      AddDefaults(ApplyFilters(map[], filters), AllCategories)
  }

  /** A later filter overrides an earlier one for the same category. */
  lemma LaterFilterWins(filters: seq<CategoryFilter>, i: nat)
    requires i < |filters|
    requires forall j | i < j < |filters| :: filters[j].category != filters[i].category
    ensures InitializeCategories(true, filters)[filters[i].category] == filters[i].enabled
  {
    LastFilterAt(filters, i);
  }

  /** A category no filter names is enabled. */
  lemma UnfilteredIsEnabled(filters: seq<CategoryFilter>, c: LogCategory)
    requires forall i | 0 <= i < |filters| :: filters[i].category != c
    ensures InitializeCategories(true, filters)[c]
  {
  }

  /** The configuration and the buffer. */
  datatype LogSystem = LogSystem(
    enableLogging: bool,
    minLogLevel: LogLevel,
    maxInMemoryLogs: int,
    enabledCategories: map<LogCategory, bool>,
    inMemoryLogs: seq<LogEntry>)

  /** The system after `InitializeLogging`, with an empty buffer. */
  function Initialize(enableLogging: bool, minLogLevel: LogLevel, maxInMemoryLogs: int,
                      filters: seq<CategoryFilter>): (sys: LogSystem)
    ensures sys.inMemoryLogs == []
    ensures sys.enabledCategories == InitializeCategories(enableLogging, filters)
  {
    LogSystem(enableLogging, minLogLevel, maxInMemoryLogs, InitializeCategories(enableLogging, filters), [])
  }

  /** The gate of `Log`: logging is on, the category is known and enabled, and the level is not
      below the minimum. */
  predicate Accepts(sys: LogSystem, category: LogCategory, level: LogLevel) {
    sys.enableLogging
    && category in sys.enabledCategories && sys.enabledCategories[category]
    && LevelRank(level) >= LevelRank(sys.minLogLevel)
  }

  /** How many entries the buffer can hold: a negative maximum holds none. */
  function Capacity(max: int): nat {
    if max < 0 then 0 else max
  }

  /** `Add`, then `RemoveAt(0)` when the count exceeds the maximum. */
  function BoundedAppend(buf: seq<LogEntry>, e: LogEntry, max: int): (r: seq<LogEntry>)
    ensures |buf| <= |r| <= |buf| + 1
    ensures r == (buf + [e])[|buf| + 1 - |r|..]
    ensures |buf| <= Capacity(max) ==> r == Last(buf + [e], Capacity(max))
    ensures |buf| <= Capacity(max) ==> |r| <= Capacity(max)
  {
    var added := buf + [e];
    if |added| > max then added[1..] else added
  }

  /** `Log`, without the output: an accepted entry enters the buffer; nothing else changes. */
  function Log(sys: LogSystem, now: SimDateTime, category: LogCategory, level: LogLevel, message: string,
               context: Option<Context>, agentId: Option<string>): (r: LogSystem)
    ensures SameConfig(r, sys)
    ensures !Accepts(sys, category, level) ==> r == sys
    ensures Accepts(sys, category, level) ==>
      r.inMemoryLogs == BoundedAppend(sys.inMemoryLogs, NewLogEntry(now, category, level, message, context, agentId), sys.maxInMemoryLogs)
    ensures |sys.inMemoryLogs| <= Capacity(sys.maxInMemoryLogs) ==> |r.inMemoryLogs| <= Capacity(sys.maxInMemoryLogs)
  {
    if !Accepts(sys, category, level) then sys
    else
      var e := NewLogEntry(now, category, level, message, context, agentId);
      sys.(inMemoryLogs := BoundedAppend(sys.inMemoryLogs, e, sys.maxInMemoryLogs))
  }

  /** Everything but the buffer is the same. */
  predicate SameConfig(a: LogSystem, b: LogSystem) {
    a.enableLogging == b.enableLogging && a.minLogLevel == b.minLogLevel
    && a.maxInMemoryLogs == b.maxInMemoryLogs && a.enabledCategories == b.enabledCategories
  }

  /** The arguments of one `Log` call. */
  datatype Request = Request(now: SimDateTime, category: LogCategory, level: LogLevel, message: string,
                             context: Option<Context>, agentId: Option<string>)

  /** The entry a request makes. */
  function Entry(q: Request): LogEntry {
    NewLogEntry(q.now, q.category, q.level, q.message, q.context, q.agentId)
  }

  /** One `Log` call with the request's arguments. */
  function Apply(sys: LogSystem, q: Request): LogSystem {
    Log(sys, q.now, q.category, q.level, q.message, q.context, q.agentId)
  }

  /** The calls in order. */
  function LogAll(sys: LogSystem, reqs: seq<Request>): LogSystem
    decreases |reqs|
  {
    if reqs == [] then sys else LogAll(Apply(sys, reqs[0]), reqs[1..])
  }

  /** The entries the gate lets through, in order. */
  function Accepted(sys: LogSystem, reqs: seq<Request>): seq<LogEntry>
    decreases |reqs|
  {
    if reqs == [] then []
    else (if Accepts(sys, reqs[0].category, reqs[0].level) then [Entry(reqs[0])] else []) + Accepted(sys, reqs[1..])
  }

  /** The buffer is a sliding window: after any run of calls it holds the newest entries that
      passed the gate, as many as fit, oldest first. */
  lemma {:induction false} BufferIsWindow(sys: LogSystem, reqs: seq<Request>)
    requires |sys.inMemoryLogs| <= Capacity(sys.maxInMemoryLogs)
    ensures LogAll(sys, reqs).inMemoryLogs == Last(sys.inMemoryLogs + Accepted(sys, reqs), Capacity(sys.maxInMemoryLogs))
    decreases |reqs|
  {
    if reqs == [] {
      assert sys.inMemoryLogs + [] == sys.inMemoryLogs;
    } else {
      var s1 := Apply(sys, reqs[0]);
      var tail := reqs[1..];
      BufferIsWindow(s1, tail);
      SameGate(sys, s1, tail);
      WindowStep(sys, reqs[0], Accepted(sys, tail));
    }
  }

  /** One call, then the rest: the window after the call, extended, is the window of all. */
  lemma WindowStep(sys: LogSystem, q: Request, rest: seq<LogEntry>)
    requires |sys.inMemoryLogs| <= Capacity(sys.maxInMemoryLogs)
    ensures Last(Apply(sys, q).inMemoryLogs + rest, Capacity(sys.maxInMemoryLogs))
      == Last(sys.inMemoryLogs + ((if Accepts(sys, q.category, q.level) then [Entry(q)] else []) + rest), Capacity(sys.maxInMemoryLogs))
  {
    if Accepts(sys, q.category, q.level) {
      WindowAfter(sys.inMemoryLogs, Entry(q), Apply(sys, q).inMemoryLogs, rest, sys.maxInMemoryLogs);
    } else {
      assert Apply(sys, q) == sys;
      assert [] + rest == rest;
    }
  }

  lemma WindowAfter(buf: seq<LogEntry>, e: LogEntry, after: seq<LogEntry>, rest: seq<LogEntry>, max: int)
    requires |buf| <= Capacity(max)
    requires after == BoundedAppend(buf, e, max)
    ensures Last(after + rest, Capacity(max)) == Last(buf + ([e] + rest), Capacity(max))
  {
    LastOfLast(buf + [e], rest, Capacity(max));
    assert buf + [e] + rest == buf + ([e] + rest);
  }

  /** The gate depends on the configuration only, not on the buffer. */
  lemma {:induction false} SameGate(a: LogSystem, b: LogSystem, reqs: seq<Request>)
    requires SameConfig(a, b)
    ensures Accepted(a, reqs) == Accepted(b, reqs)
    decreases |reqs|
  {
    if reqs != [] {
      SameGate(a, b, reqs[1..]);
    }
  }

  /** `GetRecentLogs(count)`: the newest `min(count, n)` entries, oldest first. A negative count
      makes `GetRange` throw. */
  function GetRecentLogs(buf: seq<LogEntry>, count: int): (r: Result<seq<LogEntry>, string>)
    ensures r.Failure? <==> count < 0
    ensures r.Success? ==>
      |r.value| == (if count < |buf| then count else |buf|) && r.value == buf[|buf| - |r.value|..]
  {
    var c := if count < |buf| then count else |buf|;
    if c < 0 then Failure("count is less than zero")
    else Success(buf[|buf| - c..])
  }

  /** `Where(log => log.AgentId == agentId)`: the entries of one agent, in buffer order. */
  function Matching(buf: seq<LogEntry>, id: Option<string>): (r: seq<LogEntry>)
    ensures forall i | 0 <= i < |r| :: r[i].agentId == id
    ensures |r| <= |buf|
    decreases |buf|
  {
    if buf == [] then []
    else (if buf[0].agentId == id then [buf[0]] else []) + Matching(buf[1..], id)
  }

  /** The selection holds exactly the buffer's entries of the agent. */
  lemma {:induction false} MatchingMembers(buf: seq<LogEntry>, id: Option<string>)
    ensures forall e :: e in Matching(buf, id) <==> e in buf && e.agentId == id
    decreases |buf|
  {
    if buf != [] {
      MatchingMembers(buf[1..], id);
      FirstAndRest(buf);
    }
  }

  lemma FirstAndRest<T>(s: seq<T>)
    requires s != []
    ensures forall x :: x in s <==> x == s[0] || x in s[1..]
  {
    assert s == [s[0]] + s[1..];
  }

  /** Selection keeps order: the entries of a concatenation are those of each part, in turn. */
  lemma {:induction false} MatchingAppend(a: seq<LogEntry>, b: seq<LogEntry>, id: Option<string>)
    ensures Matching(a + b, id) == Matching(a, id) + Matching(b, id)
    decreases |a|
  {
    if a != [] {
      AppendTail(a, b);
      MatchingAppend(a[1..], b, id);
      ConcatAssoc(if a[0].agentId == id then [a[0]] else [], Matching(a[1..], id), Matching(b, id));
    } else {
      assert a + b == b;
    }
  }

  /** `GetAgentLogs(agentId, maxCount)`: the newest `maxCount` entries of the agent, oldest first;
      none for a count that is not positive. */
  function GetAgentLogs(buf: seq<LogEntry>, id: Option<string>, maxCount: int): (r: seq<LogEntry>)
    ensures forall i | 0 <= i < |r| :: r[i].agentId == id
    ensures var m := Matching(buf, id);
      |r| == (if Capacity(maxCount) < |m| then Capacity(maxCount) else |m|) && r == m[|m| - |r|..]
    ensures maxCount <= 0 ==> r == []
  {
    Last(Matching(buf, id), Capacity(maxCount))
  }

  /** The non-empty agent ids of the entries, in order, repeats included. */
  function AgentIdsOf(buf: seq<LogEntry>): (ids: seq<string>)
    ensures forall x :: x in ids <==> x != "" && exists i | 0 <= i < |buf| :: buf[i].agentId == Some(x)
    decreases |buf|
  {
    if buf == [] then []
    else
      var head := if buf[0].agentId.Some? && buf[0].agentId.value != "" then [buf[0].agentId.value] else [];
      var rest := AgentIdsOf(buf[1..]);
      assert forall x | x != "" && (exists i | 0 <= i < |buf[1..]| :: buf[1..][i].agentId == Some(x)) ::
        exists i | 0 <= i < |buf| :: buf[i].agentId == Some(x) by {
        forall x | x != "" && (exists i | 0 <= i < |buf[1..]| :: buf[1..][i].agentId == Some(x))
          ensures exists i | 0 <= i < |buf| :: buf[i].agentId == Some(x)
        {
          var i :| 0 <= i < |buf[1..]| && buf[1..][i].agentId == Some(x);
          assert buf[i + 1].agentId == Some(x);
        }
      }
      head + rest
  }

  /** `GetAllAgentIds`: every non-empty agent id in the buffer, once each, in order of first
      appearance. */
  function GetAllAgentIds(buf: seq<LogEntry>): (r: seq<string>)
    ensures Distinct(r)
    ensures forall x :: x in r <==> x != "" && exists i | 0 <= i < |buf| :: buf[i].agentId == Some(x)
  {
    InsertionOrderDistinct(AgentIdsOf(buf));
    InsertionOrder(AgentIdsOf(buf))
  }

  /** The keys whose values are replaced by their length. */
  predicate IsLargeField(key: string) {
    key == "Prompt" || key == "Response"
  }

  /** What one context pair becomes in the filtered dictionary. */
  function FilteredPair(key: string, v: Value): (string, Value) {
    if IsLargeField(key) then (key + "Length", Int(if v.Str? then Utf16Length(v.s) else 0)) else (key, v)
  }

  function FilteredPairs(d: Context): (ps: seq<(string, Value)>)
    ensures |ps| == |d|
    ensures forall i | 0 <= i < |d| :: ps[i] == FilteredPair(d[i].0, d[i].1)
  {
    seq(|d|, i requires 0 <= i < |d| => FilteredPair(d[i].0, d[i].1))
  }

  /** The filtered dictionary, built by assigning each filtered pair in turn. */
  function FilterContext(d: Context): Context {
    PutAll([], FilteredPairs(d))
  }

  /** `SerializeContext`: empty for a null or empty context; otherwise the pairs of the filtered
      dictionary rendered as `[key=value]` and separated by single spaces. */
  function SerializeContext(ctx: Option<Context>): (r: string)
    ensures r == "" <==> ctx.None? || ctx.value == []
    ensures ctx.Some? && ctx.value != [] ==> r == Join(Pieces(FilterContext(ctx.value)), " ")
  {
    match ctx
    case None => ""
    case Some(d) =>
      if |d| == 0 then ""
      else
        var f := FilterContext(d);
        FilteredNotEmpty(d);
        RenderIsJoin(f);
        JoinEndsInBracket(Pieces(f));
        Render(f)
  }

  lemma FilteredNotEmpty(d: Context)
    requires d != []
    ensures FilterContext(d) != []
  {
    var ps := FilteredPairs(d);
    PutAllGet([], ps, ps[0].0);
    assert Keys(ps)[0] == ps[0].0;
  }

  /** No prompt or response text is serialised: those keys never survive filtering. */
  lemma NoLargeFieldSerialised(d: Context)
    ensures "Prompt" !in Keys(FilterContext(d)) && "Response" !in Keys(FilterContext(d))
  {
    var ps := FilteredPairs(d);
    PutAllKeys(ps);
    InsertionOrderDistinct(Keys(ps));
    forall i | 0 <= i < |ps| ensures !IsLargeField(ps[i].0) {
      FilteredKeyNotLarge(d[i].0, d[i].1);
    }
  }

  /** A filtered key is never `Prompt` or `Response`: those two gain the suffix `Length`. */
  lemma FilteredKeyNotLarge(key: string, v: Value)
    ensures !IsLargeField(FilteredPair(key, v).0)
  {
    if IsLargeField(key) {
      assert |FilteredPair(key, v).0| == |key| + 6;
    }
  }

  /** A prompt is logged as its length, when nothing else in the context claims that key. */
  lemma PromptLoggedAsLength(d: Context, i: nat, text: string)
    requires i < |d| && d[i] == ("Prompt", Str(text))
    requires forall j | 0 <= j < |d| && j != i :: d[j].0 != "Prompt" && d[j].0 != "PromptLength"
    ensures Get(FilterContext(d), "PromptLength") == Some(Int(Utf16Length(text)))
  {
    var ps := FilteredPairs(d);
    assert ps[i].0 == "Prompt" + "Length" == "PromptLength";
    forall j | i < j < |ps| ensures ps[j].0 != "PromptLength" {
      if d[j].0 == "Response" {
        assert ps[j].0 == "ResponseLength";
        assert ps[j].0[0] != "PromptLength"[0];
      }
    }
    LastValueAt(ps, i, "PromptLength");
    PutAllGet([], ps, "PromptLength");
  }

  /** Without prompt or response keys, the entry's own rendering and the serialiser agree. */
  lemma ContextRenderingsAgree(e: LogEntry)
    requires e.context.Some? ==> Distinct(Keys(e.context.value))
    requires e.context.Some? ==> forall i | 0 <= i < |e.context.value| :: !IsLargeField(e.context.value[i].0)
    ensures GetContextAsString(e) == SerializeContext(e.context)
  {
    if e.context.Some? && e.context.value != [] {
      var d := e.context.value;
      assert FilteredPairs(d) == d;
      PutAllFresh(d);
    }
  }
}

=== FILE: memory.dfy ===
/** A single memory of an agent: what it is about, how important it is, what kind it is, and
    when it was created and last recalled. */
module Memories {
  import opened SimDateTimes

  /** The memory feature selected for the whole simulation. */
  datatype MemoryMode = Sensory | ShortTerm | LongTerm

  datatype MemoryKind = Observation | Reflection | Plan | Conversation

  datatype Memory = Memory(
    createdAt: SimDateTime,
    accessedAt: SimDateTime,
    description: string,
    importance: int,
    kind: MemoryKind)

  /** The lowest and highest importance a memory can hold. */
  const MinImportance := 1
  const MaxImportance := 10

  /** The `Importance` setter: out-of-range scores are clamped, never rejected. */
  function ClampImportance(v: int): (r: int)
    ensures MinImportance <= r <= MaxImportance
    ensures MinImportance <= v <= MaxImportance ==> r == v
    ensures v < MinImportance ==> r == MinImportance
    ensures v > MaxImportance ==> r == MaxImportance
  {
    Clamp(v, MinImportance, MaxImportance)
  }

  /** Assigning `Importance` on an existing memory. */
  function SetImportance(m: Memory, v: int): (r: Memory)
    ensures MinImportance <= r.importance <= MaxImportance
    ensures MinImportance <= v <= MaxImportance ==> r.importance == v
    ensures r.createdAt == m.createdAt && r.accessedAt == m.accessedAt
    ensures r.description == m.description && r.kind == m.kind
  {
    m.(importance := ClampImportance(v))
  }

  /** The constructor: both timestamps are the current clock value, the description and the
      kind are stored as given, and the importance goes through the clamping setter. */
  function NewMemory(now: SimDateTime, description: string, importance: int, kind: MemoryKind): (m: Memory)
    ensures m.createdAt == now && m.accessedAt == now
    ensures m.description == description && m.kind == kind
    ensures MinImportance <= m.importance <= MaxImportance
    ensures MinImportance <= importance <= MaxImportance ==> m.importance == importance
  {
    Memory(now, now, description, ClampImportance(importance), kind)
  }

  /** `UpdateAccessedAt`: only the last-access time changes. */
  function Touch(m: Memory, now: SimDateTime): (r: Memory)
    ensures r.accessedAt == now
    ensures r.createdAt == m.createdAt && r.description == m.description
    ensures r.importance == m.importance && r.kind == m.kind
  {
    m.(accessedAt := now)
  }

  /** What every memory satisfies at clock value `now`: a clamped importance, and a creation
      time no later than its last access, which is no later than `now`. */
  predicate Wellformed(m: Memory, now: SimDateTime) {
    MinImportance <= m.importance <= MaxImportance
    && NotAfter(m.createdAt, m.accessedAt) && NotAfter(m.accessedAt, now)
  }

  /** Two memories that agree on everything but the last-access time. */
  predicate SameContent(a: Memory, b: Memory) {
    a.createdAt == b.createdAt && a.description == b.description
    && a.importance == b.importance && a.kind == b.kind
  }

  /** A freshly constructed memory is well formed. */
  lemma NewMemoryWellformed(now: SimDateTime, description: string, importance: int, kind: MemoryKind)
    ensures Wellformed(NewMemory(now, description, importance, kind), now)
  {
  }

  /** A memory stays well formed while the clock does not go back. */
  lemma WellformedAsClockAdvances(m: Memory, now: SimDateTime, later: SimDateTime)
    requires Wellformed(m, now) && NotAfter(now, later)
    ensures Wellformed(m, later)
  {
    CompareToTransitive(m.accessedAt, now, later);
  }

  /** Recalling a memory keeps it well formed and keeps its content: with a clock that does
      not go back, the access time never falls behind the creation time. */
  lemma TouchKeepsWellformed(m: Memory, now: SimDateTime, later: SimDateTime)
    requires Wellformed(m, now) && NotAfter(now, later)
    ensures Wellformed(Touch(m, later), later)
    ensures SameContent(m, Touch(m, later))
  {
    CompareToTransitive(m.createdAt, m.accessedAt, now);
    CompareToTransitive(m.createdAt, now, later);
  }

  /** The descriptions of a list of memories, in order. */
  function Descriptions(ms: seq<Memory>): (ds: seq<string>)
    ensures |ds| == |ms|
    ensures forall i | 0 <= i < |ms| :: ds[i] == ms[i].description
  {
    seq(|ms|, i requires 0 <= i < |ms| => ms[i].description)
  }

  /** `ys` begins with the memories of `xs`, each with the same content, perhaps recalled since. */
  predicate ContentPrefix(xs: seq<Memory>, ys: seq<Memory>) {
    |xs| <= |ys| && forall i | 0 <= i < |xs| :: SameContent(xs[i], ys[i])
  }

  lemma ContentPrefixTransitive(xs: seq<Memory>, ys: seq<Memory>, zs: seq<Memory>)
    requires ContentPrefix(xs, ys) && ContentPrefix(ys, zs)
    ensures ContentPrefix(xs, zs)
  {
  }

  /** Every memory of the list is well formed at `now`. */
  predicate AllWellformed(ms: seq<Memory>, now: SimDateTime) {
    forall i | 0 <= i < |ms| :: Wellformed(ms[i], now)
  }
}

=== FILE: memory_engine.dfy ===
/** Adding memories and the reflections they trigger. Adding a long-term memory feeds the
    importance accumulator; crossing the threshold resets it and runs a reflection; each
    insight of the reflection is added as a long-term memory again, so reflections can nest.
    `fuel` bounds the nesting depth: a reflection reached with no fuel left is skipped. */
module MemoryEngine {
  import opened Text
  import opened SimDateTimes
  import opened Memories
  import opened Sorting
  import opened MemoryStreams

  /** The separator the question and insight replies are cut at. */
  const ReplySeparator := "| "

  /** Reflections run only with long-term memory and the reflection flag both on. */
  predicate Reflects(cfg: Config) {
    cfg.mode == LongTerm && cfg.reflections
  }

  /** Every memory from position `from` on is a reflection created at `now`. */
  predicate ReflectionsFrom(lt: seq<Memory>, from: nat, now: SimDateTime) {
    forall i | from <= i < |lt| :: lt[i].kind == Reflection && lt[i].createdAt == now
  }

  /** Two growth steps of the long-term list compose. */
  lemma GrowthChains(a: seq<Memory>, b: seq<Memory>, c: seq<Memory>, now: SimDateTime)
    requires ContentPrefix(a, b) && ContentPrefix(b, c)
    requires ReflectionsFrom(b, |a|, now) && ReflectionsFrom(c, |b|, now)
    ensures ContentPrefix(a, c) && ReflectionsFrom(c, |a|, now)
  {
    forall i | |a| <= i < |c| ensures c[i].kind == Reflection && c[i].createdAt == now {
      if i < |b| {
        assert SameContent(b[i], c[i]);
      }
    }
  }

  /** `CheckReflectionSystem(importance)`. */
  function CheckReflection(cfg: Config, o: Oracle, now: SimDateTime, s: Store, importance: int, fuel: nat): (r: Store)
    requires ValidConfig(cfg)
    ensures !Reflects(cfg) ==> r == s
    ensures Reflects(cfg) && s.importanceSum + importance < cfg.importanceThreshold
      ==> r == s.(importanceSum := s.importanceSum + importance)
    ensures Reflects(cfg) && fuel > 0
      ==> (|r.longTerm| > |s.longTerm| <==> s.importanceSum + importance >= cfg.importanceThreshold)
    ensures Reflects(cfg) && fuel == 0 && s.importanceSum + importance >= cfg.importanceThreshold
      ==> r == s.(importanceSum := 0)
    ensures r.shortTerm == s.shortTerm
    ensures ContentPrefix(s.longTerm, r.longTerm) && ReflectionsFrom(r.longTerm, |s.longTerm|, now)
    ensures StoreInvariant(cfg, s, now) && importance >= 0 ==> StoreInvariant(cfg, r, now)
    decreases fuel, 1, 0
  {
    if !Reflects(cfg) then s
    else
      var sum := s.importanceSum + importance;
      if sum >= cfg.importanceThreshold then PerformReflection(cfg, o, now, s.(importanceSum := 0), fuel)
      else s.(importanceSum := sum)
  }

  /** `PerformReflection`: outside long-term mode with reflections on it does nothing and asks
      the oracle nothing. Otherwise it reads the recent memories, asks for questions, and
      reflects on each. Every question yields at least one insight, so a reflection that runs
      always adds a memory. */
  function PerformReflection(cfg: Config, o: Oracle, now: SimDateTime, s: Store, fuel: nat): (r: Store)
    requires ValidConfig(cfg)
    ensures !Reflects(cfg) || fuel == 0 ==> r == s
    ensures Reflects(cfg) && fuel > 0 ==> |r.longTerm| > |s.longTerm|
    ensures r.shortTerm == s.shortTerm
    ensures ContentPrefix(s.longTerm, r.longTerm) && ReflectionsFrom(r.longTerm, |s.longTerm|, now)
    ensures StoreInvariant(cfg, s, now) ==> StoreInvariant(cfg, r, now)
    decreases fuel, 0, 0
  {
    if !Reflects(cfg) || fuel == 0 then s
    else
      var recent := RetrieveRecent(cfg, s, cfg.memoriesToAccess);
      var questions := Split(o.questions(Descriptions(recent)), ReplySeparator);
      ReflectOnQuestions(cfg, o, now, s, questions, fuel - 1)
  }

  /** The loop over the questions: one relevant retrieval with the question as context, one
      insight request, then every insight added. */
  function ReflectOnQuestions(cfg: Config, o: Oracle, now: SimDateTime, s: Store, qs: seq<string>, fuel: nat): (r: Store)
    requires ValidConfig(cfg) && Reflects(cfg)
    ensures qs == [] ==> r == s
    ensures |r.longTerm| >= |s.longTerm| + |qs|
    ensures r.shortTerm == s.shortTerm
    ensures ContentPrefix(s.longTerm, r.longTerm) && ReflectionsFrom(r.longTerm, |s.longTerm|, now)
    ensures StoreInvariant(cfg, s, now) ==> StoreInvariant(cfg, r, now)
    decreases fuel, 4, |qs|
  {
    if qs == [] then s
    else
      var got := RetrieveRelevant(cfg, o, now, s, qs[0]);
      assert StoreInvariant(cfg, s, now) ==> StoreInvariant(cfg, got.store, now) by {
        if StoreInvariant(cfg, s, now) {
          RetrieveRelevantKeepsInvariant(cfg, o, now, s, qs[0]);
        }
      }
      var insights := Split(o.insights(qs[0], Descriptions(got.memories)), ReplySeparator);
      var s1 := ReflectOnInsights(cfg, o, now, got.store, insights, fuel);
      var r := ReflectOnQuestions(cfg, o, now, s1, qs[1..], fuel);
      GrowthChains(s.longTerm, got.store.longTerm, s1.longTerm, now);
      GrowthChains(s.longTerm, s1.longTerm, r.longTerm, now);
      r
  }

  /** The loop over the insights of one question: each becomes a Reflection memory with that
      exact text and a rated importance, added through the long-term insert path. */
  function ReflectOnInsights(cfg: Config, o: Oracle, now: SimDateTime, s: Store, ins: seq<string>, fuel: nat): (r: Store)
    requires ValidConfig(cfg) && Reflects(cfg)
    ensures |r.longTerm| >= |s.longTerm| + |ins|
    ensures forall k | 0 <= k < |ins| :: ins[k] in Descriptions(r.longTerm[|s.longTerm|..])
    ensures fuel == 0 ==> Descriptions(r.longTerm[|s.longTerm|..]) == ins
    ensures r.shortTerm == s.shortTerm
    ensures ContentPrefix(s.longTerm, r.longTerm) && ReflectionsFrom(r.longTerm, |s.longTerm|, now)
    ensures StoreInvariant(cfg, s, now) ==> StoreInvariant(cfg, r, now)
    decreases fuel, 3, |ins|
  {
    if ins == [] then s
    else
      var m := NewMemory(now, ins[0], ScoreImportance(o, ins[0]), Reflection);
      var s1 := AddLongTerm(cfg, o, now, s, m, fuel);
      var r := ReflectOnInsights(cfg, o, now, s1, ins[1..], fuel);
      InsightsStep(s.longTerm, s1.longTerm, r.longTerm, m, ins, now, fuel == 0);
      r
  }

  /** The bookkeeping step of `ReflectOnInsights`. */
  lemma InsightsStep(a: seq<Memory>, b: seq<Memory>, c: seq<Memory>, m: Memory, ins: seq<string>,
                     now: SimDateTime, exact: bool)
    requires ins != [] && m.description == ins[0] && m.kind == Reflection && m.createdAt == now
    requires |b| > |a| && ContentPrefix(a + [m], b) && ReflectionsFrom(b, |a| + 1, now)
    requires |c| >= |b| + |ins| - 1 && ContentPrefix(b, c) && ReflectionsFrom(c, |b|, now)
    requires forall k | 0 <= k < |ins[1..]| :: ins[1..][k] in Descriptions(c[|b|..])
    requires exact ==> b == a + [m] && Descriptions(c[|b|..]) == ins[1..]
    ensures |c| >= |a| + |ins|
    ensures forall k | 0 <= k < |ins| :: ins[k] in Descriptions(c[|a|..])
    ensures exact ==> Descriptions(c[|a|..]) == ins
    ensures ContentPrefix(a, c) && ReflectionsFrom(c, |a|, now)
  {
    assert SameContent(m, b[|a|]) by {
      assert (a + [m])[|a|] == m;
    }
    assert ContentPrefix(a, b) by {
      forall i | 0 <= i < |a| ensures SameContent(a[i], b[i]) {
        assert (a + [m])[i] == a[i];
      }
    }
    GrowthChains(a, b, c, now);
    var late := Descriptions(c[|b|..]);
    var all := Descriptions(c[|a|..]);
    assert all[0] == ins[0] by {
      assert SameContent(b[|a|], c[|a|]);
    }
    assert forall j | 0 <= j < |late| :: late[j] == all[j + |b| - |a|];
    forall k | 0 <= k < |ins| ensures ins[k] in all {
      if k > 0 {
        assert ins[k] == ins[1..][k - 1];
        var j :| 0 <= j < |late| && late[j] == ins[k];
        assert all[j + |b| - |a|] == ins[k];
      }
    }
    if exact {
      assert |b| == |a| + 1;
      assert all == [ins[0]] + late;
      assert ins == [ins[0]] + ins[1..];
    }
  }

  /** `AddLongTermMemory(memory)`: the memory is appended, then the accumulator is checked,
      which may add reflections after it. Nothing before it changes content. */
  function AddLongTerm(cfg: Config, o: Oracle, now: SimDateTime, s: Store, m: Memory, fuel: nat): (r: Store)
    requires ValidConfig(cfg)
    ensures |r.longTerm| > |s.longTerm| && ContentPrefix(s.longTerm + [m], r.longTerm)
    ensures ReflectionsFrom(r.longTerm, |s.longTerm| + 1, now)
    ensures fuel == 0 || !Reflects(cfg) ==> r.longTerm == s.longTerm + [m]
    ensures r.shortTerm == s.shortTerm
    ensures StoreInvariant(cfg, s, now) && Wellformed(m, now) ==> StoreInvariant(cfg, r, now)
    decreases fuel, 2, 0
  {
    var s1 := s.(longTerm := s.longTerm + [m]);
    assert StoreInvariant(cfg, s, now) && Wellformed(m, now) ==> AllWellformed(s1.longTerm, now);
    CheckReflection(cfg, o, now, s1, m.importance, fuel)
  }

  /** `AddShortMemory(memory)`: when the queue is full the oldest memory leaves first; the new
      one joins at the tail, then the accumulator is checked. */
  function AddShort(cfg: Config, o: Oracle, now: SimDateTime, s: Store, m: Memory, fuel: nat): (r: Store)
    requires ValidConfig(cfg)
    ensures |s.shortTerm| < cfg.shortTermLimit ==> r.shortTerm == s.shortTerm + [m]
    ensures |s.shortTerm| >= cfg.shortTermLimit ==> r.shortTerm == s.shortTerm[1..] + [m]
    ensures |s.shortTerm| <= cfg.shortTermLimit ==> |r.shortTerm| <= cfg.shortTermLimit
    ensures !Reflects(cfg) ==> r.longTerm == s.longTerm && r.importanceSum == s.importanceSum
    ensures ContentPrefix(s.longTerm, r.longTerm) && ReflectionsFrom(r.longTerm, |s.longTerm|, now)
    ensures StoreInvariant(cfg, s, now) && Wellformed(m, now) ==> StoreInvariant(cfg, r, now)
  {
    var queue := if |s.shortTerm| >= cfg.shortTermLimit then s.shortTerm[1..] else s.shortTerm;
    var s1 := s.(shortTerm := queue + [m]);
    assert StoreInvariant(cfg, s, now) && Wellformed(m, now) ==> AllWellformed(s1.shortTerm, now) by {
      if StoreInvariant(cfg, s, now) && Wellformed(m, now) {
        forall i | 0 <= i < |s1.shortTerm| ensures Wellformed(s1.shortTerm[i], now) {
          if i < |queue| {
            assert s1.shortTerm[i] == s.shortTerm[i + |s.shortTerm| - |queue|];
          }
        }
      }
    }
    CheckReflection(cfg, o, now, s1, m.importance, fuel)
  }

  /** Adding a list of short-term memories one by one. */
  function AddShortAll(cfg: Config, o: Oracle, now: SimDateTime, s: Store, ms: seq<Memory>, fuel: nat): Store
    requires ValidConfig(cfg)
    decreases |ms|
  {
    if ms == [] then s else AddShortAll(cfg, o, now, AddShort(cfg, o, now, s, ms[0], fuel), ms[1..], fuel)
  }

  /** The queue is a sliding window: after any run of additions it holds the newest
      `shortTermLimit` memories of everything that entered it, oldest first. */
  lemma {:induction false} ShortTermIsWindow(cfg: Config, o: Oracle, now: SimDateTime, s: Store, ms: seq<Memory>, fuel: nat)
    requires ValidConfig(cfg) && |s.shortTerm| <= cfg.shortTermLimit
    ensures AddShortAll(cfg, o, now, s, ms, fuel).shortTerm == Last(s.shortTerm + ms, cfg.shortTermLimit)
    decreases |ms|
  {
    if ms != [] {
      var s1 := AddShort(cfg, o, now, s, ms[0], fuel);
      ShortTermIsWindow(cfg, o, now, s1, ms[1..], fuel);
      WindowStep(s.shortTerm, ms, cfg.shortTermLimit, s1.shortTerm);
    }
  }

  lemma WindowStep<T>(q: seq<T>, ms: seq<T>, n: nat, q1: seq<T>)
    requires n >= 1 && |q| <= n && ms != []
    requires |q| < n ==> q1 == q + [ms[0]]
    requires |q| >= n ==> q1 == q[1..] + [ms[0]]
    ensures Last(q1 + ms[1..], n) == Last(q + ms, n)
  {
    assert q + ms == q + [ms[0]] + ms[1..];
    if |q| >= n {
      assert q + [ms[0]] + ms[1..] == [q[0]] + (q1 + ms[1..]);
    }
  }

  /** `AddObservation(description)`: nothing in sensory mode; otherwise the description is
      rated and becomes one Observation, queued in short-term mode or appended to the
      long-term list in long-term mode, and the other stream is left alone. */
  function AddObservation(cfg: Config, o: Oracle, now: SimDateTime, s: Store, description: string, fuel: nat): (r: Store)
    requires ValidConfig(cfg)
    ensures cfg.mode == Sensory ==> r == s
    ensures var m := NewMemory(now, description, ScoreImportance(o, description), Observation);
      cfg.mode == ShortTerm ==>
        && r.longTerm == s.longTerm && r.importanceSum == s.importanceSum
        && |r.shortTerm| >= 1 && r.shortTerm[|r.shortTerm| - 1] == m
        && r.shortTerm[..|r.shortTerm| - 1] == (if |s.shortTerm| >= cfg.shortTermLimit then s.shortTerm[1..] else s.shortTerm)
    ensures var m := NewMemory(now, description, ScoreImportance(o, description), Observation);
      cfg.mode == LongTerm ==>
        && r.shortTerm == s.shortTerm
        && |r.longTerm| > |s.longTerm| && ContentPrefix(s.longTerm + [m], r.longTerm)
        && (!cfg.reflections ==> r == s.(longTerm := s.longTerm + [m]))
    ensures StoreInvariant(cfg, s, now) ==> StoreInvariant(cfg, r, now)
  {
    if cfg.mode == Sensory then s
    else
      var m := NewMemory(now, description, ScoreImportance(o, description), Observation);
      NewMemoryWellformed(now, description, ScoreImportance(o, description), Observation);
      match cfg.mode
      case ShortTerm =>
        var r := AddShort(cfg, o, now, s, m, fuel);
        assert r.shortTerm[..|r.shortTerm| - 1] == (if |s.shortTerm| >= cfg.shortTermLimit then s.shortTerm[1..] else s.shortTerm);
        r
      case LongTerm => AddLongTerm(cfg, o, now, s, m, fuel)
  }
}

=== FILE: memory_streams.dfy ===
/** The two memory streams of an agent and the reads over them: seeding, importance scoring,
    recent and relevant retrieval. The language model, the embedding, the square root and the
    power function are parameters (an `Oracle`); the clock value is passed in as `now`. */
module MemoryStreams {
  import opened Wrappers
  import opened Text
  import opened SimDateTimes
  import opened DaytimeCycle
  import opened Memories
  import opened Sorting
  import opened Retrieval

  /** The memory feature flags together with the per-agent settings. */
  datatype Config = Config(
    mode: MemoryMode,
    reflections: bool,
    shortTermLimit: int,
    importanceThreshold: int,
    weights: Weights,
    memoriesToAccess: int)

  /** What the inspector enforces: a short-term limit and a threshold of at least 1, weights in
      [0, 1], and at least one memory read for a reflection. */
  predicate ValidConfig(cfg: Config) {
    cfg.shortTermLimit >= 1 && cfg.importanceThreshold >= 1
    && ValidWeights(cfg.weights) && cfg.memoriesToAccess >= 1
  }

  /** The defaults of the agent components: limit 10, threshold 150, all weights 1, and 100
      memories read for a reflection. */
  function DefaultConfig(mode: MemoryMode, reflections: bool): (cfg: Config)
    ensures ValidConfig(cfg)
  {
    Config(mode, reflections, 10, 150, Weights(1.0, 1.0, 1.0), 100)
  }

  /** Everything outside the model, as functions of what it is given. `questions` is the
      reply to the question prompt built from the recent descriptions; `insights` the reply to
      the insight prompt for a question and the relevant descriptions; `importance` the reply
      to the rating prompt; `embed` the embedding of a text; `sqrt` and `pow` the float square
      root and power. */
  datatype Oracle = Oracle(
    questions: seq<string> -> string,
    insights: (string, seq<string>) -> string,
    importance: string -> string,
    embed: string -> seq<real>,
    sqrt: real -> real,
    pow: (real, real) -> real)

  /** The mutable state of the memory component: the short-term queue (oldest first), the
      long-term list, and the importance accumulated towards the next reflection. */
  datatype Store = Store(shortTerm: seq<Memory>, longTerm: seq<Memory>, importanceSum: int)

  /** What the store keeps at clock value `now`: the accumulator below the threshold, the
      queue within its limit, and every memory well formed. */
  predicate StoreInvariant(cfg: Config, s: Store, now: SimDateTime) {
    0 <= s.importanceSum < cfg.importanceThreshold
    && |s.shortTerm| <= cfg.shortTermLimit
    && AllWellformed(s.shortTerm, now) && AllWellformed(s.longTerm, now)
  }

  /** The importance given to every seed memory. */
  const SeedImportance := 8

  /** A seed statement: not empty, neither starting nor ending with white space, and without
      a semicolon. Such a text is not blank and is its own trim. */
  predicate IsStatement(x: string) {
    x != [] && !IsWhiteSpace(x[0]) && !IsWhiteSpace(x[|x| - 1]) && !Contains(x, ";")
  }

  lemma StatementIsTrimmed(x: string)
    requires IsStatement(x)
    ensures !IsBlank(x) && Trim(x) == x
  {
    TrimTrimmed(x);
  }

  /** The seed statements: the pieces between semicolons that are not blank, trimmed, in order. */
  function SeedStatements(text: string): (stmts: seq<string>)
    ensures forall i | 0 <= i < |stmts| :: IsStatement(stmts[i])
  {
    KeepStatements(Split(text, ";"))
  }

  /** A piece without a semicolon that is not blank trims to a statement. */
  lemma TrimmedIsStatement(p: string)
    requires !IsBlank(p) && !Contains(p, ";")
    ensures IsStatement(Trim(p))
  {
    var t := Trim(p);
    var k := |p| - |TrimStart(p)|;
    assert !Contains(t, ";") by {
      assert t == p[k..k + |t|];
      NotContainsInfix(p, ";", k, k + |t|);
    }
  }

  function KeepStatements(pieces: seq<string>): (stmts: seq<string>)
    requires forall i | 0 <= i < |pieces| :: !Contains(pieces[i], ";")
    ensures |stmts| <= |pieces|
    ensures forall i | 0 <= i < |stmts| :: IsStatement(stmts[i])
  {
    if pieces == [] then []
    else
      var tail := pieces[1..];
      assert forall i | 0 <= i < |tail| :: !Contains(tail[i], ";") by {
        assert forall i | 0 <= i < |tail| :: tail[i] == pieces[i + 1];
      }
      var rest := KeepStatements(tail);
      if IsBlank(pieces[0]) then rest
      else
        assert IsStatement(Trim(pieces[0])) by {
          TrimmedIsStatement(pieces[0]);
        }
        PrependStatement(Trim(pieces[0]), rest)
  }

  function PrependStatement(x: string, rest: seq<string>): (r: seq<string>)
    requires IsStatement(x) && forall i | 0 <= i < |rest| :: IsStatement(rest[i])
    ensures r == [x] + rest
    ensures forall i | 0 <= i < |r| :: IsStatement(r[i])
  {
    var r := [x] + rest;
    forall i | 0 <= i < |r| ensures IsStatement(r[i]) {
      if i > 0 {
        assert r[i] == rest[i - 1];
      }
    }
    r
  }

  /** Statements written without semicolons, surrounding white space or blanks come back
      unchanged from the text that joins them with semicolons. */
  lemma SeedStatementsOfJoin(stmts: seq<string>)
    requires forall i {:trigger stmts[i]} | 0 <= i < |stmts| :: IsStatement(stmts[i])
    ensures SeedStatements(Join(stmts, ";")) == stmts
  {
    if stmts == [] {
      SplitEmpty(";");
      assert IsBlank("");
    } else {
      assert forall i | 0 <= i < |stmts| :: !Contains(stmts[i], ";");
      SplitJoin(stmts, ";");
      KeepAll(stmts);
    }
  }

  lemma {:induction false} KeepAll(stmts: seq<string>)
    requires forall i {:trigger stmts[i]} | 0 <= i < |stmts| :: IsStatement(stmts[i])
    requires forall i | 0 <= i < |stmts| :: !Contains(stmts[i], ";")
    ensures KeepStatements(stmts) == stmts
  {
    if stmts != [] {
      var rest := stmts[1..];
      assert forall i | 0 <= i < |rest| :: rest[i] == stmts[i + 1];
      KeepAll(rest);
      assert IsStatement(stmts[0]);
      assert stmts == [stmts[0]] + rest;
    }
  }

  /** One piece: a blank piece is skipped, any other is kept trimmed. */
  lemma KeepOne(p: string)
    requires !Contains(p, ";")
    ensures KeepStatements([p]) == if IsBlank(p) then [] else [Trim(p)]
  {
    assert [p][1..] == [];
  }

  /** Keeping works piece by piece, in order: the pieces of a concatenation keep what each
      part keeps, one after the other. */
  lemma {:induction false} KeepAppend(a: seq<string>, b: seq<string>)
    requires forall i | 0 <= i < |a| :: !Contains(a[i], ";")
    requires forall i | 0 <= i < |b| :: !Contains(b[i], ";")
    ensures forall i | 0 <= i < |a + b| :: !Contains((a + b)[i], ";")
    ensures KeepStatements(a + b) == KeepStatements(a) + KeepStatements(b)
    decreases |a|
  {
    NoSeparatorAppend(a, b);
    if a == [] {
      assert a + b == b;
    } else {
      var p, tail := a[0], a[1..];
      assert a == [p] + tail;
      assert forall i | 0 <= i < |tail| :: tail[i] == a[i + 1];
      KeepAppend(tail, b);
      KeepCons(p, tail);
      KeepCons(p, tail + b);
      var kept := if IsBlank(p) then [] else [Trim(p)];
      var x, y := KeepStatements(tail), KeepStatements(b);
      assert a + b == [p] + (tail + b) by {
        ConcatAssoc([p], tail, b);
      }
      ConcatAssoc(kept, x, y);
    }
  }

  /** The first piece is kept or skipped, then the rest. */
  lemma KeepCons(p: string, rest: seq<string>)
    requires !Contains(p, ";") && forall i | 0 <= i < |rest| :: !Contains(rest[i], ";")
    ensures forall i | 0 <= i < |[p] + rest| :: !Contains(([p] + rest)[i], ";")
    ensures KeepStatements([p] + rest) == (if IsBlank(p) then [] else [Trim(p)]) + KeepStatements(rest)
  {
    assert forall i | 0 <= i < |[p] + rest| :: ([p] + rest)[i] == if i == 0 then p else rest[i - 1];
    assert ([p] + rest)[1..] == rest;
  }

  lemma NoSeparatorAppend(a: seq<string>, b: seq<string>)
    requires forall i | 0 <= i < |a| :: !Contains(a[i], ";")
    requires forall i | 0 <= i < |b| :: !Contains(b[i], ";")
    ensures forall i | 0 <= i < |a + b| :: !Contains((a + b)[i], ";")
  {
    forall i | 0 <= i < |a + b| ensures !Contains((a + b)[i], ";") {
      if i >= |a| {
        assert (a + b)[i] == b[i - |a|];
      }
    }
  }

  /** Seeding from the template text: one Observation of importance 8 per statement, appended
      to the long-term list in every memory mode; the queue and the accumulator are untouched,
      and an empty text changes nothing. */
  function Seed(s: Store, now: SimDateTime, text: string): (r: Store)
    ensures r.shortTerm == s.shortTerm && r.importanceSum == s.importanceSum
    ensures |r.longTerm| == |s.longTerm| + |SeedStatements(text)| && r.longTerm[..|s.longTerm|] == s.longTerm
    ensures forall i | |s.longTerm| <= i < |r.longTerm| ::
      && r.longTerm[i].description == SeedStatements(text)[i - |s.longTerm|]
      && r.longTerm[i].importance == SeedImportance && r.longTerm[i].kind == Observation
      && r.longTerm[i].createdAt == now && r.longTerm[i].accessedAt == now
    ensures text == "" ==> r == s
  {
    if text == "" then
      SplitEmpty(";");
      assert IsBlank("");
      s
    else
      var added := SeedMemories(now, SeedStatements(text));
      var r := s.(longTerm := s.longTerm + added);
      assert forall i | |s.longTerm| <= i < |r.longTerm| :: r.longTerm[i] == added[i - |s.longTerm|];
      r
  }

  /** One fresh seed memory per statement, in order. */
  function SeedMemories(now: SimDateTime, stmts: seq<string>): (ms: seq<Memory>)
    ensures |ms| == |stmts|
    ensures forall i | 0 <= i < |ms| ::
      && ms[i].description == stmts[i] && ms[i].importance == SeedImportance && ms[i].kind == Observation
      && ms[i].createdAt == now && ms[i].accessedAt == now
  {
    seq(|stmts|, i requires 0 <= i < |stmts| => NewMemory(now, stmts[i], SeedImportance, Observation))
  }

  /** Seeding keeps the store invariant. */
  lemma SeedKeepsInvariant(cfg: Config, s: Store, now: SimDateTime, text: string)
    requires StoreInvariant(cfg, s, now)
    ensures StoreInvariant(cfg, Seed(s, now, text), now)
  {
    var r := Seed(s, now, text);
    forall i | 0 <= i < |r.longTerm| ensures Wellformed(r.longTerm[i], now) {
      if i < |s.longTerm| {
        assert r.longTerm[i] == s.longTerm[i];
      } else {
        NewMemoryWellformed(now, r.longTerm[i].description, SeedImportance, Observation);
      }
    }
  }

  /** The importance rating: the trimmed reply read as a 32-bit integer, or 5 when it does not
      read as one. */
  function ScoreImportance(o: Oracle, description: string): (v: int)
    ensures InInt32(v)
  {
    match ParseInt32(Trim(o.importance(description)))
    case Some(n) => n
    case None => 5
  }

  /** A reply that is an integer, perhaps padded with white space, is taken as it is. */
  lemma ScoreImportanceReadsNumber(o: Oracle, description: string, n: int, pad: string)
    requires InInt32(n) && IsBlank(pad)
    requires o.importance(description) == pad + IntToString(n) + pad
    ensures ScoreImportance(o, description) == n
  {
    var digits := IntToString(n);
    ParseInt32RoundTrip(n);
    assert digits != [] && !IsWhiteSpace(digits[0]) && !IsWhiteSpace(digits[|digits| - 1]) by {
      if n < 0 {
        assert digits[0] == '-';
        assert digits[|digits| - 1] == NatToString(-n)[|NatToString(-n)| - 1];
      }
    }
    TrimPadded(pad, digits);
  }

  /** A reply that has no number in it falls back to 5. */
  lemma ScoreImportanceFallsBack(o: Oracle, description: string)
    requires IsBlank(o.importance(description))
    ensures ScoreImportance(o, description) == 5
  {
  }

  /** The sum of the products of corresponding components, accumulated from the front. */
  function Dot(a: seq<real>, b: seq<real>): real
    requires |a| == |b|
  {
    if |a| == 0 then 0.0 else Dot(a[..|a| - 1], b[..|b| - 1]) + a[|a| - 1] * b[|b| - 1]
  }

  /** The dot product does not depend on the order of its arguments. */
  lemma {:induction false} DotSymmetric(a: seq<real>, b: seq<real>)
    requires |a| == |b|
    ensures Dot(a, b) == Dot(b, a)
    decreases |a|
  {
    if |a| > 0 {
      DotSymmetric(a[..|a| - 1], b[..|b| - 1]);
    }
  }

  /** The dot product of a vector of zeros with itself is 0. */
  lemma {:induction false} DotZero(a: seq<real>)
    requires forall i | 0 <= i < |a| :: a[i] == 0.0
    ensures Dot(a, a) == 0.0
    decreases |a|
  {
    if |a| > 0 {
      DotZero(a[..|a| - 1]);
    }
  }

  /** Cosine similarity with its guards: vectors of different lengths, or a magnitude of 0,
      give 0; otherwise the dot product over the product of the magnitudes. */
  function Cosine(sqrt: real -> real, a: seq<real>, b: seq<real>): real {
    if |a| != |b| then 0.0
    else
      var ma := sqrt(Dot(a, a));
      var mb := sqrt(Dot(b, b));
      if ma == 0.0 || mb == 0.0 then 0.0 else Dot(a, b) / (ma * mb)
  }

  /** The guards: a length mismatch gives 0, and so does a zero vector whenever the square
      root of 0 is 0. */
  lemma CosineGuards(sqrt: real -> real, a: seq<real>, b: seq<real>)
    ensures |a| != |b| ==> Cosine(sqrt, a, b) == 0.0
    ensures |a| == |b| && sqrt(0.0) == 0.0 && (forall i | 0 <= i < |a| :: a[i] == 0.0)
      ==> Cosine(sqrt, a, b) == 0.0
  {
    if |a| == |b| && forall i | 0 <= i < |a| :: a[i] == 0.0 {
      DotZero(a);
    }
  }

  /** Cosine similarity is symmetric. */
  lemma CosineSymmetric(sqrt: real -> real, a: seq<real>, b: seq<real>)
    ensures Cosine(sqrt, a, b) == Cosine(sqrt, b, a)
  {
    if |a| == |b| {
      DotSymmetric(a, b);
      var ma := sqrt(Dot(a, a));
      var mb := sqrt(Dot(b, b));
      assert ma * mb == mb * ma;
    }
  }

  /** The loop of `CalculateCosineSimilarity`: the three sums in one pass, then the guards. */
  method CosineSimilarity(sqrt: real -> real, a: seq<real>, b: seq<real>) returns (c: real)
    ensures c == Cosine(sqrt, a, b)
  {
    if |a| != |b| {
      return 0.0;
    }
    var dot, magA, magB := 0.0, 0.0, 0.0;
    var i := 0;
    while i < |a|
      invariant 0 <= i <= |a|
      invariant dot == Dot(a[..i], b[..i])
      invariant magA == Dot(a[..i], a[..i])
      invariant magB == Dot(b[..i], b[..i])
    {
      assert a[..i + 1][..i] == a[..i] && b[..i + 1][..i] == b[..i];
      dot := dot + a[i] * b[i];
      magA := magA + a[i] * a[i];
      magB := magB + b[i] * b[i];
      i := i + 1;
    }
    assert a[..i] == a && b[..i] == b;
    var ma := sqrt(magA);
    var mb := sqrt(magB);
    if ma == 0.0 || mb == 0.0 {
      return 0.0;
    }
    c := dot / (ma * mb);
  }

  /** The relevance of a memory description to a context: the cosine similarity of their
      embeddings. */
  function Relevance(o: Oracle, description: string, context: string): real {
    Cosine(o.sqrt, o.embed(description), o.embed(context))
  }

  /** How fast recency decays per hour in each mode. */
  function DecayFactor(mode: MemoryMode): real {
    match mode
    case ShortTerm => 0.9
    case LongTerm => 0.995
    case Sensory => 1.0
  }

  /** The recency score: the mode's decay factor raised to the hours since the last access. */
  function Recency(cfg: Config, o: Oracle, now: SimDateTime, m: Memory): real {
    o.pow(DecayFactor(cfg.mode), HoursBetween(m.accessedAt, now))
  }

  /** The combined score of every pool member for a context. */
  function PoolScores(cfg: Config, o: Oracle, now: SimDateTime, pool: seq<Memory>, context: string): (scores: seq<real>)
    requires ValidConfig(cfg)
    ensures |scores| == |pool|
    ensures forall i | 0 <= i < |pool| ::
      0.0 <= scores[i] <= cfg.weights.recency + cfg.weights.relevance + cfg.weights.importance
  {
    var recency := seq(|pool|, i requires 0 <= i < |pool| => Recency(cfg, o, now, pool[i]));
    var relevance := seq(|pool|, i requires 0 <= i < |pool| => Relevance(o, pool[i].description, context));
    var importance := seq(|pool|, i requires 0 <= i < |pool| => pool[i].importance as real);
    CombinedScores(cfg.weights, recency, relevance, importance)
  }

  /** The memories relevant retrieval ranks in each mode: none, the queue, or the long-term list. */
  function Pool(cfg: Config, s: Store): seq<Memory> {
    match cfg.mode
    case Sensory => []
    case ShortTerm => s.shortTerm
    case LongTerm => s.longTerm
  }

  /** The most memories relevant retrieval returns in each mode. */
  function RelevantCap(mode: MemoryMode): nat {
    match mode
    case Sensory => 0
    case ShortTerm => 3
    case LongTerm => 5
  }

  /** The pool positions relevant retrieval returns, in the order it returns them. */
  function RelevantPositions(cfg: Config, o: Oracle, now: SimDateTime, s: Store, context: string): (sel: seq<nat>)
    requires ValidConfig(cfg)
    ensures Bounded(sel, |Pool(cfg, s)|) && DistinctDescs(Descriptions(Pool(cfg, s)), sel)
    ensures |sel| <= RelevantCap(cfg.mode)
  {
    var pool := Pool(cfg, s);
    if cfg.mode == Sensory then []
    else SelectRelevant(Descriptions(pool), PoolScores(cfg, o, now, pool, context), RelevantCap(cfg.mode))
  }

  /** The memories at positions `sel` recalled at `now`; the others as they were. */
  function TouchAt(ms: seq<Memory>, sel: seq<nat>, now: SimDateTime): (r: seq<Memory>)
    ensures |r| == |ms|
    ensures forall i | 0 <= i < |ms| :: r[i] == if i in sel then Touch(ms[i], now) else ms[i]
  {
    seq(|ms|, i requires 0 <= i < |ms| => if i in sel then Touch(ms[i], now) else ms[i])
  }

  /** Recalling changes no memory's content. */
  lemma TouchAtSameContent(ms: seq<Memory>, sel: seq<nat>, now: SimDateTime)
    ensures ContentPrefix(ms, TouchAt(ms, sel, now)) && ContentPrefix(ms, ms)
  {
  }

  /** The result of relevant retrieval: the memories returned and the store with their access
      times updated. */
  datatype Retrieved = Retrieved(memories: seq<Memory>, store: Store)

  /** `RetrieveRelevantMemories(context)`. */
  function RetrieveRelevant(cfg: Config, o: Oracle, now: SimDateTime, s: Store, context: string): (r: Retrieved)
    requires ValidConfig(cfg)
    ensures cfg.mode == Sensory ==> r == Retrieved([], s)
    ensures |r.memories| <= RelevantCap(cfg.mode)
    ensures forall i, j | 0 <= i < j < |r.memories| :: r.memories[i].description != r.memories[j].description
    ensures var pool := Pool(cfg, s); var sel := RelevantPositions(cfg, o, now, s, context);
      |r.memories| == |sel| && forall k | 0 <= k < |sel| :: r.memories[k] == Touch(pool[sel[k]], now)
    ensures var pool := Pool(cfg, s); var sel := RelevantPositions(cfg, o, now, s, context);
      Pool(cfg, r.store) == TouchAt(pool, sel, now)
    ensures |r.memories| < RelevantCap(cfg.mode) ==>
      forall i | 0 <= i < |Pool(cfg, s)| :: Pool(cfg, s)[i].description in Descriptions(r.memories)
    ensures cfg.mode != ShortTerm ==> r.store.shortTerm == s.shortTerm
    ensures cfg.mode != LongTerm ==> r.store.longTerm == s.longTerm
    ensures |r.store.longTerm| == |s.longTerm| && ContentPrefix(s.longTerm, r.store.longTerm)
    ensures r.store.importanceSum == s.importanceSum
  {
    var pool := Pool(cfg, s);
    var sel := RelevantPositions(cfg, o, now, s, context);
    var touched := TouchAt(pool, sel, now);
    TouchAtSameContent(pool, sel, now);
    var store := match cfg.mode
      case Sensory => s
      case ShortTerm => s.(shortTerm := touched)
      case LongTerm => s.(longTerm := touched);
    Retrieved(Recalled(pool, sel, now), store)
  }

  /** The memories at positions `sel`, in that order, recalled at `now`. */
  function Recalled(pool: seq<Memory>, sel: seq<nat>, now: SimDateTime): (ms: seq<Memory>)
    requires Bounded(sel, |pool|)
    ensures |ms| == |sel| && forall k | 0 <= k < |sel| :: ms[k] == Touch(pool[sel[k]], now)
    ensures Descriptions(ms) == DescsOf(Descriptions(pool), sel)
  {
    seq(|sel|, k requires 0 <= k < |sel| => Touch(pool[sel[k]], now))
  }

  /** Relevant retrieval keeps the store invariant for a clock that does not go back. */
  lemma RetrieveRelevantKeepsInvariant(cfg: Config, o: Oracle, now: SimDateTime, s: Store, context: string)
    requires ValidConfig(cfg) && StoreInvariant(cfg, s, now)
    ensures StoreInvariant(cfg, RetrieveRelevant(cfg, o, now, s, context).store, now)
  {
    var sel := RelevantPositions(cfg, o, now, s, context);
    TouchAtKeepsWellformed(Pool(cfg, s), sel, now);
  }

  /** Recalling some memories of a well-formed list at the current time keeps it well-formed. */
  lemma TouchAtKeepsWellformed(ms: seq<Memory>, sel: seq<nat>, now: SimDateTime)
    requires AllWellformed(ms, now)
    ensures AllWellformed(TouchAt(ms, sel, now), now)
  {
    forall i | 0 <= i < |ms| && i in sel ensures Wellformed(Touch(ms[i], now), now) {
      TouchKeepsWellformed(ms[i], now, now);
    }
  }

  /** Every returned memory keeps the best combined score of its description in the pool,
      and no pool member whose description is not returned scores above a returned one. */
  lemma RetrieveRelevantIsTopDistinct(cfg: Config, o: Oracle, now: SimDateTime, s: Store, context: string)
    requires ValidConfig(cfg) && cfg.mode != Sensory
    ensures var pool := Pool(cfg, s); var scores := PoolScores(cfg, o, now, pool, context);
      var sel := RelevantPositions(cfg, o, now, s, context);
      && (forall k, i | 0 <= k < |sel| && 0 <= i < |pool| && pool[i].description == pool[sel[k]].description ::
            scores[sel[k]] >= scores[i])
      && (forall i, k | 0 <= i < |pool| && 0 <= k < |sel| && pool[i].description !in DescsOf(Descriptions(pool), sel) ::
            scores[i] <= scores[sel[k]])
  {
    var pool := Pool(cfg, s);
    var descs := Descriptions(pool);
    var scores := PoolScores(cfg, o, now, pool, context);
    var cap := RelevantCap(cfg.mode);
    SelectRelevantKeepsBest(descs, scores, cap);
    SelectRelevantIsTop(descs, scores, cap);
  }

  /** The order `b.createdAt.CompareTo(a.createdAt)` sorts by: newest first. */
  function NewerOrSame(): (SimDateTime, SimDateTime) -> bool {
    (a: SimDateTime, b: SimDateTime) => CompareTo(a, b) >= 0
  }

  /** Creation times under that order form a total preorder. */
  lemma NewerOrSameIsTotalPreorder(keys: seq<SimDateTime>)
    ensures TotalPreorderOn(keys, NewerOrSame())
  {
    var ge := NewerOrSame();
    forall i, j | 0 <= i < |keys| && 0 <= j < |keys| ensures ge(keys[i], keys[j]) || ge(keys[j], keys[i]) {
      CompareToAntisymmetric(keys[i], keys[j]);
    }
    forall i, j, k | 0 <= i < |keys| && 0 <= j < |keys| && 0 <= k < |keys| && ge(keys[i], keys[j]) && ge(keys[j], keys[k])
      ensures ge(keys[i], keys[k])
    {
      CompareToAntisymmetric(keys[i], keys[j]);
      CompareToAntisymmetric(keys[j], keys[k]);
      CompareToAntisymmetric(keys[i], keys[k]);
      CompareToTransitive(keys[k], keys[j], keys[i]);
    }
  }

  function CreationTimes(ms: seq<Memory>): (ts: seq<SimDateTime>)
    ensures |ts| == |ms| && forall i | 0 <= i < |ms| :: ts[i] == ms[i].createdAt
  {
    seq(|ms|, i requires 0 <= i < |ms| => ms[i].createdAt)
  }

  /** The long-term positions recent retrieval returns: the first `n` of the list sorted newest
      first. */
  function RecentPositions(ms: seq<Memory>, n: nat): (pos: seq<nat>)
    ensures |pos| == if n < |ms| then n else |ms|
    ensures Bounded(pos, |ms|) && Distinct(pos)
    ensures forall i, j | 0 <= i < j < |pos| :: NotAfter(ms[pos[j]].createdAt, ms[pos[i]].createdAt)
    ensures forall i, k | 0 <= i < |ms| && 0 <= k < |pos| && i !in pos ::
      NotAfter(ms[i].createdAt, ms[pos[k]].createdAt)
  {
    var keys := CreationTimes(ms);
    NewerOrSameIsTotalPreorder(keys);
    var order := SortDesc(keys, NewerOrSame(), |ms|);
    var pos := Take(order, n);
    RecentPrefixSorted(ms, order, pos);
    RecentPrefixIsNewest(ms, order, pos);
    pos
  }

  /** A prefix of the creation times sorted newest first is sorted newest first. */
  lemma RecentPrefixSorted(ms: seq<Memory>, order: seq<nat>, pos: seq<nat>)
    requires Bounded(order, |ms|) && SortedDesc(CreationTimes(ms), NewerOrSame(), order)
    requires |pos| <= |order| && forall k | 0 <= k < |pos| :: pos[k] == order[k]
    ensures forall i, j | 0 <= i < j < |pos| :: NotAfter(ms[pos[j]].createdAt, ms[pos[i]].createdAt)
  {
    var keys := CreationTimes(ms);
    forall i, j | 0 <= i < j < |pos| ensures NotAfter(ms[pos[j]].createdAt, ms[pos[i]].createdAt) {
      assert NewerOrSame()(keys[order[i]], keys[order[j]]);
      CompareToAntisymmetric(keys[order[i]], keys[order[j]]);
    }
  }

  /** Every memory left out of a prefix of the newest-first order is no newer than any memory
      in it. */
  lemma RecentPrefixIsNewest(ms: seq<Memory>, order: seq<nat>, pos: seq<nat>)
    requires IsPermutationOf(order, |ms|) && SortedDesc(CreationTimes(ms), NewerOrSame(), order)
    requires |pos| <= |order| && forall k | 0 <= k < |pos| :: pos[k] == order[k]
    ensures forall i, k | 0 <= i < |ms| && 0 <= k < |pos| && i !in pos ::
      NotAfter(ms[i].createdAt, ms[pos[k]].createdAt)
  {
    var keys := CreationTimes(ms);
    forall i, k | 0 <= i < |ms| && 0 <= k < |pos| && i !in pos
      ensures NotAfter(ms[i].createdAt, ms[pos[k]].createdAt)
    {
      PermutationCovers(order, |ms|, i);
      var j :| 0 <= j < |order| && order[j] == i;
      assert NewerOrSame()(keys[order[k]], keys[order[j]]);
      CompareToAntisymmetric(keys[order[k]], keys[order[j]]);
    }
  }

  /** `RetrieveRecentMemories(n)`: nothing outside long-term mode; otherwise the `n` newest
      long-term memories (all of them when there are fewer), newest first. The list itself is
      not reordered. */
  function RetrieveRecent(cfg: Config, s: Store, n: nat): (r: seq<Memory>)
    ensures cfg.mode != LongTerm ==> r == []
    ensures cfg.mode == LongTerm ==> |r| == if n < |s.longTerm| then n else |s.longTerm|
    ensures forall i | 0 <= i < |r| :: r[i] in s.longTerm
    ensures forall i, j | 0 <= i < j < |r| :: NotAfter(r[j].createdAt, r[i].createdAt)
    ensures cfg.mode == LongTerm ==> exists pos: seq<nat> ::
      && Bounded(pos, |s.longTerm|) && Distinct(pos) && |pos| == |r|
      && (forall k | 0 <= k < |r| :: r[k] == s.longTerm[pos[k]])
      && (forall i, k | 0 <= i < |s.longTerm| && 0 <= k < |pos| && i !in pos ::
            NotAfter(s.longTerm[i].createdAt, s.longTerm[pos[k]].createdAt))
  {
    if cfg.mode != LongTerm then []
    else
      var pos := RecentPositions(s.longTerm, n);
      seq(|pos|, k requires 0 <= k < |pos| => s.longTerm[pos[k]])
  }
}

=== FILE: retrieval.dfy ===
/** Ranking a pool of memories for relevant-memory retrieval: min-max normalisation of three
    raw scores, their weighted sum, a stable descending order, and the walk that keeps one
    memory per description up to a cap. Positions into the pool stand for the memories, since
    the pool never holds the same memory object twice. */
module Retrieval {
  import opened Sorting

  /** The three weights of the combined score, each in [0, 1] in the inspector. */
  datatype Weights = Weights(recency: real, relevance: real, importance: real)

  predicate ValidWeights(w: Weights) {
    0.0 <= w.recency <= 1.0 && 0.0 <= w.relevance <= 1.0 && 0.0 <= w.importance <= 1.0
  }

  function MinOf(xs: seq<real>): (m: real)
    requires |xs| > 0
    ensures m in xs
    ensures forall i | 0 <= i < |xs| :: m <= xs[i]
  {
    if |xs| == 1 then xs[0]
    else
      var rest := MinOf(xs[1..]);
      assert forall i | 1 <= i < |xs| :: xs[i] == xs[1..][i - 1];
      if xs[0] <= rest then xs[0] else rest
  }

  function MaxOf(xs: seq<real>): (m: real)
    requires |xs| > 0
    ensures m in xs
    ensures forall i | 0 <= i < |xs| :: xs[i] <= m
  {
    if |xs| == 1 then xs[0]
    else
      var rest := MaxOf(xs[1..]);
      assert forall i | 1 <= i < |xs| :: xs[i] == xs[1..][i - 1];
      if xs[0] >= rest then xs[0] else rest
  }

  /** One normalised component: its place between the smallest and the largest raw score,
      or 0.5 when all raw scores are equal. */
  function Normalize(x: real, lo: real, hi: real): (r: real)
    requires lo <= x <= hi
    ensures 0.0 <= r <= 1.0
    ensures hi <= lo ==> r == 0.5
    ensures hi > lo && x == lo ==> r == 0.0
    ensures hi > lo && x == hi ==> r == 1.0
  {
    if hi > lo then Fraction(x - lo, hi - lo) else 0.5
  }

  /** A part of a positive whole, as a fraction between 0 and 1. */
  function Fraction(part: real, whole: real): (f: real)
    requires 0.0 <= part <= whole && whole > 0.0
    ensures 0.0 <= f <= 1.0
    ensures part == 0.0 ==> f == 0.0
    ensures part == whole ==> f == 1.0
  {
    var f := part / whole;
    assert f * whole == part;
    f
  }

  /** Normalising keeps the order of the raw scores. */
  lemma NormalizeMonotone(x: real, y: real, lo: real, hi: real)
    requires lo <= x <= y <= hi
    ensures Normalize(x, lo, hi) <= Normalize(y, lo, hi)
  {
    if hi > lo {
      DivMonotone(x - lo, y - lo, hi - lo);
      assert Normalize(x, lo, hi) == (x - lo) / (hi - lo);
      assert Normalize(y, lo, hi) == (y - lo) / (hi - lo);
    }
  }

  lemma DivMonotone(a: real, b: real, d: real)
    requires a <= b && d > 0.0
    ensures a / d <= b / d
  {
    var fa := a / d;
    var fb := b / d;
    assert fa * d == a;
    assert fb * d == b;
  }

  /** All raw scores of one dimension, normalised against their own minimum and maximum. */
  function NormalizeAll(xs: seq<real>): (ns: seq<real>)
    ensures |ns| == |xs|
    ensures forall i | 0 <= i < |xs| :: 0.0 <= ns[i] <= 1.0
    ensures |xs| > 0 && MaxOf(xs) <= MinOf(xs) ==> forall i | 0 <= i < |xs| :: ns[i] == 0.5
    ensures forall i, j | 0 <= i < |xs| && 0 <= j < |xs| && xs[i] <= xs[j] :: ns[i] <= ns[j]
  {
    if |xs| == 0 then []
    else
      var lo := MinOf(xs);
      var hi := MaxOf(xs);
      var ns := seq(|xs|, i requires 0 <= i < |xs| => Normalize(xs[i], lo, hi));
      assert forall i, j | 0 <= i < |xs| && 0 <= j < |xs| && xs[i] <= xs[j] :: ns[i] <= ns[j] by {
        forall i, j | 0 <= i < |xs| && 0 <= j < |xs| && xs[i] <= xs[j]
          ensures ns[i] <= ns[j]
        {
          NormalizeMonotone(xs[i], xs[j], lo, hi);
        }
      }
      ns
  }

  /** A non-negative weight applied to a normalised score: between 0 and the weight. */
  function Weighted(w: real, n: real): (r: real)
    requires 0.0 <= w && 0.0 <= n <= 1.0
    ensures 0.0 <= r <= w
  {
    assert w * n <= w * 1.0;
    w * n
  }

  /** The combined score of one pool member: the weighted sum of its normalised scores. */
  function Combine(w: Weights, nrec: real, nrel: real, nimp: real): (c: real)
    requires ValidWeights(w)
    requires 0.0 <= nrec <= 1.0 && 0.0 <= nrel <= 1.0 && 0.0 <= nimp <= 1.0
    ensures 0.0 <= c <= w.recency + w.relevance + w.importance
  {
    Weighted(w.recency, nrec) + Weighted(w.relevance, nrel) + Weighted(w.importance, nimp)
  }

  /** The combined score of each pool member. It lies between 0 and the sum of the weights. */
  function CombinedScores(w: Weights, recency: seq<real>, relevance: seq<real>, importance: seq<real>): (scores: seq<real>)
    requires ValidWeights(w)
    requires |recency| == |relevance| == |importance|
    ensures |scores| == |recency|
    ensures forall i | 0 <= i < |scores| ::
      0.0 <= scores[i] <= w.recency + w.relevance + w.importance
  {
    var nrec := NormalizeAll(recency);
    var nrel := NormalizeAll(relevance);
    var nimp := NormalizeAll(importance);
    seq(|recency|, i requires 0 <= i < |recency| => Combine(w, nrec[i], nrel[i], nimp[i]))
  }

  /** The descriptions of the pool members at the given positions, in order. */
  function DescsOf(descs: seq<string>, xs: seq<nat>): (ds: seq<string>)
    requires Bounded(xs, |descs|)
    ensures |ds| == |xs|
    ensures forall i | 0 <= i < |xs| :: ds[i] == descs[xs[i]]
  {
    seq(|xs|, i requires 0 <= i < |xs| => descs[xs[i]])
  }

  /** No two of the given positions share a description. */
  predicate DistinctDescs(descs: seq<string>, xs: seq<nat>)
    requires Bounded(xs, |descs|)
  {
    forall i, j | 0 <= i < j < |xs| :: descs[xs[i]] != descs[xs[j]]
  }

  /** The slot of the retrieved set holding description `d`, or -1. */
  function SlotOf(descs: seq<string>, acc: seq<nat>, d: string): (k: int)
    requires Bounded(acc, |descs|)
    ensures -1 <= k < |acc|
    ensures k >= 0 ==> descs[acc[k]] == d
    ensures k < 0 ==> forall i | 0 <= i < |acc| :: descs[acc[i]] != d
  {
    if |acc| == 0 then -1
    else if descs[acc[0]] == d then 0
    else
      var k := SlotOf(descs, acc[1..], d);
      if k < 0 then -1 else k + 1
  }

  /** One step of the walk: a new description takes a new slot at the end; a known one has
      its slot's memory replaced only by a strictly higher score. */
  function Put(descs: seq<string>, scores: seq<real>, acc: seq<nat>, x: nat): (r: seq<nat>)
    requires |descs| == |scores| && x < |descs| && Bounded(acc, |descs|)
    requires DistinctDescs(descs, acc)
    ensures Bounded(r, |descs|) && DistinctDescs(descs, r)
    ensures descs[x] !in DescsOf(descs, acc) ==> r == acc + [x]
    ensures descs[x] in DescsOf(descs, acc) ==> |r| == |acc| && DescsOf(descs, r) == DescsOf(descs, acc)
    ensures forall i | 0 <= i < |r| :: r[i] == x || r[i] == acc[i]
    ensures forall a | 0 <= a < |acc| :: descs[r[a]] == descs[acc[a]]
    ensures descs[x] in DescsOf(descs, r)
  {
    var k := SlotOf(descs, acc, descs[x]);
    if k < 0 then
      assert DescsOf(descs, acc + [x])[|acc|] == descs[x];
      acc + [x]
    else if scores[x] > scores[acc[k]] then acc[k := x]
    else acc
  }

  /** The walk over the pool in descending score order, as written: after each step it stops
      once the number of distinct descriptions reaches the cap. */
  function Walk(descs: seq<string>, scores: seq<real>, order: seq<nat>, acc: seq<nat>, cap: nat): (r: seq<nat>)
    requires |descs| == |scores| && Bounded(order, |descs|) && Bounded(acc, |descs|)
    requires DistinctDescs(descs, acc) && |acc| < cap
    ensures Bounded(r, |descs|) && DistinctDescs(descs, r)
    ensures |acc| <= |r| <= cap
    ensures forall a | 0 <= a < |acc| :: descs[r[a]] == descs[acc[a]]
    decreases |order|
  {
    if order == [] then acc
    else
      var acc1 := Put(descs, scores, acc, order[0]);
      if |acc1| >= cap then acc1
      else Walk(descs, scores, order[1..], acc1, cap)
  }

  /** When the walk ends below the cap it has met every description of the order. */
  lemma {:induction false} WalkCovers(descs: seq<string>, scores: seq<real>, order: seq<nat>, acc: seq<nat>, cap: nat)
    requires |descs| == |scores| && Bounded(order, |descs|) && Bounded(acc, |descs|)
    requires DistinctDescs(descs, acc) && |acc| < cap
    ensures var r := Walk(descs, scores, order, acc, cap);
      |r| < cap ==> forall j | 0 <= j < |order| :: descs[order[j]] in DescsOf(descs, r)
    decreases |order|
  {
    if order != [] {
      var acc1 := Put(descs, scores, acc, order[0]);
      if |acc1| < cap {
        var r := Walk(descs, scores, order[1..], acc1, cap);
        WalkCovers(descs, scores, order[1..], acc1, cap);
        var a :| 0 <= a < |acc1| && descs[acc1[a]] == descs[order[0]];
        assert descs[r[a]] == descs[order[0]];
        assert forall j | 1 <= j < |order| :: order[j] == order[1..][j - 1];
      }
    }
  }

  /** The reference selection: the positions of `order` whose description is not in `seen`
      and has not occurred earlier in `order`, in order. */
  function FirstOccurrences(descs: seq<string>, order: seq<nat>, seen: seq<string>): (fo: seq<nat>)
    requires Bounded(order, |descs|)
    ensures Bounded(fo, |descs|) && DistinctDescs(descs, fo)
    ensures forall k | 0 <= k < |fo| :: fo[k] in order && descs[fo[k]] !in seen
  {
    if order == [] then []
    else
      var rest := order[1..];
      assert forall y | y in rest :: y in order;
      if descs[order[0]] in seen then FirstOccurrences(descs, rest, seen)
      else
        var tail := FirstOccurrences(descs, rest, seen + [descs[order[0]]]);
        var fo := [order[0]] + tail;
        assert forall k | 1 <= k < |fo| :: fo[k] == tail[k - 1];
        fo
  }

  /** The first `k` elements, or all of them when there are fewer. */
  function Take<T>(xs: seq<T>, k: nat): (r: seq<T>)
    ensures |r| <= k && |r| <= |xs|
    ensures forall i | 0 <= i < |r| :: r[i] == xs[i]
    ensures |xs| <= k ==> r == xs
    ensures |xs| >= k ==> |r| == k
  {
    if |xs| <= k then xs else xs[..k]
  }

  lemma TakeCons<T>(x: T, xs: seq<T>, k: nat)
    ensures Take([x] + xs, k + 1) == [x] + Take(xs, k)
  {
  }

  /** Scores never increase along `order`. */
  predicate NonIncreasing(scores: seq<real>, order: seq<nat>)
    requires Bounded(order, |scores|)
  {
    forall i, j | 0 <= i < j < |order| :: scores[order[i]] >= scores[order[j]]
  }

  /** The rest of a descending order is descending. */
  lemma NonIncreasingTail(scores: seq<real>, order: seq<nat>)
    requires order != [] && Bounded(order, |scores|) && NonIncreasing(scores, order)
    ensures Bounded(order[1..], |scores|) && NonIncreasing(scores, order[1..])
  {
    var rest := order[1..];
    assert forall j | 0 <= j < |rest| :: rest[j] == order[j + 1];
  }

  /** Every position already selected scores at least as high as every position still to walk. */
  predicate Dominates(scores: seq<real>, acc: seq<nat>, order: seq<nat>)
    requires Bounded(acc, |scores|) && Bounded(order, |scores|)
  {
    forall a, j | 0 <= a < |acc| && 0 <= j < |order| :: scores[acc[a]] >= scores[order[j]]
  }

  /** On a descending order the replace branch never fires, so the walk keeps the first
      memory of each description and stops after `cap` of them: it is the reference selection
      cut at the cap. */
  lemma {:induction false} WalkIsFirstOccurrences(descs: seq<string>, scores: seq<real>, order: seq<nat>, acc: seq<nat>, cap: nat)
    requires |descs| == |scores| && Bounded(order, |descs|) && Bounded(acc, |descs|)
    requires DistinctDescs(descs, acc) && |acc| < cap
    requires NonIncreasing(scores, order) && Dominates(scores, acc, order)
    ensures Walk(descs, scores, order, acc, cap)
      == acc + Take(FirstOccurrences(descs, order, DescsOf(descs, acc)), cap - |acc|)
    decreases |order|, 2
  {
    if order == [] {
      assert FirstOccurrences(descs, order, DescsOf(descs, acc)) == [];
    } else {
      var x := order[0];
      var rest := order[1..];
      var seen := DescsOf(descs, acc);
      assert NonIncreasing(scores, rest) && Dominates(scores, acc, rest) by {
        assert forall j | 0 <= j < |rest| :: rest[j] == order[j + 1];
      }
      if descs[x] in seen {
        StepKeeps(descs, scores, order, acc);
        assert Walk(descs, scores, order, acc, cap) == Walk(descs, scores, rest, acc, cap);
        assert FirstOccurrences(descs, order, seen) == FirstOccurrences(descs, rest, seen);
        WalkIsFirstOccurrences(descs, scores, rest, acc, cap);
      } else {
        StepAppends(descs, scores, order, acc);
        WalkAppendCase(descs, scores, order, acc, cap);
      }
    }
  }

  /** The case of `WalkIsFirstOccurrences` where the first description of the order is new. */
  lemma {:induction false} WalkAppendCase(descs: seq<string>, scores: seq<real>, order: seq<nat>, acc: seq<nat>, cap: nat)
    requires |descs| == |scores| && Bounded(order, |descs|) && Bounded(acc, |descs|)
    requires DistinctDescs(descs, acc) && |acc| < cap && order != []
    requires NonIncreasing(scores, order[1..]) && Dominates(scores, acc + [order[0]], order[1..])
    requires descs[order[0]] !in DescsOf(descs, acc)
    requires Put(descs, scores, acc, order[0]) == acc + [order[0]]
    requires DescsOf(descs, acc + [order[0]]) == DescsOf(descs, acc) + [descs[order[0]]]
    ensures Walk(descs, scores, order, acc, cap)
      == acc + Take(FirstOccurrences(descs, order, DescsOf(descs, acc)), cap - |acc|)
    decreases |order|, 1
  {
    var x := order[0];
    var seen := DescsOf(descs, acc);
    var fo := FirstOccurrences(descs, order[1..], seen + [descs[x]]);
    assert FirstOccurrences(descs, order, seen) == [x] + fo;
    if |acc| + 1 < cap {
      WalkAppendContinues(descs, scores, order, acc, cap, fo);
    } else {
      assert Walk(descs, scores, order, acc, cap) == acc + [x];
      TakeCons(x, fo, 0);
      assert Take(fo, 0) == [];
    }
  }

  /** The walk continues after appending a new description. */
  lemma {:induction false} WalkAppendContinues(descs: seq<string>, scores: seq<real>, order: seq<nat>, acc: seq<nat>, cap: nat, fo: seq<nat>)
    requires |descs| == |scores| && Bounded(order, |descs|) && Bounded(acc, |descs|)
    requires DistinctDescs(descs, acc) && |acc| + 1 < cap && order != []
    requires NonIncreasing(scores, order[1..]) && Dominates(scores, acc + [order[0]], order[1..])
    requires Put(descs, scores, acc, order[0]) == acc + [order[0]]
    requires DescsOf(descs, acc + [order[0]]) == DescsOf(descs, acc) + [descs[order[0]]]
    requires fo == FirstOccurrences(descs, order[1..], DescsOf(descs, acc) + [descs[order[0]]])
    ensures Walk(descs, scores, order, acc, cap) == acc + Take([order[0]] + fo, cap - |acc|)
    decreases |order|, 0
  {
    var x := order[0];
    var acc1 := acc + [x];
    var t := Take(fo, cap - |acc1|);
    WalkAfterAppend(descs, scores, order, acc, cap);
    calc {
      Walk(descs, scores, order, acc, cap);
      Walk(descs, scores, order[1..], acc1, cap);
      { WalkIsFirstOccurrences(descs, scores, order[1..], acc1, cap); }
      acc1 + Take(FirstOccurrences(descs, order[1..], DescsOf(descs, acc1)), cap - |acc1|);
      acc1 + t;
      { ConcatAssoc(acc, [x], t); }
      acc + ([x] + t);
      { TakeCons(x, fo, cap - |acc1|); }
      acc + Take([x] + fo, cap - |acc|);
    }
  }

  /** After appending a new description below the cap the walk goes on with the rest. */
  lemma WalkAfterAppend(descs: seq<string>, scores: seq<real>, order: seq<nat>, acc: seq<nat>, cap: nat)
    requires |descs| == |scores| && Bounded(order, |descs|) && Bounded(acc, |descs|)
    requires DistinctDescs(descs, acc) && |acc| + 1 < cap && order != []
    requires Put(descs, scores, acc, order[0]) == acc + [order[0]]
    ensures Bounded(acc + [order[0]], |descs|) && DistinctDescs(descs, acc + [order[0]])
    ensures Walk(descs, scores, order, acc, cap) == Walk(descs, scores, order[1..], acc + [order[0]], cap)
  {
  }

  /** A walk step on a description already selected changes nothing when the selection
      dominates the order. */
  lemma StepKeeps(descs: seq<string>, scores: seq<real>, order: seq<nat>, acc: seq<nat>)
    requires |descs| == |scores| && Bounded(order, |descs|) && Bounded(acc, |descs|)
    requires DistinctDescs(descs, acc) && order != [] && Dominates(scores, acc, order)
    requires descs[order[0]] in DescsOf(descs, acc)
    ensures Put(descs, scores, acc, order[0]) == acc
  {
    var k := SlotOf(descs, acc, descs[order[0]]);
    assert scores[acc[k]] >= scores[order[0]];
  }

  /** A walk step on a new description appends it, and the selection with it still dominates
      the rest of a descending order. */
  lemma StepAppends(descs: seq<string>, scores: seq<real>, order: seq<nat>, acc: seq<nat>)
    requires |descs| == |scores| && Bounded(order, |descs|) && Bounded(acc, |descs|)
    requires DistinctDescs(descs, acc) && order != []
    requires NonIncreasing(scores, order) && Dominates(scores, acc, order)
    requires descs[order[0]] !in DescsOf(descs, acc)
    ensures Put(descs, scores, acc, order[0]) == acc + [order[0]]
    ensures DescsOf(descs, acc + [order[0]]) == DescsOf(descs, acc) + [descs[order[0]]]
    ensures Dominates(scores, acc + [order[0]], order[1..])
  {
    var acc1 := acc + [order[0]];
    assert forall j | 1 <= j < |order| :: order[j] == order[1..][j - 1];
    assert forall a | 0 <= a < |acc1| :: acc1[a] == order[0] || acc1[a] == acc[a];
  }

  /** Every position of `sel` scores at least as high as every position of `order` with the
      same description. */
  predicate KeepsBest(descs: seq<string>, scores: seq<real>, sel: seq<nat>, order: seq<nat>)
    requires |descs| == |scores| && Bounded(sel, |descs|) && Bounded(order, |descs|)
  {
    forall k, j | 0 <= k < |sel| && 0 <= j < |order| && descs[order[j]] == descs[sel[k]] ::
      scores[sel[k]] >= scores[order[j]]
  }

  /** Every position of `order` whose description is neither in `seen` nor selected scores no
      higher than any position of `sel`. */
  predicate IsTop(descs: seq<string>, scores: seq<real>, sel: seq<nat>, order: seq<nat>, seen: seq<string>)
    requires |descs| == |scores| && Bounded(sel, |descs|) && Bounded(order, |descs|)
  {
    forall j, k | 0 <= j < |order| && 0 <= k < |sel| && descs[order[j]] !in seen
      && descs[order[j]] !in DescsOf(descs, sel) :: scores[order[j]] <= scores[sel[k]]
  }

  /** On a descending order every position of the reference selection scores at least as
      high as every position of the order with the same description. */
  lemma {:induction false} FirstOccurrencesKeepBest(descs: seq<string>, scores: seq<real>, order: seq<nat>, seen: seq<string>)
    requires |descs| == |scores| && Bounded(order, |descs|)
    requires NonIncreasing(scores, order)
    ensures KeepsBest(descs, scores, FirstOccurrences(descs, order, seen), order)
    decreases |order|
  {
    if order != [] {
      var d := descs[order[0]];
      var rest := order[1..];
      var fo := FirstOccurrences(descs, order, seen);
      NonIncreasingTail(scores, order);
      if d in seen {
        FirstOccurrencesKeepBest(descs, scores, rest, seen);
        assert fo == FirstOccurrences(descs, rest, seen);
        forall k, j | 0 <= k < |fo| && 0 <= j < |order| && descs[order[j]] == descs[fo[k]]
          ensures scores[fo[k]] >= scores[order[j]]
        {
          assert j != 0;
          assert order[j] == rest[j - 1];
          assert descs[rest[j - 1]] == descs[fo[k]];
        }
      } else {
        var seen1 := seen + [d];
        var tail := FirstOccurrences(descs, rest, seen1);
        FirstOccurrencesKeepBest(descs, scores, rest, seen1);
        assert fo == [order[0]] + tail;
        forall k, j | 0 <= k < |fo| && 0 <= j < |order| && descs[order[j]] == descs[fo[k]]
          ensures scores[fo[k]] >= scores[order[j]]
        {
          if k == 0 {
            assert fo[0] == order[0];
          } else {
            assert fo[k] == tail[k - 1];
            assert descs[tail[k - 1]] !in seen1;
            assert seen1[|seen|] == d;
            assert j != 0;
            assert order[j] == rest[j - 1];
            assert descs[rest[j - 1]] == descs[tail[k - 1]];
          }
        }
      }
    }
  }

  /** On a descending order a position whose description the cut reference selection lacks,
      and which is not in `seen`, scores no higher than any selected position. */
  lemma {:induction false} FirstOccurrencesAreTop(descs: seq<string>, scores: seq<real>, order: seq<nat>, seen: seq<string>, c: nat)
    requires |descs| == |scores| && Bounded(order, |descs|)
    requires NonIncreasing(scores, order)
    ensures IsTop(descs, scores, Take(FirstOccurrences(descs, order, seen), c), order, seen)
    decreases |order|, 2
  {
    if order != [] && c > 0 {
      if descs[order[0]] in seen {
        AreTopSeenCase(descs, scores, order, seen, c);
      } else {
        AreTopNewCase(descs, scores, order, seen, c);
      }
    }
  }

  /** `FirstOccurrencesAreTop` when the first description of the order was seen. */
  lemma {:induction false} AreTopSeenCase(descs: seq<string>, scores: seq<real>, order: seq<nat>, seen: seq<string>, c: nat)
    requires |descs| == |scores| && Bounded(order, |descs|) && order != [] && descs[order[0]] in seen
    requires NonIncreasing(scores, order)
    ensures IsTop(descs, scores, Take(FirstOccurrences(descs, order, seen), c), order, seen)
    decreases |order|, 0
  {
    var t := Take(FirstOccurrences(descs, order, seen), c);
    NonIncreasingTail(scores, order);
    TakeSkip(descs, order, seen, c);
    FirstOccurrencesAreTop(descs, scores, order[1..], seen, c);
    AreTopSkip(descs, scores, order, seen, t);
  }

  /** `FirstOccurrencesAreTop` when the first description of the order is new. */
  lemma {:induction false} AreTopNewCase(descs: seq<string>, scores: seq<real>, order: seq<nat>, seen: seq<string>, c: nat)
    requires |descs| == |scores| && Bounded(order, |descs|) && order != [] && descs[order[0]] !in seen && c > 0
    requires NonIncreasing(scores, order)
    ensures IsTop(descs, scores, Take(FirstOccurrences(descs, order, seen), c), order, seen)
    decreases |order|, 1
  {
    var seen1 := seen + [descs[order[0]]];
    TailIsTop(descs, scores, order, seen1, c - 1);
    TakeSelect(descs, order, seen, c);
    var t := Take(FirstOccurrences(descs, order, seen), c);
    var t1 := Take(FirstOccurrences(descs, order[1..], seen1), c - 1);
    AreTopStep(descs, scores, order, seen, t, t1);
  }

  /** `FirstOccurrencesAreTop` for the rest of the order, with its cut bounded. */
  lemma {:induction false} TailIsTop(descs: seq<string>, scores: seq<real>, order: seq<nat>, seen: seq<string>, c: nat)
    requires |descs| == |scores| && Bounded(order, |descs|) && order != []
    requires NonIncreasing(scores, order)
    ensures Bounded(order[1..], |descs|)
    ensures Bounded(Take(FirstOccurrences(descs, order[1..], seen), c), |descs|)
    ensures IsTop(descs, scores, Take(FirstOccurrences(descs, order[1..], seen), c), order[1..], seen)
    decreases |order|, 0
  {
    NonIncreasingTail(scores, order);
    TakeBounded(FirstOccurrences(descs, order[1..], seen), c, |descs|);
    FirstOccurrencesAreTop(descs, scores, order[1..], seen, c);
  }

  lemma TakeBounded(xs: seq<nat>, k: nat, n: nat)
    requires Bounded(xs, n)
    ensures Bounded(Take(xs, k), n)
  {
  }

  /** A first position whose description was seen is not selected. */
  lemma TakeSkip(descs: seq<string>, order: seq<nat>, seen: seq<string>, c: nat)
    requires Bounded(order, |descs|) && order != [] && descs[order[0]] in seen
    ensures Bounded(order[1..], |descs|)
    ensures Take(FirstOccurrences(descs, order, seen), c) == Take(FirstOccurrences(descs, order[1..], seen), c)
  {
    assert FirstOccurrences(descs, order, seen) == FirstOccurrences(descs, order[1..], seen);
  }

  /** A first position with a new description is selected first. */
  lemma TakeSelect(descs: seq<string>, order: seq<nat>, seen: seq<string>, c: nat)
    requires Bounded(order, |descs|) && order != [] && descs[order[0]] !in seen && c > 0
    ensures Bounded(order[1..], |descs|)
    ensures Take(FirstOccurrences(descs, order, seen), c)
      == [order[0]] + Take(FirstOccurrences(descs, order[1..], seen + [descs[order[0]]]), c - 1)
  {
    var tail := FirstOccurrences(descs, order[1..], seen + [descs[order[0]]]);
    assert FirstOccurrences(descs, order, seen) == [order[0]] + tail;
    TakeCons(order[0], tail, c - 1);
  }

  /** The step of `FirstOccurrencesAreTop` where the first position of the order is skipped. */
  lemma AreTopSkip(descs: seq<string>, scores: seq<real>, order: seq<nat>, seen: seq<string>, t: seq<nat>)
    requires |descs| == |scores| && Bounded(order, |descs|) && order != []
    requires Bounded(t, |descs|) && descs[order[0]] in seen
    requires IsTop(descs, scores, t, order[1..], seen)
    ensures IsTop(descs, scores, t, order, seen)
  {
    var rest := order[1..];
    forall j, k | 0 <= j < |order| && 0 <= k < |t| && descs[order[j]] !in seen
      && descs[order[j]] !in DescsOf(descs, t)
      ensures scores[order[j]] <= scores[t[k]]
    {
      assert order[j] == rest[j - 1];
    }
  }

  /** The step of `FirstOccurrencesAreTop` where the first position of the order is selected. */
  lemma AreTopStep(descs: seq<string>, scores: seq<real>, order: seq<nat>, seen: seq<string>, t: seq<nat>, t1: seq<nat>)
    requires |descs| == |scores| && Bounded(order, |descs|) && order != []
    requires NonIncreasing(scores, order)
    requires Bounded(t1, |descs|) && t == [order[0]] + t1
    requires IsTop(descs, scores, t1, order[1..], seen + [descs[order[0]]])
    ensures IsTop(descs, scores, t, order, seen)
  {
    var d := descs[order[0]];
    var rest := order[1..];
    var seen1 := seen + [d];
    assert DescsOf(descs, t) == [d] + DescsOf(descs, t1);
    forall j, k | 0 <= j < |order| && 0 <= k < |t| && descs[order[j]] !in seen
      && descs[order[j]] !in DescsOf(descs, t)
      ensures scores[order[j]] <= scores[t[k]]
    {
      assert j != 0;
      assert order[j] == rest[j - 1];
      if k > 0 {
        assert t[k] == t1[k - 1];
        assert descs[rest[j - 1]] !in seen1;
        assert descs[rest[j - 1]] !in DescsOf(descs, t1);
      }
    }
  }

  /** The positions chosen for a pool with the given descriptions and combined scores: the pool
      in stable descending score order, walked up to `cap` distinct descriptions. */
  function SelectRelevant(descs: seq<string>, scores: seq<real>, cap: nat): (r: seq<nat>)
    requires |descs| == |scores| && cap >= 1
    ensures Bounded(r, |descs|) && DistinctDescs(descs, r)
    ensures |r| <= cap
    ensures |r| < cap ==> forall i | 0 <= i < |descs| :: descs[i] in DescsOf(descs, r)
  {
    var order := Rank(scores);
    var r := Walk(descs, scores, order, [], cap);
    WalkCovers(descs, scores, order, [], cap);
    assert |r| < cap ==> forall i | 0 <= i < |descs| :: descs[i] in DescsOf(descs, r) by {
      if |r| < cap {
        forall i | 0 <= i < |descs| ensures descs[i] in DescsOf(descs, r) {
          RankCovers(scores, i);
          var j :| 0 <= j < |order| && order[j] == i;
        }
      }
    }
    r
  }

  /** The pool positions in stable descending order of score. */
  function Rank(scores: seq<real>): (order: seq<nat>)
    ensures IsPermutationOf(order, |scores|)
    ensures NonIncreasing(scores, order)
    ensures SortedDesc(scores, (a: real, b: real) => a >= b, order)
  {
    SortDesc(scores, (a: real, b: real) => a >= b, |scores|)
  }

  /** Every pool position occurs in the ranking. */
  lemma RankCovers(scores: seq<real>, i: nat)
    requires i < |scores|
    ensures i in Rank(scores)
  {
    PermutationCovers(Rank(scores), |scores|, i);
  }

  /** On any pool, the chosen positions are the first occurrence of each description in stable
      descending score order, cut at the cap. */
  lemma SelectRelevantIsFirstOccurrences(descs: seq<string>, scores: seq<real>, cap: nat)
    requires |descs| == |scores| && cap >= 1
    ensures SelectRelevant(descs, scores, cap) == Take(FirstOccurrences(descs, Rank(scores), []), cap)
  {
    SelectRelevantIsWalk(descs, scores, cap);
    WalkFromNone(descs, scores, Rank(scores), cap);
  }

  lemma SelectRelevantIsWalk(descs: seq<string>, scores: seq<real>, cap: nat)
    requires |descs| == |scores| && cap >= 1
    ensures Bounded(Rank(scores), |descs|)
    ensures SelectRelevant(descs, scores, cap) == Walk(descs, scores, Rank(scores), [], cap)
  {
  }

  /** The walk from an empty selection is the reference selection cut at the cap. */
  lemma WalkFromNone(descs: seq<string>, scores: seq<real>, order: seq<nat>, cap: nat)
    requires |descs| == |scores| && Bounded(order, |descs|) && cap >= 1
    requires NonIncreasing(scores, order)
    ensures Walk(descs, scores, order, [], cap) == Take(FirstOccurrences(descs, order, []), cap)
  {
    var none: seq<nat> := [];
    var t := Take(FirstOccurrences(descs, order, []), cap);
    calc {
      Walk(descs, scores, order, none, cap);
      { assert DescsOf(descs, none) == [];
        assert Dominates(scores, none, order);
        WalkIsFirstOccurrences(descs, scores, order, none, cap); }
      none + t;
      t;
    }
  }

  /** Each chosen memory has the best combined score among the pool members sharing its
      description. */
  lemma SelectRelevantKeepsBest(descs: seq<string>, scores: seq<real>, cap: nat)
    requires |descs| == |scores| && cap >= 1
    ensures var r := SelectRelevant(descs, scores, cap);
      forall k, i | 0 <= k < |r| && 0 <= i < |descs| && descs[i] == descs[r[k]] :: scores[r[k]] >= scores[i]
  {
    var order := Rank(scores);
    var r := SelectRelevant(descs, scores, cap);
    var fo := FirstOccurrences(descs, order, []);
    SelectRelevantIsFirstOccurrences(descs, scores, cap);
    FirstOccurrencesKeepBest(descs, scores, order, []);
    forall k, i | 0 <= k < |r| && 0 <= i < |descs| && descs[i] == descs[r[k]]
      ensures scores[r[k]] >= scores[i]
    {
      RankCovers(scores, i);
      var j :| 0 <= j < |order| && order[j] == i;
      assert r[k] == fo[k];
    }
  }

  /** No pool member whose description was left out scores higher than a chosen one. */
  lemma SelectRelevantIsTop(descs: seq<string>, scores: seq<real>, cap: nat)
    requires |descs| == |scores| && cap >= 1
    ensures var r := SelectRelevant(descs, scores, cap);
      forall i, k | 0 <= i < |descs| && 0 <= k < |r| && descs[i] !in DescsOf(descs, r) :: scores[i] <= scores[r[k]]
  {
    var order := Rank(scores);
    var r := SelectRelevant(descs, scores, cap);
    SelectRelevantIsFirstOccurrences(descs, scores, cap);
    FirstOccurrencesAreTop(descs, scores, order, [], cap);
    forall i, k | 0 <= i < |descs| && 0 <= k < |r| && descs[i] !in DescsOf(descs, r)
      ensures scores[i] <= scores[r[k]]
    {
      RankCovers(scores, i);
      var j :| 0 <= j < |order| && order[j] == i;
    }
  }
}

=== FILE: sim_date_time.dfy ===
/** The simulation timestamp: day, hours, minutes and seconds, compared lexicographically.
    Seconds are a float in the simulation; here they are whole numbers, which is all the
    one-second clock tick ever produces. */
module SimDateTimes {
  import opened Wrappers
  import opened Text

  /** The struct's constructor stores its four arguments as given, without clamping, so
      every field may hold any integer. */
  datatype SimDateTime = SimDateTime(day: int, hours: int, minutes: int, seconds: int)

  /** A time the running clock can show: day at least 1, every other field below its wrap value. */
  predicate Valid(t: SimDateTime) {
    t.day >= 1 && 0 <= t.hours < 24 && 0 <= t.minutes < 60 && 0 <= t.seconds < 60
  }

  /** Mathf.Clamp on integers. */
  function Clamp(v: int, lo: int, hi: int): (r: int)
    requires lo <= hi
    ensures lo <= r <= hi
    ensures lo <= v <= hi ==> r == v
    ensures v < lo ==> r == lo
    ensures v > hi ==> r == hi
  {
    if v < lo then lo else if v > hi then hi else v
  }

  /** The `Day` setter: never stores less than 1. */
  function SetDay(t: SimDateTime, v: int): (r: SimDateTime)
    ensures r.day >= 1
    ensures v >= 1 ==> r.day == v
    ensures v < 1 ==> r.day == 1
    ensures r.hours == t.hours && r.minutes == t.minutes && r.seconds == t.seconds
  {
    t.(day := if v < 1 then 1 else v)
  }

  /** The `Hours` setter: clamps to [0, 24], 24 included. */
  function SetHours(t: SimDateTime, v: int): (r: SimDateTime)
    ensures 0 <= r.hours <= 24
    ensures 0 <= v <= 24 ==> r.hours == v
    ensures v > 24 ==> r.hours == 24
    ensures v < 0 ==> r.hours == 0
    ensures r.day == t.day && r.minutes == t.minutes && r.seconds == t.seconds
  {
    t.(hours := Clamp(v, 0, 24))
  }

  /** The `Minutes` setter: clamps to [0, 60], 60 included. */
  function SetMinutes(t: SimDateTime, v: int): (r: SimDateTime)
    ensures 0 <= r.minutes <= 60
    ensures 0 <= v <= 60 ==> r.minutes == v
    ensures v > 60 ==> r.minutes == 60
    ensures v < 0 ==> r.minutes == 0
    ensures r.day == t.day && r.hours == t.hours && r.seconds == t.seconds
  {
    t.(minutes := Clamp(v, 0, 60))
  }

  /** The `Seconds` setter: clamps to [0, 60], 60 included. */
  function SetSeconds(t: SimDateTime, v: int): (r: SimDateTime)
    ensures 0 <= r.seconds <= 60
    ensures 0 <= v <= 60 ==> r.seconds == v
    ensures v > 60 ==> r.seconds == 60
    ensures v < 0 ==> r.seconds == 0
    ensures r.day == t.day && r.hours == t.hours && r.minutes == t.minutes
  {
    t.(seconds := Clamp(v, 0, 60))
  }

  /** int.CompareTo (and float.CompareTo on whole numbers): -1, 0 or 1. */
  function CompareInt(a: int, b: int): (c: int)
    ensures c == 0 <==> a == b
    ensures c < 0 <==> a < b
    ensures c == -1 || c == 0 || c == 1
  {
    if a < b then -1 else if a > b then 1 else 0
  }

  /** `CompareTo`: the first field that differs, in the order day, hours, minutes, seconds,
      decides. */
  function CompareTo(a: SimDateTime, b: SimDateTime): (c: int)
    ensures c == -1 || c == 0 || c == 1
    ensures c == 0 <==> a == b
    ensures a.day != b.day ==> (c < 0 <==> a.day < b.day)
    ensures a.day == b.day && a.hours != b.hours ==> (c < 0 <==> a.hours < b.hours)
    ensures a.day == b.day && a.hours == b.hours && a.minutes != b.minutes ==> (c < 0 <==> a.minutes < b.minutes)
    ensures a.day == b.day && a.hours == b.hours && a.minutes == b.minutes ==> (c < 0 <==> a.seconds < b.seconds)
  {
    if a.day != b.day then CompareInt(a.day, b.day)
    else if a.hours != b.hours then CompareInt(a.hours, b.hours)
    else if a.minutes != b.minutes then CompareInt(a.minutes, b.minutes)
    else CompareInt(a.seconds, b.seconds)
  }

  /** `a` is not later than `b`. */
  predicate NotAfter(a: SimDateTime, b: SimDateTime) {
    CompareTo(a, b) <= 0
  }

  /** Swapping the arguments flips the sign. */
  lemma CompareToAntisymmetric(a: SimDateTime, b: SimDateTime)
    ensures CompareTo(a, b) == -CompareTo(b, a)
  {
  }

  /** The order CompareTo induces is transitive, so with the two facts above it is total. */
  lemma CompareToTransitive(a: SimDateTime, b: SimDateTime, c: SimDateTime)
    requires CompareTo(a, b) <= 0 && CompareTo(b, c) <= 0
    ensures CompareTo(a, c) <= 0
    ensures CompareTo(a, b) < 0 || CompareTo(b, c) < 0 ==> CompareTo(a, c) < 0
  {
  }

  /** `ToString`: "Day d - HH:MM:SS", the clock fields zero padded to two digits. */
  function ToString(t: SimDateTime): string {
    "Day " + IntToString(t.day) + " - " + Pad2(t.hours) + ":" + Pad2(t.minutes) + ":" + Pad2(t.seconds)
  }

  /** Reads back the text `ToString` produces for a time with non-negative fields below 100. */
  function Parse(s: string): Option<SimDateTime> {
    if |s| < 4 + 1 + 3 + 8 || s[..4] != "Day " || s[|s| - 11..|s| - 8] != " - " then None
    else
      var d := s[4..|s| - 11];
      var clock := s[|s| - 8..];
      var h := clock[..2];
      var m := clock[3..5];
      var sec := clock[6..];
      if clock[2] != ':' || clock[5] != ':' || |d| == 0
        || !AllDigits(d) || !AllDigits(h) || !AllDigits(m) || !AllDigits(sec) then None
      else Some(SimDateTime(DigitsValue(d), DigitsValue(h), DigitsValue(m), DigitsValue(sec)))
  }

  /** The format is unambiguous: parsing the rendered text of a running-clock time gives the time. */
  lemma ToStringRoundTrip(t: SimDateTime)
    requires t.day >= 0 && 0 <= t.hours < 100 && 0 <= t.minutes < 100 && 0 <= t.seconds < 100
    ensures Parse(ToString(t)) == Some(t)
  {
    NatToStringRoundTrip(t.day);
    ParseLayout(NatToString(t.day), PadNat2(t.hours), PadNat2(t.minutes), PadNat2(t.seconds));
  }

  /** Any text laid out as `Day <digits> - <2 digits>:<2 digits>:<2 digits>` parses to its numbers. */
  lemma ParseLayout(d: string, h: string, m: string, sec: string)
    requires |d| >= 1 && AllDigits(d)
    requires |h| == 2 && |m| == 2 && |sec| == 2 && AllDigits(h) && AllDigits(m) && AllDigits(sec)
    ensures Parse("Day " + d + " - " + h + ":" + m + ":" + sec)
      == Some(SimDateTime(DigitsValue(d), DigitsValue(h), DigitsValue(m), DigitsValue(sec)))
  {
    var clock := h + ":" + m + ":" + sec;
    ClockSlices(h, m, sec, ':');
    FrameSlices("Day ", d, " - ", clock);
    Regroup("Day ", d, " - ", h, ":", m, sec);
    ParseFields("Day " + d + " - " + clock, d, clock, h, m, sec);
  }

  lemma Regroup<T>(a: seq<T>, d: seq<T>, b: seq<T>, h: seq<T>, c: seq<T>, m: seq<T>, sec: seq<T>)
    ensures a + d + b + h + c + m + c + sec == a + d + b + (h + c + m + c + sec)
  {
  }

  /** Parse reads the fields from their fixed places. */
  lemma ParseFields(s: string, d: string, clock: string, h: string, m: string, sec: string)
    requires |s| >= 16 && s[..4] == "Day " && s[|s| - 11..|s| - 8] == " - "
    requires s[4..|s| - 11] == d && s[|s| - 8..] == clock
    requires clock[..2] == h && clock[2] == ':' && clock[3..5] == m && clock[5] == ':' && clock[6..] == sec
    requires |d| >= 1 && AllDigits(d) && AllDigits(h) && AllDigits(m) && AllDigits(sec)
    ensures Parse(s) == Some(SimDateTime(DigitsValue(d), DigitsValue(h), DigitsValue(m), DigitsValue(sec)))
  {
  }

  /** The three two-element fields of `h:m:s` sit at fixed places. */
  lemma ClockSlices<T>(h: seq<T>, m: seq<T>, sec: seq<T>, c: T)
    requires |h| == 2 && |m| == 2 && |sec| == 2
    ensures var clock := h + [c] + m + [c] + sec;
      |clock| == 8 && clock[..2] == h && clock[2] == c && clock[3..5] == m && clock[5] == c && clock[6..] == sec
  {
  }

  /** A four-element head, a middle, a three-element separator and an eight-element tail. */
  lemma FrameSlices<T>(a: seq<T>, d: seq<T>, b: seq<T>, clock: seq<T>)
    requires |a| == 4 && |b| == 3 && |clock| == 8
    ensures var s := a + d + b + clock;
      |s| == |d| + 15 && s[..4] == a && s[|s| - 11..|s| - 8] == b && s[4..|s| - 11] == d && s[|s| - 8..] == clock
  {
    var s := a + d + b + clock;
    assert s[..4] == a;
    assert s[|s| - 11..|s| - 8] == b;
    assert s[4..|s| - 11] == d;
    assert s[|s| - 8..] == clock;
  }
}

=== FILE: sorting.dfy ===
/** Sorting a list by a key, descending, as a permutation of its positions. The sort is stable:
    of two elements whose keys tie, the one earlier in the input comes first, which is what
    LINQ's `OrderByDescending` guarantees. */
module Sorting {

  /** `ge` is a total preorder on the given keys: any two are comparable, and it is transitive. */
  predicate TotalPreorderOn<T>(keys: seq<T>, ge: (T, T) -> bool) {
    (forall i, j | 0 <= i < |keys| && 0 <= j < |keys| :: ge(keys[i], keys[j]) || ge(keys[j], keys[i]))
    && (forall i, j, k | 0 <= i < |keys| && 0 <= j < |keys| && 0 <= k < |keys| ::
          ge(keys[i], keys[j]) && ge(keys[j], keys[k]) ==> ge(keys[i], keys[k]))
  }

  predicate Distinct<T(==)>(xs: seq<T>) {
    forall i, j | 0 <= i < j < |xs| :: xs[i] != xs[j]
  }

  /** `order` lists each position 0 .. n-1 exactly once. */
  predicate IsPermutationOf(order: seq<nat>, n: nat) {
    |order| == n && (forall i | 0 <= i < |order| :: order[i] < n) && Distinct(order)
  }

  predicate Bounded(order: seq<nat>, n: nat) {
    forall i | 0 <= i < |order| :: order[i] < n
  }

  /** Keys never increase along `order`, and tied keys keep their input order. */
  predicate SortedDesc<T>(keys: seq<T>, ge: (T, T) -> bool, order: seq<nat>)
    requires Bounded(order, |keys|)
  {
    forall i, j | 0 <= i < j < |order| ::
      ge(keys[order[i]], keys[order[j]]) && (ge(keys[order[j]], keys[order[i]]) ==> order[i] < order[j])
  }

  /** How many leading positions of `order` have a key at least as large as that of `x`. */
  function InsertPos<T>(keys: seq<T>, ge: (T, T) -> bool, order: seq<nat>, x: nat): (p: nat)
    requires x < |keys| && Bounded(order, |keys|)
    ensures p <= |order|
    ensures forall j | 0 <= j < p :: ge(keys[order[j]], keys[x])
    ensures p < |order| ==> !ge(keys[order[p]], keys[x])
  {
    if order == [] || !ge(keys[order[0]], keys[x]) then 0
    else 1 + InsertPos(keys, ge, order[1..], x)
  }

  /** Places position `x` after every placed position whose key is at least as large as its own. */
  function Insert<T>(keys: seq<T>, ge: (T, T) -> bool, order: seq<nat>, x: nat): (r: seq<nat>)
    requires x < |keys| && Bounded(order, |keys|)
    ensures |r| == |order| + 1 && Bounded(r, |keys|)
  {
    var p := InsertPos(keys, ge, order, x);
    order[..p] + [x] + order[p..]
  }

  /** Inserting a position larger than every placed one keeps the order sorted and stable. */
  lemma InsertKeepsSorted<T>(keys: seq<T>, ge: (T, T) -> bool, order: seq<nat>, x: nat)
    requires TotalPreorderOn(keys, ge)
    requires x < |keys| && Bounded(order, x)
    requires SortedDesc(keys, ge, order)
    ensures SortedDesc(keys, ge, Insert(keys, ge, order, x))
  {
    var p := InsertPos(keys, ge, order, x);
    var r := Insert(keys, ge, order, x);
    assert r[p] == x;
    assert forall k | 0 <= k < p :: r[k] == order[k];
    assert forall k | p < k < |r| :: r[k] == order[k - 1];
    forall i, j | 0 <= i < j < |r|
      ensures ge(keys[r[i]], keys[r[j]]) && (ge(keys[r[j]], keys[r[i]]) ==> r[i] < r[j])
    {
      if i == p {
        var q := j - 1;
        assert ge(keys[x], keys[order[p]]);
        if q > p {
          assert ge(keys[order[p]], keys[order[q]]);
        }
      }
    }
  }

  /** Inserting a new position into a repetition-free order leaves it repetition free, and
      loses nothing. */
  lemma InsertKeepsElements<T>(keys: seq<T>, ge: (T, T) -> bool, order: seq<nat>, x: nat)
    requires x < |keys| && Bounded(order, |keys|)
    ensures var r := Insert(keys, ge, order, x);
      x in r && (forall j | 0 <= j < |order| :: order[j] in r)
      && (Bounded(order, x) ==> Bounded(r, x + 1))
      && (Distinct(order) && x !in order ==> Distinct(r))
  {
    var p := InsertPos(keys, ge, order, x);
    var r := Insert(keys, ge, order, x);
    assert r[p] == x;
    assert forall k | 0 <= k < p :: r[k] == order[k];
    assert forall k | p < k < |r| :: r[k] == order[k - 1];
    forall j | 0 <= j < |order| ensures order[j] in r {
      if j < p { assert r[j] == order[j]; } else { assert r[j + 1] == order[j]; }
    }
  }

  /** Positions 0 .. n-1 sorted by descending key, stably. */
  function SortDesc<T>(keys: seq<T>, ge: (T, T) -> bool, n: nat): (order: seq<nat>)
    requires TotalPreorderOn(keys, ge) && n <= |keys|
    ensures IsPermutationOf(order, n)
    ensures SortedDesc(keys, ge, order)
  {
    if n == 0 then []
    else
      var prev := SortDesc(keys, ge, n - 1);
      assert n - 1 !in prev;
      InsertKeepsSorted(keys, ge, prev, n - 1);
      InsertKeepsElements(keys, ge, prev, n - 1);
      Insert(keys, ge, prev, n - 1)
  }

  /** A repetition-free list of `n` positions below `n` holds every one of them. */
  lemma PermutationCovers(order: seq<nat>, n: nat, i: nat)
    requires IsPermutationOf(order, n) && i < n
    ensures i in order
  {
    if i !in order {
      var small := RangeSet(n) - {i};
      assert |small| == n - 1;
      InjectiveIntoSmaller(order, small);
      assert false;
    }
  }

  /** The positions below `n`, as a set. */
  function RangeSet(n: nat): (s: set<nat>)
    ensures forall j: nat :: j in s <==> j < n
    ensures |s| == n
  {
    if n == 0 then {} else RangeSet(n - 1) + {n - 1}
  }

  /** A repetition-free list whose elements all lie in `s` is no longer than `s` is large. */
  lemma {:induction false} InjectiveIntoSmaller(order: seq<nat>, s: set<nat>)
    requires Distinct(order)
    requires forall k | 0 <= k < |order| :: order[k] in s
    ensures |order| <= |s|
  {
    if order != [] {
      var last := order[|order| - 1];
      var init := order[..|order| - 1];
      assert forall k | 0 <= k < |init| :: init[k] == order[k];
      InjectiveIntoSmaller(init, s - {last});
    }
  }

  /** The last `n` elements, or all of them when there are fewer. */
  function Last<T>(xs: seq<T>, n: nat): (r: seq<T>)
    ensures |r| <= n && |r| <= |xs|
    ensures |xs| <= n ==> r == xs
    ensures |r| == (if |xs| <= n then |xs| else n) && r == xs[|xs| - |r|..]
  {
    if |xs| <= n then xs else xs[|xs| - n..]
  }

  /** Keeping the last `n` twice over, with more appended in between, keeps the last `n` of
      everything. */
  lemma LastOfLast<T>(a: seq<T>, b: seq<T>, n: nat)
    ensures Last(Last(a, n) + b, n) == Last(a + b, n)
  {
    if |a| > n {
      assert a + b == a[..|a| - n] + (a[|a| - n..] + b);
    }
  }

  /** Concatenation is associative. */
  lemma ConcatAssoc<T>(a: seq<T>, b: seq<T>, c: seq<T>)
    ensures (a + b) + c == a + (b + c)
  {
  }

  /** A concatenation starts with the first part's head, followed by its tail and the second part. */
  lemma AppendTail<T>(a: seq<T>, b: seq<T>)
    requires a != []
    ensures a + b != [] && (a + b)[0] == a[0] && (a + b)[1..] == a[1..] + b
  {
  }
}

=== FILE: text.dfy ===
/** String helpers with the semantics of the .NET string methods the simulation calls:
    white-space tests, Trim, Split with a separator string, String.Join, Contains,
    Replace, LastIndexOf, decimal formatting and integer / decimal parsing. */
module Text {
  import opened Wrappers

  /** The characters .NET's char.IsWhiteSpace accepts: U+0009..U+000D, the Unicode space
      separators, the line and paragraph separators, U+0085 and U+00A0. */
  predicate IsWhiteSpace(c: char) {
    ('\t' <= c <= '\r') || c == ' ' || c == '\U{0085}' || c == '\U{00A0}' || c == '\U{1680}'
    || ('\U{2000}' <= c <= '\U{200A}') || c == '\U{2028}' || c == '\U{2029}'
    || c == '\U{202F}' || c == '\U{205F}' || c == '\U{3000}'
  }

  /** string.IsNullOrWhiteSpace of a non-null string: empty, or white space only. */
  predicate IsBlank(s: string) {
    forall i | 0 <= i < |s| :: IsWhiteSpace(s[i])
  }

  /** A character outside the Basic Multilingual Plane, which UTF-16 stores as a surrogate pair. */
  predicate IsSupplementary(c: char) {
    c as int >= 0x1_0000
  }

  /** `string.Length`: the number of UTF-16 code units, two for each supplementary character. */
  function Utf16Length(s: string): (n: nat)
    ensures |s| <= n <= 2 * |s|
    ensures n == |s| <==> forall i | 0 <= i < |s| :: !IsSupplementary(s[i])
    ensures n == 2 * |s| <==> forall i | 0 <= i < |s| :: IsSupplementary(s[i])
    decreases |s|
  {
    if s == [] then 0
    else
      var rest := Utf16Length(s[1..]);
      assert forall i | 1 <= i < |s| :: s[i] == s[1..][i - 1];
      (if IsSupplementary(s[0]) then 2 else 1) + rest
  }

  /** The code-unit count of a concatenation is the sum of the counts. */
  lemma {:induction false} Utf16LengthAppend(a: string, b: string)
    ensures Utf16Length(a + b) == Utf16Length(a) + Utf16Length(b)
    decreases |a|
  {
    if a == [] {
      assert a + b == b;
    } else {
      assert (a + b)[0] == a[0] && (a + b)[1..] == a[1..] + b;
      Utf16LengthAppend(a[1..], b);
    }
  }

  /** One emoji is one character but two UTF-16 code units. */
  lemma Utf16LengthOfEmoji()
    ensures |"\U{1F600}"| == 1 && Utf16Length("\U{1F600}") == 2
  {
  }

  /** Drops leading white space; the result is the suffix starting at the first other character. */
  function TrimStart(s: string): (r: string)
    ensures |r| <= |s| && r == s[|s| - |r|..]
    ensures forall i | 0 <= i < |s| - |r| :: IsWhiteSpace(s[i])
    ensures r == [] || !IsWhiteSpace(r[0])
    decreases |s|
  {
    if |s| > 0 && IsWhiteSpace(s[0]) then TrimStart(s[1..]) else s
  }

  /** Drops trailing white space; the result is the prefix ending at the last other character. */
  function TrimEnd(s: string): (r: string)
    ensures |r| <= |s| && r == s[..|r|]
    ensures forall i | |r| <= i < |s| :: IsWhiteSpace(s[i])
    ensures r == [] || !IsWhiteSpace(r[|r| - 1])
    decreases |s|
  {
    if |s| > 0 && IsWhiteSpace(s[|s| - 1]) then TrimEnd(s[..|s| - 1]) else s
  }

  /** `r` is the text of `s` from `k` on, with only white space before and after it. */
  predicate BlankAround(s: string, k: nat, r: string) {
    k + |r| <= |s| && r == s[k..k + |r|]
    && (forall i | 0 <= i < k :: IsWhiteSpace(s[i]))
    && (forall i | k + |r| <= i < |s| :: IsWhiteSpace(s[i]))
  }

  /** string.Trim: the infix left after removing white space at both ends. */
  function Trim(s: string): (r: string)
    ensures |r| <= |s|
    ensures BlankAround(s, |s| - |TrimStart(s)|, r)
    ensures r == [] <==> IsBlank(s)
    ensures r == [] || (!IsWhiteSpace(r[0]) && !IsWhiteSpace(r[|r| - 1]))
  {
    TrimIsInfix(s);
    TrimEmptyIffBlank(s);
    TrimEnds(s);
    TrimEnd(TrimStart(s))
  }

  lemma TrimIsInfix(s: string)
    ensures BlankAround(s, |s| - |TrimStart(s)|, TrimEnd(TrimStart(s)))
  {
    InfixOfSuffix(s, TrimStart(s), TrimEnd(TrimStart(s)));
  }

  /** A blank-led suffix's blank-trailed prefix sits between blanks in the whole. */
  lemma InfixOfSuffix(s: string, t: string, r: string)
    requires |t| <= |s| && t == s[|s| - |t|..] && forall i | 0 <= i < |s| - |t| :: IsWhiteSpace(s[i])
    requires |r| <= |t| && r == t[..|r|] && forall i | |r| <= i < |t| :: IsWhiteSpace(t[i])
    ensures BlankAround(s, |s| - |t|, r)
  {
    var k := |s| - |t|;
    assert r == s[k..k + |r|];
    forall i | k + |r| <= i < |s| ensures IsWhiteSpace(s[i]) {
      assert s[i] == t[i - k];
    }
  }

  lemma TrimEmptyIffBlank(s: string)
    ensures TrimEnd(TrimStart(s)) == [] <==> IsBlank(s)
  {
  }

  lemma TrimEnds(s: string)
    ensures var r := TrimEnd(TrimStart(s));
      r == [] || (!IsWhiteSpace(r[0]) && !IsWhiteSpace(r[|r| - 1]))
  {
    var t := TrimStart(s);
    var r := TrimEnd(t);
    if r != [] {
      assert r[0] == t[0];
    }
  }

  /** `pat` occurs in `s` at position `i`. */
  predicate IsAt(s: string, pat: string, i: nat) {
    i + |pat| <= |s| && s[i..i + |pat|] == pat
  }

  /** The first position at or after `k` where `pat` occurs. */
  function FindFrom(s: string, pat: string, k: nat): (r: Option<nat>)
    requires k <= |s|
    ensures r.Some? ==> k <= r.value && IsAt(s, pat, r.value)
    ensures r.Some? ==> forall j | k <= j < r.value :: !IsAt(s, pat, j)
    ensures r.None? ==> forall j | k <= j :: !IsAt(s, pat, j)
    decreases |s| - k
  {
    if IsAt(s, pat, k) then Some(k)
    else if k == |s| then None
    else FindFrom(s, pat, k + 1)
  }

  /** string.IndexOf with ordinal comparison: the first occurrence of `pat`, if any. */
  function IndexOf(s: string, pat: string): Option<nat> {
    FindFrom(s, pat, 0)
  }

  /** string.Contains (ordinal). */
  predicate Contains(s: string, pat: string) {
    IndexOf(s, pat).Some?
  }

  /** An occurrence anywhere means the text contains the pattern. */
  lemma OccurrenceIsContained(s: string, pat: string, i: nat)
    requires IsAt(s, pat, i)
    ensures Contains(s, pat)
  {
  }

  /** The text contains the pattern exactly when the pattern occurs somewhere in it. */
  lemma ContainsIffOccurs(s: string, pat: string)
    ensures Contains(s, pat) <==> exists i: nat :: IsAt(s, pat, i)
  {
    if Contains(s, pat) {
      assert IsAt(s, pat, IndexOf(s, pat).value);
    } else {
      NowhereAt(s, pat);
    }
  }

  /** An occurrence inside a prefix is an occurrence in the whole string. */
  lemma IsAtInPrefix(s: string, k: nat, pat: string, j: nat)
    requires k <= |s|
    requires IsAt(s[..k], pat, j)
    ensures IsAt(s, pat, j) && j + |pat| <= k
  {
    assert s[..k][j..j + |pat|] == s[j..j + |pat|];
  }

  /** An occurrence inside a suffix is an occurrence in the whole string, shifted. */
  lemma IsAtInSuffix(s: string, k: nat, pat: string, j: nat)
    requires k <= |s|
    requires IsAt(s[k..], pat, j)
    ensures IsAt(s, pat, k + j)
  {
    assert s[k..][j..j + |pat|] == s[k + j..k + j + |pat|];
  }

  /** A string in which `pat` occurs nowhere. */
  lemma NotContains(s: string, pat: string)
    requires forall j: nat :: !IsAt(s, pat, j)
    ensures !Contains(s, pat)
  {
  }

  /** The text before the first occurrence of `sep` does not contain `sep`. */
  lemma HeadBeforeFirst(s: string, sep: string, i: nat)
    requires |sep| > 0
    requires IndexOf(s, sep) == Some(i)
    ensures !Contains(s[..i], sep)
  {
    forall j: nat ensures !IsAt(s[..i], sep, j) {
      if IsAt(s[..i], sep, j) {
        IsAtInPrefix(s, i, sep, j);
      }
    }
  }

  /** string.Split(sep, StringSplitOptions.None): cut at every occurrence of `sep`, scanning
      left to right; empty pieces are kept, so the result is never empty. */
  function Split(s: string, sep: string): (parts: seq<string>)
    requires |sep| > 0
    ensures |parts| >= 1
    ensures forall i | 0 <= i < |parts| :: !Contains(parts[i], sep)
    decreases |s|
  {
    match IndexOf(s, sep)
    case None => [s]
    case Some(i) =>
      HeadBeforeFirst(s, sep, i);
      [s[..i]] + Split(s[i + |sep|..], sep)
  }

  /** String.Join: the parts with `sep` between consecutive ones. */
  function Join(parts: seq<string>, sep: string): string
    decreases |parts|
  {
    if |parts| == 0 then ""
    else if |parts| == 1 then parts[0]
    else parts[0] + sep + Join(parts[1..], sep)
  }

  /** Splitting and joining with the same separator gives back the original text. */
  lemma {:induction false} JoinSplit(s: string, sep: string)
    requires |sep| > 0
    ensures Join(Split(s, sep), sep) == s
    decreases |s|
  {
    var found := IndexOf(s, sep);
    if found.Some? {
      var i := found.value;
      var rest := s[i + |sep|..];
      JoinSplit(rest, sep);
      JoinCons(s[..i], Split(rest, sep), sep);
      Reassemble(s, sep, i);
    }
  }

  lemma JoinCons(head: string, tail: seq<string>, sep: string)
    requires |tail| >= 1
    ensures Join([head] + tail, sep) == head + sep + Join(tail, sep)
  {
    assert ([head] + tail)[1..] == tail;
  }

  lemma Reassemble(s: string, sep: string, i: nat)
    requires IsAt(s, sep, i)
    ensures s == s[..i] + sep + s[i + |sep|..]
  {
    assert s == s[..i] + s[i..i + |sep|] + s[i + |sep|..];
  }

  /** Splitting the empty string yields exactly one (empty) piece. */
  lemma SplitEmpty(sep: string)
    requires |sep| > 0
    ensures Split("", sep) == [""]
  {
    assert !IsAt("", sep, 0);
  }

  /** The first occurrence at or after `k` is the one at `i` when none lies in between. */
  lemma {:induction false} FindFromFirst(s: string, pat: string, k: nat, i: nat)
    requires k <= i && IsAt(s, pat, i)
    requires forall j | k <= j < i :: !IsAt(s, pat, j)
    ensures FindFrom(s, pat, k) == Some(i)
    decreases i - k
  {
    if k < i {
      FindFromFirst(s, pat, k + 1, i);
    }
  }

  /** With a one-character separator that no part contains, splitting the joined text gives
      back the parts. */
  lemma {:induction false} SplitJoin(parts: seq<string>, sep: string)
    requires |sep| == 1 && |parts| >= 1
    requires forall i | 0 <= i < |parts| :: !Contains(parts[i], sep)
    ensures Split(Join(parts, sep), sep) == parts
    decreases |parts|
  {
    if |parts| > 1 {
      var x := parts[0];
      var tail := Join(parts[1..], sep);
      var s := x + sep + tail;
      assert Join(parts, sep) == s;
      assert IsAt(s, sep, |x|) by {
        assert s[|x|..|x| + 1] == sep;
      }
      forall j | 0 <= j < |x| ensures !IsAt(s, sep, j) {
        if IsAt(s, sep, j) {
          assert s[j..j + 1] == x[j..j + 1];
          OccurrenceIsContained(x, sep, j);
        }
      }
      FindFromFirst(s, sep, 0, |x|);
      assert s[..|x|] == x;
      assert s[|x| + 1..] == tail;
      assert forall i | 0 <= i < |parts[1..]| :: parts[1..][i] == parts[i + 1];
      SplitJoin(parts[1..], sep);
      assert parts == [x] + parts[1..];
    }
  }

  /** A piece of a text in which `pat` does not occur has no occurrence either. */
  lemma NotContainsInfix(s: string, pat: string, i: nat, j: nat)
    requires i <= j <= |s| && !Contains(s, pat)
    ensures !Contains(s[i..j], pat)
  {
    if Contains(s[i..j], pat) {
      var k := IndexOf(s[i..j], pat).value;
      assert IsAt(s[i..j], pat, k);
      forall t | 0 <= t < |pat| ensures s[i + k + t] == pat[t] {
        assert s[i..j][k..k + |pat|][t] == pat[t];
      }
      assert s[i + k..i + k + |pat|] == pat;
      OccurrenceIsContained(s, pat, i + k);
    }
  }

  /** Leading blanks are dropped by TrimStart. */
  lemma {:induction false} TrimStartBlank(pad: string, x: string)
    requires IsBlank(pad)
    ensures TrimStart(pad + x) == TrimStart(x)
    decreases |pad|
  {
    if pad != [] {
      assert (pad + x)[0] == pad[0];
      assert (pad + x)[1..] == pad[1..] + x;
      assert TrimStart(pad + x) == TrimStart(pad[1..] + x);
      TrimStartBlank(pad[1..], x);
    } else {
      assert pad + x == x;
    }
  }

  /** Trailing blanks are dropped by TrimEnd. */
  lemma {:induction false} TrimEndBlank(x: string, pad: string)
    requires IsBlank(pad)
    ensures TrimEnd(x + pad) == TrimEnd(x)
    decreases |pad|
  {
    if pad != [] {
      var p := pad[..|pad| - 1];
      assert (x + pad)[|x + pad| - 1] == pad[|pad| - 1];
      assert (x + pad)[..|x + pad| - 1] == x + p;
      assert TrimEnd(x + pad) == TrimEnd(x + p);
      TrimEndBlank(x, p);
    } else {
      assert x + pad == x;
    }
  }

  /** A word padded with blanks on both sides trims to the word. */
  lemma TrimPadded(pad: string, w: string)
    requires IsBlank(pad) && w != [] && !IsWhiteSpace(w[0]) && !IsWhiteSpace(w[|w| - 1])
    ensures Trim(pad + w + pad) == w
  {
    assert pad + w + pad == pad + (w + pad);
    TrimStartBlank(pad, w + pad);
    assert TrimStart(w + pad) == w + pad;
    TrimEndBlank(w, pad);
  }

  /** Text that starts and ends with other characters than white space is its own trim. */
  lemma TrimTrimmed(s: string)
    requires s == [] || (!IsWhiteSpace(s[0]) && !IsWhiteSpace(s[|s| - 1]))
    ensures Trim(s) == s
  {
  }

  /** Trimming twice is trimming once. */
  lemma TrimIdempotent(s: string)
    ensures Trim(Trim(s)) == Trim(s)
  {
    TrimTrimmed(Trim(s));
  }

  /** string.Replace(pat, rep): every non-overlapping occurrence, scanning left to right. */
  function ReplaceAll(s: string, pat: string, rep: string): string
    requires |pat| > 0
    decreases |s|
  {
    if |s| == 0 then s
    else if IsAt(s, pat, 0) then rep + ReplaceAll(s[|pat|..], pat, rep)
    else [s[0]] + ReplaceAll(s[1..], pat, rep)
  }

  /** Replace changes nothing in a string where the pattern does not occur. */
  lemma {:induction false} ReplaceAbsent(s: string, pat: string, rep: string)
    requires |pat| > 0
    requires forall j: nat :: !IsAt(s, pat, j)
    ensures ReplaceAll(s, pat, rep) == s
    decreases |s|
  {
    if |s| > 0 {
      assert !IsAt(s, pat, 0);
      forall j: nat ensures !IsAt(s[1..], pat, j) {
        if IsAt(s[1..], pat, j) {
          IsAtInSuffix(s, 1, pat, j);
        }
      }
      ReplaceAbsent(s[1..], pat, rep);
      assert s == [s[0]] + s[1..];
    }
  }

  /** A pattern that does not occur has no position where it occurs. */
  lemma NowhereAt(s: string, pat: string)
    requires !Contains(s, pat)
    ensures forall j: nat :: !IsAt(s, pat, j)
  {
  }

  /** A pattern whose first character never appears in `s` does not occur in it. */
  lemma FirstCharAbsent(s: string, pat: string)
    requires |pat| > 0
    requires forall i | 0 <= i < |s| :: s[i] != pat[0]
    ensures forall j: nat :: !IsAt(s, pat, j)
    ensures !Contains(s, pat)
  {
    forall j: nat ensures !IsAt(s, pat, j) {
      if j + |pat| <= |s| {
        assert s[j..j + |pat|][0] == s[j];
      }
    }
  }

  /** Replace copies a leading stretch in which no occurrence starts. */
  lemma {:induction false} ReplaceAfter(x: string, t: string, pat: string, rep: string)
    requires |pat| > 0
    requires forall j | 0 <= j < |x| :: !IsAt(x + t, pat, j)
    ensures ReplaceAll(x + t, pat, rep) == x + ReplaceAll(t, pat, rep)
    decreases |x|
  {
    if x != [] {
      ConsAppend(x, t, ReplaceAll(t, pat, rep));
      assert !IsAt(x + t, pat, 0);
      forall j | 0 <= j < |x[1..]| ensures !IsAt(x[1..] + t, pat, j) {
        if IsAt(x[1..] + t, pat, j) {
          IsAtInSuffix(x + t, 1, pat, j);
        }
      }
      ReplaceAfter(x[1..], t, pat, rep);
    } else {
      assert x + t == t;
    }
  }

  lemma ConsAppend<T>(x: seq<T>, t: seq<T>, u: seq<T>)
    requires x != []
    ensures (x + t)[0] == x[0] && (x + t)[1..] == x[1..] + t && [x[0]] + (x[1..] + u) == x + u
  {
  }

  /** Replace substitutes an occurrence at the front. */
  lemma ReplaceAtFront(t: string, pat: string, rep: string)
    requires |pat| > 0
    ensures ReplaceAll(pat + t, pat, rep) == rep + ReplaceAll(t, pat, rep)
  {
    assert (pat + t)[..|pat|] == pat;
    assert (pat + t)[|pat|..] == t;
  }

  /** string.LastIndexOf for one character: -1 when absent. */
  function LastIndexOf(s: string, c: char): (r: int)
    ensures -1 <= r < |s|
    ensures r >= 0 ==> s[r] == c
    ensures forall j | r < j < |s| :: s[j] != c
    decreases |s|
  {
    if |s| == 0 then -1
    else if s[|s| - 1] == c then |s| - 1
    else LastIndexOf(s[..|s| - 1], c)
  }

  /** LastIndexOf finds a position whose character matches when no later one does. */
  lemma LastIndexOfIs(s: string, c: char, p: nat)
    requires p < |s| && s[p] == c
    requires forall j | p < j < |s| :: s[j] != c
    ensures LastIndexOf(s, c) == p
  {
  }

  /** string.StartsWith with an ordinal comparison. */
  predicate StartsWith(s: string, prefix: string) {
    |prefix| <= |s| && s[..|prefix|] == prefix
  }

  /** A one-character pattern occurs exactly where that character does. */
  lemma CharNotContained(s: string, c: char)
    ensures !Contains(s, [c]) <==> forall i | 0 <= i < |s| :: s[i] != c
  {
    if !Contains(s, [c]) {
      forall i | 0 <= i < |s| ensures s[i] != c {
        assert !IsAt(s, [c], i);
        assert s[i..i + 1] == [s[i]];
      }
    } else {
      var i := IndexOf(s, [c]).value;
      assert s[i..i + 1][0] == s[i];
    }
  }

  predicate IsDigit(c: char) {
    '0' <= c <= '9'
  }

  predicate AllDigits(s: string) {
    forall i | 0 <= i < |s| :: IsDigit(s[i])
  }

  function DigitChar(d: nat): (c: char)
    requires d < 10
    ensures IsDigit(c) && c as int - '0' as int == d
  {
    ('0' as int + d) as char
  }

  /** Decimal rendering of a natural number, without leading zeros. */
  function NatToString(n: nat): (r: string)
    ensures |r| >= 1 && AllDigits(r)
    ensures n >= 10 ==> r[0] != '0'
    decreases n
  {
    if n < 10 then [DigitChar(n)]
    else NatToString(n / 10) + [DigitChar(n % 10)]
  }

  /** int.ToString(): decimal with a leading '-' for negative values. */
  function IntToString(i: int): string {
    if i < 0 then "-" + NatToString(-i) else NatToString(i)
  }

  /** The value of a string of decimal digits. */
  function DigitsValue(s: string): nat
    requires AllDigits(s)
    decreases |s|
  {
    if |s| == 0 then 0
    else DigitsValue(s[..|s| - 1]) * 10 + (s[|s| - 1] as int - '0' as int)
  }

  /** Reading back a rendered natural number gives the number. */
  lemma {:induction false} NatToStringRoundTrip(n: nat)
    ensures DigitsValue(NatToString(n)) == n
    decreases n
  {
    if n >= 10 {
      NatToStringRoundTrip(n / 10);
      var r := NatToString(n);
      assert r[..|r| - 1] == NatToString(n / 10);
    }
  }

  /** The custom numeric format "00" for a non-negative value: at least two digits, zero padded. */
  function PadNat2(n: nat): (r: string)
    ensures |r| >= 2 && AllDigits(r) && DigitsValue(r) == n
    ensures n < 100 ==> |r| == 2
  {
    NatToStringRoundTrip(n);
    if n < 10 then
      var r := "0" + NatToString(n);
      assert r[..1] == "0";
      assert DigitsValue(r[..1]) == 0;
      r
    else NatToString(n)
  }

  /** The custom numeric format "00": '-' in front of negative values. */
  function Pad2(n: int): string {
    if n < 0 then "-" + PadNat2(-n) else PadNat2(n)
  }

  predicate InInt32(v: int) {
    -0x8000_0000 <= v <= 0x7FFF_FFFF
  }

  /** int.TryParse on text that has already been trimmed: an optional sign and at least one
      decimal digit, with a value in the 32-bit range; anything else fails. */
  function ParseInt32(s: string): (r: Option<int>)
    ensures r.Some? ==> InInt32(r.value)
  {
    var negative := |s| > 0 && s[0] == '-';
    var body := if |s| > 0 && (s[0] == '-' || s[0] == '+') then s[1..] else s;
    if |body| == 0 || !AllDigits(body) then None
    else
      var v: int := if negative then -(DigitsValue(body) as int) else DigitsValue(body) as int;
      if InInt32(v) then Some(v) else None
  }

  /** Every 32-bit integer survives rendering and parsing. */
  lemma ParseInt32RoundTrip(i: int)
    requires InInt32(i)
    ensures ParseInt32(IntToString(i)) == Some(i)
  {
    if i < 0 {
      NatToStringRoundTrip(-i);
      ParseDigits(NatToString(-i));
    } else {
      NatToStringRoundTrip(i);
      ParseDigits(NatToString(i));
    }
  }

  /** Digits read as their value, and with a minus sign in front as its negation, within range. */
  lemma ParseDigits(d: string)
    requires |d| >= 1 && AllDigits(d)
    ensures var v: int := DigitsValue(d); ParseInt32(d) == if InInt32(v) then Some(v) else None
    ensures var v: int := DigitsValue(d); ParseInt32("-" + d) == if InInt32(-v) then Some(-v) else None
  {
    assert IsDigit(d[0]);
    ParseNegative("-" + d, d);
  }

  lemma ParseNegative(s: string, d: string)
    requires |s| >= 1 && s[0] == '-' && s[1..] == d && |d| >= 1 && AllDigits(d)
    ensures var v: int := DigitsValue(d); ParseInt32(s) == if InInt32(-v) then Some(-v) else None
  {
  }

  function Pow10(k: nat): (r: nat)
    ensures r >= 1
  {
    if k == 0 then 1 else 10 * Pow10(k - 1)
  }

  lemma DigitsHaveNoDot(s: string)
    ensures AllDigits(s) ==> Split(s, ".") == [s]
  {
    if AllDigits(s) {
      forall j: nat | j + 1 <= |s| ensures !IsAt(s, ".", j) {
        assert s[j..j + 1][0] == s[j];
      }
    }
  }

  /** double.Parse restricted to unsigned decimal numerals: digits, optionally followed by '.'
      and more digits, with at least one digit overall. */
  function ParseDecimal(s: string): (r: Option<real>)
    ensures AllDigits(s) && |s| > 0 ==> r == Some(DigitsValue(s) as real)
    ensures r.Some? ==> r.value >= 0.0
  {
    DigitsHaveNoDot(s);
    var parts := Split(s, ".");
    if |parts| == 1 then
      if |s| > 0 && AllDigits(s) then Some(DigitsValue(s) as real) else None
    else if |parts| == 2 && AllDigits(parts[0]) && AllDigits(parts[1]) && |parts[0]| + |parts[1]| > 0 then
      Some(DigitsValue(parts[0]) as real + DigitsValue(parts[1]) as real / Pow10(|parts[1]|) as real)
    else None
  }
}

=== FILE: world_perception.dfy ===
/** What an agent knows of the world and where it is. Areas, sections and objects it knows are
    keyed `area`, `area:section` and `area:section:object`; entering an area or a section may
    make it forget, depending on the memory mode. */
module WorldPerception {
  import opened Wrappers
  import opened Text
  import opened Memories
  import opened AreaNodes
  import opened WorldTrees

  /** The three knowledge dictionaries. A known section maps to its area, a known object to its
      `area:section`. */
  datatype Knowledge = Knowledge(
    areas: map<string, bool>,
    sections: map<string, string>,
    objects: map<string, string>)

  /** The knowledge and the location. A missing location is a null reference. */
  datatype Perception = Perception(
    known: Knowledge,
    currentArea: Option<string>,
    currentSection: Option<string>,
    previousArea: Option<string>,
    previousSection: Option<string>)

  const NoKnowledge := Knowledge(map[], map[], map[])

  /** Nothing known and nowhere yet. */
  const Initial := Perception(NoKnowledge, None, None, None, None)

  /** string.IsNullOrEmpty, negated. */
  predicate NonEmpty(s: Option<string>) {
    s.Some? && s.value != ""
  }

  /** Every key of `k` is still known in `r`, with the same value. */
  predicate Grows(k: Knowledge, r: Knowledge) {
    (forall x | x in k.areas :: x in r.areas && r.areas[x] == k.areas[x])
    && (forall x | x in k.sections :: x in r.sections && r.sections[x] == k.sections[x])
    && (forall x | x in k.objects :: x in r.objects && r.objects[x] == k.objects[x])
  }

  lemma GrowsTransitive(a: Knowledge, b: Knowledge, c: Knowledge)
    requires Grows(a, b) && Grows(b, c)
    ensures Grows(a, c)
  {
  }

  /** Dictionary.TryAdd: a key already present keeps its value. */
  function TryAdd<V>(m: map<string, V>, key: string, v: V): (r: map<string, V>)
    ensures r.Keys == m.Keys + {key}
    ensures forall x | x in m :: r[x] == m[x]
    ensures key !in m ==> r[key] == v
  {
    if key in m then m else m[key := v]
  }

  predicate KnowsArea(k: Knowledge, area: string) {
    area in k.areas
  }

  predicate KnowsSection(k: Knowledge, area: string, section: string) {
    SectionKey(area, section) in k.sections
  }

  predicate KnowsObject(k: Knowledge, area: string, section: string, obj: string) {
    ObjectKey(area, section, obj) in k.objects
  }

  /** `LearnArea`: adds the area, never overwriting. */
  function LearnArea(k: Knowledge, area: string): (r: Knowledge)
    ensures KnowsArea(r, area) && Grows(k, r)
    ensures r.areas.Keys == k.areas.Keys + {area}
    ensures r.sections == k.sections && r.objects == k.objects
    ensures !KnowsArea(k, area) ==> r.areas[area]
  {
    k.(areas := TryAdd(k.areas, area, true))
  }

  /** `LearnSection`: adds `area:section`, mapped to its area, never overwriting. */
  function LearnSection(k: Knowledge, area: string, section: string): (r: Knowledge)
    ensures KnowsSection(r, area, section) && Grows(k, r)
    ensures r.sections.Keys == k.sections.Keys + {SectionKey(area, section)}
    ensures r.areas == k.areas && r.objects == k.objects
    ensures !KnowsSection(k, area, section) ==> r.sections[SectionKey(area, section)] == area
  {
    k.(sections := TryAdd(k.sections, SectionKey(area, section), area))
  }

  /** `LearnObject`: adds `area:section:object`, mapped to `area:section`, never overwriting. */
  function LearnObject(k: Knowledge, area: string, section: string, obj: string): (r: Knowledge)
    ensures KnowsObject(r, area, section, obj) && Grows(k, r)
    ensures r.objects.Keys == k.objects.Keys + {ObjectKey(area, section, obj)}
    ensures r.areas == k.areas && r.sections == k.sections
    ensures !KnowsObject(k, area, section, obj) ==> r.objects[ObjectKey(area, section, obj)] == SectionKey(area, section)
  {
    k.(objects := TryAdd(k.objects, ObjectKey(area, section, obj), SectionKey(area, section)))
  }

  /** Learning the same thing twice is learning it once. */
  lemma LearnIdempotent(k: Knowledge, area: string, section: string, obj: string)
    ensures LearnArea(LearnArea(k, area), area) == LearnArea(k, area)
    ensures LearnSection(LearnSection(k, area, section), area, section) == LearnSection(k, area, section)
    ensures LearnObject(LearnObject(k, area, section, obj), area, section, obj) == LearnObject(k, area, section, obj)
  {
  }

  /** `GetKnownAreas`, as a set: the order of a dictionary that has had keys removed is not
      modelled. */
  function GetKnownAreas(k: Knowledge): (r: set<string>)
    ensures forall a :: a in r <==> KnowsArea(k, a)
  {
    k.areas.Keys
  }

  /** A colon at `j` makes Split return at least two parts, the first ending at or before `j`. */
  lemma SplitAtColon(x: string, j: nat)
    requires IsAt(x, ":", j)
    ensures IndexOf(x, ":").Some? && IndexOf(x, ":").value <= j
    ensures |Split(x, ":")| >= 2
  {
    OccurrenceIsContained(x, ":", j);
    var i := IndexOf(x, ":").value;
    assert Split(x, ":") == [x[..i]] + Split(x[i + 1..], ":");
  }

  lemma StartsWithColon(key: string, prefix: string)
    requires StartsWith(key, prefix + ":")
    ensures IsAt(key, ":", |prefix|)
  {
    ColonInPrefix(key, prefix + ":", |prefix|);
  }

  /** A colon of a prefix is a colon of the whole string. */
  lemma ColonInPrefix(key: string, prefix: string, j: nat)
    requires StartsWith(key, prefix) && j < |prefix| && prefix[j] == ':'
    ensures IsAt(key, ":", j)
  {
    assert key[j] == key[..|prefix|][j];
    assert key[j..j + 1] == [key[j]];
  }

  /** The second colon-separated field of a key that starts with `area:`. */
  function SectionField(key: string, area: string): string
    requires StartsWith(key, area + ":")
  {
    StartsWithColon(key, area);
    SplitAtColon(key, |area|);
    Split(key, ":")[1]
  }

  lemma ThreeFields(key: string, area: string, section: string)
    requires StartsWith(key, area + ":" + section + ":")
    ensures |Split(key, ":")| >= 3
  {
    var p := area + ":" + section + ":";
    assert p[|area|] == ':';
    ColonInPrefix(key, p, |area|);
    SplitAtColon(key, |area|);
    var i := IndexOf(key, ":").value;
    var j := |area| + |section| + 1;
    assert p[j] == ':';
    ColonInPrefix(key, p, j);
    var rest := key[i + 1..];
    assert rest[j - i - 1..j - i] == key[j..j + 1];
    SplitAtColon(rest, j - i - 1);
    assert Split(key, ":") == [key[..i]] + Split(rest, ":");
  }

  /** The third colon-separated field of a key that starts with `area:section:`. */
  function ObjectField(key: string, area: string, section: string): string
    requires StartsWith(key, area + ":" + section + ":")
  {
    ThreeFields(key, area, section);
    Split(key, ":")[2]
  }

  /** `GetKnownSectionsInArea`, as a set: the second field of every known section key that
      starts with `area:`. */
  function GetKnownSectionsInArea(k: Knowledge, area: string): set<string> {
    set key | key in k.sections && StartsWith(key, area + ":") :: SectionField(key, area)
  }

  /** `GetKnownObjectsInSection`, as a set: the third field of every known object key that
      starts with `area:section:`. */
  function GetKnownObjectsInSection(k: Knowledge, area: string, section: string): set<string> {
    set key | key in k.objects && StartsWith(key, area + ":" + section + ":") :: ObjectField(key, area, section)
  }

  /** With colon-free names, the fields of a section key give back its section. */
  lemma SectionFieldOfKey(area: string, section: string)
    requires ColonFree([area, section])
    ensures StartsWith(SectionKey(area, section), area + ":")
    ensures SectionField(SectionKey(area, section), area) == section
  {
    SectionKeyIsJoin(area, section);
    SplitJoin([area, section], ":");
  }

  /** With colon-free names, the fields of an object key give back its object. */
  lemma ObjectFieldOfKey(area: string, section: string, obj: string)
    requires ColonFree([area, section, obj])
    ensures StartsWith(ObjectKey(area, section, obj), area + ":" + section + ":")
    ensures ObjectField(ObjectKey(area, section, obj), area, section) == obj
  {
    ObjectKeyIsJoin(area, section, obj);
    SplitJoin([area, section, obj], ":");
    assert ObjectKey(area, section, obj) == (area + ":" + section + ":") + obj;
  }

  /** A section just learned is listed for its area. */
  lemma LearnedSectionIsListed(k: Knowledge, area: string, section: string)
    requires ColonFree([area, section])
    ensures section in GetKnownSectionsInArea(LearnSection(k, area, section), area)
  {
    SectionFieldOfKey(area, section);
  }

  /** An object just learned is listed for its section. */
  lemma LearnedObjectIsListed(k: Knowledge, area: string, section: string, obj: string)
    requires ColonFree([area, section, obj])
    ensures obj in GetKnownObjectsInSection(LearnObject(k, area, section, obj), area, section)
  {
    ObjectFieldOfKey(area, section, obj);
  }

  /** Every known section key has the form `area:section` with colon-free names. */
  predicate SectionKeysShaped(k: Knowledge) {
    forall key | key in k.sections :: |Split(key, ":")| == 2
  }

  /** A two-field key that starts with a colon-free `area:` is that area's section key. */
  lemma ShapedSectionKey(key: string, area: string)
    requires |Split(key, ":")| == 2 && !Contains(area, ":") && StartsWith(key, area + ":")
    ensures SectionField(key, area) == Split(key, ":")[1]
    ensures key == SectionKey(area, SectionField(key, area))
    ensures !Contains(SectionField(key, area), ":")
  {
    var parts := Split(key, ":");
    StartsWithColon(key, area);
    SplitAtColon(key, |area|);
    var i := IndexOf(key, ":").value;
    CharNotContained(area, ':');
    assert parts[0] == key[..i] == area;
    JoinSplit(key, ":");
    assert parts == [parts[0], parts[1]];
    SectionKeyIsJoin(area, parts[1]);
  }

  /** For well-shaped keys and a colon-free area, the sections listed for the area are exactly
      the colon-free sections known in it. */
  lemma KnownSectionsInAreaExactly(k: Knowledge, area: string, section: string)
    requires SectionKeysShaped(k) && ColonFree([area, section])
    ensures section in GetKnownSectionsInArea(k, area) <==> KnowsSection(k, area, section)
  {
    if section in GetKnownSectionsInArea(k, area) {
      var key :| key in k.sections && StartsWith(key, area + ":") && SectionField(key, area) == section;
      assert [area, section][0] == area;
      ShapedSectionKey(key, area);
    }
    if KnowsSection(k, area, section) {
      SectionFieldOfKey(area, section);
    }
  }

  /** The areas to forget: every known one that is neither `current` nor `except`. A null
      current area equals no area. */
  function Forgotten(k: Knowledge, current: Option<string>, except: string): (r: set<string>)
    ensures forall x :: x in r <==> x in k.areas && Some(x) != current && x != except
  {
    set x | x in k.areas && Some(x) != current && x != except
  }

  /** The key lies under one of the areas: it starts with that area's name and a colon. */
  predicate UnderAny(key: string, areas: set<string>) {
    exists x | x in areas :: StartsWith(key, x + ":")
  }

  /** `ClearOldMemories`: forgets every known area except `current` and `except`, together with
      every section and object key under a forgotten area. */
  function ClearOldMemories(k: Knowledge, current: Option<string>, except: string): (r: Knowledge)
    ensures forall x :: x in r.areas <==> x in k.areas && (Some(x) == current || x == except)
    ensures forall key :: key in r.sections <==> key in k.sections && !UnderAny(key, Forgotten(k, current, except))
    ensures forall key :: key in r.objects <==> key in k.objects && !UnderAny(key, Forgotten(k, current, except))
    ensures Grows(r, k)
  {
    var gone := Forgotten(k, current, except);
    Knowledge(
      map x | x in k.areas && x !in gone :: k.areas[x],
      map key | key in k.sections && !UnderAny(key, gone) :: k.sections[key],
      map key | key in k.objects && !UnderAny(key, gone) :: k.objects[key])
  }

  /** `EnterArea` as written: in ShortTerm mode the old memories are cleared while the current
      area is still the one being left, so both the area kept and the area excepted are the old
      one, and the destination's sections and objects are forgotten. */
  function EnterAreaAsWritten(mode: MemoryMode, p: Perception, area: string): Perception {
    var moved :=
      match mode
      case Sensory => p.(known := NoKnowledge)
      case ShortTerm =>
        var q := p.(previousArea := p.currentArea, previousSection := p.currentSection);
        if q.previousArea.Some? && q.previousArea.value != area
        then q.(known := ClearOldMemories(q.known, q.currentArea, q.previousArea.value))
        else q
      case LongTerm => p.(previousArea := p.currentArea, previousSection := p.currentSection);
    moved.(currentArea := Some(area), known := LearnArea(moved.known, area))
  }

  /** Leaving area `a` for area `b` in ShortTerm mode, with both known and a section of `b`
      known, forgets that section. */
  lemma EnterAreaAsWrittenForgetsDestination(a: string, b: string, section: string)
    requires a != b
    ensures var k := Knowledge(map[a := true, b := true], map[SectionKey(b, section) := b], map[]);
      var p := Perception(k, Some(a), None, None, None);
      KnowsSection(k, b, section) && !KnowsSection(EnterAreaAsWritten(ShortTerm, p, b).known, b, section)
  {
    var k := Knowledge(map[a := true, b := true], map[SectionKey(b, section) := b], map[]);
    var p := Perception(k, Some(a), None, None, None);
    assert b in Forgotten(k, Some(a), a);
    assert StartsWith(SectionKey(b, section), b + ":");
    assert UnderAny(SectionKey(b, section), Forgotten(k, Some(a), a));
  }

  /** `EnterArea`, with the clearing done as the source's comment describes it: in ShortTerm
      mode the area being left and the area being entered are both kept. Sensory mode forgets
      everything; LongTerm mode forgets nothing. */
  function EnterArea(mode: MemoryMode, p: Perception, area: string): (r: Perception)
    ensures r.currentArea == Some(area) && r.currentSection == p.currentSection
    ensures KnowsArea(r.known, area)
    ensures mode == Sensory ==>
      r.known == Knowledge(map[area := true], map[], map[])
      && r.previousArea == p.previousArea && r.previousSection == p.previousSection
    ensures mode != Sensory ==> r.previousArea == p.currentArea && r.previousSection == p.currentSection
    ensures mode == LongTerm ==> Grows(p.known, r.known) && r.known.areas.Keys == p.known.areas.Keys + {area}
    ensures mode == LongTerm ==> r.known.sections == p.known.sections && r.known.objects == p.known.objects
    ensures mode == ShortTerm && (p.currentArea.None? || p.currentArea == Some(area)) ==>
      r.known == LearnArea(p.known, area)
    ensures mode == ShortTerm && p.currentArea.Some? && p.currentArea != Some(area) ==>
      var gone := Forgotten(p.known, Some(area), p.currentArea.value);
      (forall x :: x in r.known.areas <==> x == area || (x == p.currentArea.value && x in p.known.areas))
      && (forall key :: key in r.known.sections <==> key in p.known.sections && !UnderAny(key, gone))
      && (forall key :: key in r.known.objects <==> key in p.known.objects && !UnderAny(key, gone))
  {
    var moved :=
      match mode
      case Sensory => p.(known := NoKnowledge)
      case ShortTerm =>
        var q := p.(previousArea := p.currentArea, previousSection := p.currentSection);
        if q.previousArea.Some? && q.previousArea.value != area
        then q.(known := ClearOldMemories(q.known, Some(area), q.previousArea.value))
        else q
      case LongTerm => p.(previousArea := p.currentArea, previousSection := p.currentSection);
    moved.(currentArea := Some(area), known := LearnArea(moved.known, area))
  }

  /** In ShortTerm mode, with colon-free area names, entering an area keeps every section and
      object already known in it. */
  lemma EnterAreaKeepsDestination(p: Perception, area: string)
    requires !Contains(area, ":")
    requires forall x | x in p.known.areas :: !Contains(x, ":")
    ensures forall key | key in p.known.sections && StartsWith(key, area + ":") ::
      key in EnterArea(ShortTerm, p, area).known.sections
    ensures forall key | key in p.known.objects && StartsWith(key, area + ":") ::
      key in EnterArea(ShortTerm, p, area).known.objects
  {
    if p.currentArea.Some? && p.currentArea != Some(area) {
      var gone := Forgotten(p.known, Some(area), p.currentArea.value);
      forall key | StartsWith(key, area + ":") ensures !UnderAny(key, gone) {
        if UnderAny(key, gone) {
          var x :| x in gone && StartsWith(key, x + ":");
          SamePrefixArea(key, x, area);
        }
      }
    }
  }

  /** A key under two colon-free area names is under the same one twice. */
  lemma SamePrefixArea(key: string, x: string, y: string)
    requires !Contains(x, ":") && !Contains(y, ":")
    requires StartsWith(key, x + ":") && StartsWith(key, y + ":")
    ensures x == y
  {
    NoShorterArea(key, x, y);
    NoShorterArea(key, y, x);
    assert x == (x + ":")[..|x|] == key[..|x|] == (y + ":")[..|y|] == y;
  }

  lemma CharOfPrefix(key: string, prefix: string, j: nat)
    requires StartsWith(key, prefix) && j < |prefix|
    ensures key[j] == prefix[j]
  {
    assert key[j] == key[..|prefix|][j];
  }

  /** When `key` starts with `x:` and with `y:` and `y` holds no colon, `x` is not shorter than
      `y`: the colon after `x` would lie inside `y`. */
  lemma NoShorterArea(key: string, x: string, y: string)
    requires !Contains(y, ":")
    requires StartsWith(key, x + ":") && StartsWith(key, y + ":")
    ensures |x| >= |y|
  {
    CharNotContained(y, ':');
    if |x| < |y| {
      CharOfPrefix(key, x + ":", |x|);
      CharOfPrefix(key, y + ":", |x|);
      assert false;
    }
  }

  /** The prefix of the object keys of a section. */
  function ObjectPrefix(area: string, section: string): string {
    area + ":" + section + ":"
  }

  /** `ClearSectionObjects`: with a null or empty area or section nothing happens; otherwise every
      object key under `area:section:` is removed and nothing else changes. */
  function ClearSectionObjects(k: Knowledge, area: Option<string>, section: Option<string>): (r: Knowledge)
    ensures r.areas == k.areas && r.sections == k.sections
    ensures !NonEmpty(area) || !NonEmpty(section) ==> r == k
    ensures NonEmpty(area) && NonEmpty(section) ==>
      forall key :: key in r.objects <==>
        key in k.objects && !StartsWith(key, ObjectPrefix(area.value, section.value))
    ensures Grows(r, k)
  {
    if !NonEmpty(area) || !NonEmpty(section) then k
    else
      var prefix := ObjectPrefix(area.value, section.value);
      k.(objects := map key | key in k.objects && !StartsWith(key, prefix) :: k.objects[key])
  }

  /** After clearing a section, no object is listed for it any more. */
  lemma ClearedSectionListsNothing(k: Knowledge, area: string, section: string)
    requires area != "" && section != ""
    ensures GetKnownObjectsInSection(ClearSectionObjects(k, Some(area), Some(section)), area, section) == {}
  {
  }

  /** `GetObjectReference`: only a known object is looked up in the world index. */
  function GetObjectReference(k: Knowledge, idx: Index, area: string, section: string, obj: string): (r: Option<ObjectId>)
    ensures r.Some? ==> KnowsObject(k, area, section, obj)
    ensures KnowsObject(k, area, section, obj) ==> r == GetObjectGameObject(idx, area, section, obj)
  {
    if !KnowsObject(k, area, section, obj) then None
    else GetObjectGameObject(idx, area, section, obj)
  }

  /** The text of an object observation. */
  function ObservationText(obj: string, section: string, state: string): string {
    "The " + obj + " in the " + section + " is " + state
  }

  /** `ObserveObject`: an observation of a known object whose scene object carries a state.
      `stateOf` gives the state of a scene object, or nothing when it has no state component. */
  function ObserveObject(k: Knowledge, idx: Index, area: string, section: string, obj: string,
                         stateOf: ObjectId -> Option<string>): (r: Option<string>)
    ensures r.Some? <==> (KnowsObject(k, area, section, obj)
      && GetObjectGameObject(idx, area, section, obj).Some?
      && stateOf(GetObjectGameObject(idx, area, section, obj).value).Some?)
    ensures r.Some? ==>
      r.value == ObservationText(obj, section, stateOf(GetObjectGameObject(idx, area, section, obj).value).value)
  {
    if !KnowsObject(k, area, section, obj) then None
    else
      match GetObjectReference(k, idx, area, section, obj)
      case None => None
      case Some(id) =>
        match stateOf(id)
        case None => None
        case Some(state) => Some(ObservationText(obj, section, state))
  }

  /** `text` is what observing `obj` reports: its scene object is found and has a state. */
  predicate Observes(idx: Index, area: string, section: string, obj: string,
                     stateOf: ObjectId -> Option<string>, text: string) {
    var id := GetObjectGameObject(idx, area, section, obj);
    id.Some? && stateOf(id.value).Some? && text == ObservationText(obj, section, stateOf(id.value).value)
  }

  /** The knowledge after perceiving some objects, and the observations made, in order. */
  datatype Perceived = Perceived(known: Knowledge, observations: seq<string>)

  /** `PerceiveObjectsInCurrentSection`'s loop: learn each object, then observe it. */
  function PerceiveObjects(k: Knowledge, idx: Index, area: string, section: string, objs: seq<string>,
                           stateOf: ObjectId -> Option<string>): (r: Perceived)
    ensures Grows(k, r.known)
    ensures r.known.areas == k.areas && r.known.sections == k.sections
    ensures forall i | 0 <= i < |objs| :: KnowsObject(r.known, area, section, objs[i])
    ensures forall key | key in r.known.objects && key !in k.objects ::
      exists i | 0 <= i < |objs| :: key == ObjectKey(area, section, objs[i])
    decreases |objs|
  {
    if objs == [] then Perceived(k, [])
    else
      var k1 := LearnObject(k, area, section, objs[0]);
      var seen := ObserveObject(k1, idx, area, section, objs[0], stateOf);
      var rest := PerceiveObjects(k1, idx, area, section, objs[1..], stateOf);
      LearnedInTail(k1.objects, rest.known.objects, area, section, objs);
      Perceived(rest.known, (if seen.Some? then [seen.value] else []) + rest.observations)
  }

  /** Every observation made reports an object of the list, found in the scene with a state;
      at most one observation is made per object. */
  lemma {:induction false} PerceivedObservations(k: Knowledge, idx: Index, area: string, section: string,
                                                 objs: seq<string>, stateOf: ObjectId -> Option<string>)
    ensures var obs := PerceiveObjects(k, idx, area, section, objs, stateOf).observations;
      |obs| <= |objs|
      && forall j | 0 <= j < |obs| :: exists i | 0 <= i < |objs| :: Observes(idx, area, section, objs[i], stateOf, obs[j])
    decreases |objs|
  {
    if objs != [] {
      var k1 := LearnObject(k, area, section, objs[0]);
      PerceivedObservations(k1, idx, area, section, objs[1..], stateOf);
      var seen := ObserveObject(k1, idx, area, section, objs[0], stateOf);
      var head := if seen.Some? then [seen.value] else [];
      var later := PerceiveObjects(k1, idx, area, section, objs[1..], stateOf).observations;
      assert PerceiveObjects(k, idx, area, section, objs, stateOf).observations == head + later;
      ObservedCons(idx, area, section, objs, stateOf, head, later);
    }
  }

  /** What the first object and the later ones gave, in that order, was observed of the list. */
  lemma ObservedCons(idx: Index, area: string, section: string, objs: seq<string>,
                     stateOf: ObjectId -> Option<string>, head: seq<string>, later: seq<string>)
    requires objs != []
    requires forall j | 0 <= j < |head| :: Observes(idx, area, section, objs[0], stateOf, head[j])
    requires forall j | 0 <= j < |later| ::
      exists i | 0 <= i < |objs[1..]| :: Observes(idx, area, section, objs[1..][i], stateOf, later[j])
    ensures forall j | 0 <= j < |head + later| ::
      exists i | 0 <= i < |objs| :: Observes(idx, area, section, objs[i], stateOf, (head + later)[j])
  {
    forall j | 0 <= j < |head + later|
      ensures exists i | 0 <= i < |objs| :: Observes(idx, area, section, objs[i], stateOf, (head + later)[j])
    {
      if j < |head| {
        assert (head + later)[j] == head[j];
        assert Observes(idx, area, section, objs[0], stateOf, head[j]);
      } else {
        var t := later[j - |head|];
        assert (head + later)[j] == t;
        ObservedInTail(idx, area, section, objs, stateOf, t);
      }
    }
  }

  /** What was observed of a later object was observed of one of all of them. */
  lemma ObservedInTail(idx: Index, area: string, section: string, objs: seq<string>,
                       stateOf: ObjectId -> Option<string>, text: string)
    requires objs != []
    requires exists i | 0 <= i < |objs[1..]| :: Observes(idx, area, section, objs[1..][i], stateOf, text)
    ensures exists i | 0 <= i < |objs| :: Observes(idx, area, section, objs[i], stateOf, text)
  {
    var i :| 0 <= i < |objs[1..]| && Observes(idx, area, section, objs[1..][i], stateOf, text);
    assert objs[1..][i] == objs[i + 1];
    assert Observes(idx, area, section, objs[i + 1], stateOf, text);
  }

  /** A key learnt for a later object was learnt for one of all of them. */
  lemma LearnedInTail(before: map<string, string>, after: map<string, string>, area: string, section: string,
                      objs: seq<string>)
    requires objs != []
    requires forall key | key in after && key !in before ::
      exists i | 0 <= i < |objs[1..]| :: key == ObjectKey(area, section, objs[1..][i])
    ensures forall key | key in after && key !in before ::
      exists i | 0 <= i < |objs| :: key == ObjectKey(area, section, objs[i])
  {
    forall key | key in after && key !in before
      ensures exists i | 0 <= i < |objs| :: key == ObjectKey(area, section, objs[i])
    {
      var i :| 0 <= i < |objs[1..]| && key == ObjectKey(area, section, objs[1..][i]);
      assert objs[1..][i] == objs[i + 1];
    }
  }

  /** The perception after entering a section, and the observations made there. */
  datatype Entered = Entered(perception: Perception, observations: seq<string>)

  /** `EnterSection`: in Sensory mode the objects of the section being left are forgotten,
      otherwise it becomes the previous section; then, inside a known area, the section is
      learned, and its objects in the world index are learned and observed. */
  function EnterSection(mode: MemoryMode, p: Perception, idx: Index, section: string,
                        stateOf: ObjectId -> Option<string>): (r: Entered)
    ensures r.perception.currentSection == Some(section)
    ensures r.perception.currentArea == p.currentArea && r.perception.previousArea == p.previousArea
    ensures r.perception.known.areas == p.known.areas
    ensures mode == Sensory ==> r.perception.previousSection == p.previousSection
    ensures mode != Sensory ==> r.perception.previousSection == p.currentSection
    ensures mode != Sensory ==> Grows(p.known, r.perception.known)
    ensures mode == Sensory ==>
      Grows(ClearSectionObjects(p.known, p.currentArea, p.currentSection), r.perception.known)
    ensures !NonEmpty(p.currentArea) ==> r.observations == []
    ensures !NonEmpty(p.currentArea) && mode != Sensory ==> r.perception.known == p.known
    ensures NonEmpty(p.currentArea) ==> KnowsSection(r.perception.known, p.currentArea.value, section)
    ensures NonEmpty(p.currentArea) && section != "" ==>
      forall o | o in GetObjectsInSection(idx, p.currentArea.value, section) ::
        KnowsObject(r.perception.known, p.currentArea.value, section, o)
  {
    var left :=
      if mode == Sensory then p.(known := ClearSectionObjects(p.known, p.currentArea, p.currentSection))
      else p.(previousSection := p.currentSection);
    var moved := left.(currentSection := Some(section));
    if !NonEmpty(moved.currentArea) then Entered(moved, [])
    else
      var area := moved.currentArea.value;
      var k := LearnSection(moved.known, area, section);
      if section == "" then Entered(moved.(known := k), [])
      else
        var objs := GetObjectsInSection(idx, area, section);
        var seen := PerceiveObjects(k, idx, area, section, objs, stateOf);
        Entered(moved.(known := seen.known), seen.observations)
  }
}

=== FILE: world_tree.dfy ===
/** The index of the scene the agents live in: every area, every section of an area and every
    object of a section, stored under its colon-joined names. The scene hierarchy is a tagged
    rose tree; only children with the right tag at the right depth are indexed. */
module WorldTrees {
  import opened Wrappers
  import opened Text
  import opened Sorting
  import opened Dictionaries
  import opened AreaNodes

  /** A scene object: its name, its tag, its identity and its children in sibling order. */
  datatype Transform = Transform(name: string, tag: string, id: ObjectId, children: seq<Transform>)

  const AreaTag := "Area"
  const SectorTag := "Sector"
  const ObjectTag := "Object"

  /** The name given to the node built for the scene root. */
  const RootName := "World"

  /** A node the index is built from: the names from its area down to it, and its scene object.
      Its key is those names joined with colons. */
  datatype Entry = Entry(names: seq<string>, node: Transform)

  /** The index, in the enumeration order of its dictionary. */
  type Index = Dict<string, Entry>

  function Key(e: Entry): string {
    Join(e.names, ":")
  }

  /** The key `GetObjectsInSection` looks up. */
  function SectionKey(area: string, section: string): string {
    area + ":" + section
  }

  /** The key `GetObjectGameObject` looks up. */
  function ObjectKey(area: string, section: string, obj: string): string {
    area + ":" + section + ":" + obj
  }

  /** `ProcessObjects`: the Object-tagged children of a section, in sibling order. */
  function ObjectEntries(area: string, section: string, cs: seq<Transform>): seq<Entry>
    decreases |cs|
  {
    if cs == [] then []
    else
      (if cs[0].tag == ObjectTag then [Entry([area, section, cs[0].name], cs[0])] else [])
      + ObjectEntries(area, section, cs[1..])
  }

  /** `ProcessSections`: each Sector-tagged child of an area, followed by its objects. */
  function SectionEntries(area: string, cs: seq<Transform>): seq<Entry>
    decreases |cs|
  {
    if cs == [] then []
    else
      (if cs[0].tag == SectorTag
       then [Entry([area, cs[0].name], cs[0])] + ObjectEntries(area, cs[0].name, cs[0].children)
       else [])
      + SectionEntries(area, cs[1..])
  }

  /** `TraverseAreas`: each Area-tagged child of the root, followed by its sections. */
  function AreaEntries(cs: seq<Transform>): seq<Entry>
    decreases |cs|
  {
    if cs == [] then []
    else
      (if cs[0].tag == AreaTag then [Entry([cs[0].name], cs[0])] + SectionEntries(cs[0].name, cs[0].children) else [])
      + AreaEntries(cs[1..])
  }

  /** Every node the index is built from, in processing order. */
  function Entries(root: Transform): seq<Entry> {
    AreaEntries(root.children)
  }

  function Pairs(es: seq<Entry>): (ps: seq<(string, Entry)>)
    ensures |ps| == |es|
    ensures forall i | 0 <= i < |es| :: ps[i] == (Key(es[i]), es[i])
  {
    seq(|es|, i requires 0 <= i < |es| => (Key(es[i]), es[i]))
  }

  /** `BuildWorldTree`: the node constructor rejects a blank name, which aborts the build;
      otherwise each node is stored under its key in processing order, a later node replacing an
      earlier one with the same key. */
  function Build(root: Transform): (r: Result<Index, string>)
    ensures r.Failure? <==> exists e | e in Entries(root) :: IsBlank(e.node.name)
    ensures r.Success? ==> forall e | e in Entries(root) :: Get(r.value, Key(e)).Some?
  {
    var es := Entries(root);
    if exists i | 0 <= i < |es| :: IsBlank(es[i].node.name) then Failure("Area name cannot be null or empty")
    else
      var idx := PutAll([], Pairs(es));
      PutAllKeys(Pairs(es));
      InsertionOrderDistinct(Keys(Pairs(es)));
      assert forall e | e in es :: Key(e) in Keys(idx) by {
        forall e | e in es ensures Key(e) in Keys(idx) {
          var i :| 0 <= i < |es| && es[i] == e;
          assert Keys(Pairs(es))[i] == Key(e);
        }
      }
      Success(idx)
  }

  /** The node stands for `sec`, a section of the area named `area`, or for an Object-tagged
      child of it. */
  predicate InSection(e: Entry, area: string, sec: Transform) {
    (e.names == [area, sec.name] && e.node == sec)
    || (e.node in sec.children && e.node.tag == ObjectTag && e.names == [area, sec.name, e.node.name])
  }

  predicate InSectionOf(e: Entry, area: string, cs: seq<Transform>) {
    exists sec | sec in cs && sec.tag == SectorTag :: InSection(e, area, sec)
  }

  predicate InArea(e: Entry, area: Transform) {
    (e.names == [area.name] && e.node == area) || InSectionOf(e, area.name, area.children)
  }

  /** Where an indexed node may sit: an Area-tagged child of the root, a Sector-tagged child of
      one, or an Object-tagged child of one of those, named along the way. */
  predicate Placed(e: Entry, root: Transform) {
    exists area | area in root.children && area.tag == AreaTag :: InArea(e, area)
  }

  lemma {:induction false} ObjectEntriesPlaced(area: string, sec: Transform, cs: seq<Transform>)
    requires forall c | c in cs :: c in sec.children
    ensures forall e | e in ObjectEntries(area, sec.name, cs) :: InSection(e, area, sec)
    decreases |cs|
  {
    if cs != [] {
      assert forall c | c in cs[1..] :: c in cs;
      ObjectEntriesPlaced(area, sec, cs[1..]);
    }
  }

  lemma {:induction false} SectionEntriesPlaced(area: string, cs: seq<Transform>)
    ensures forall e | e in SectionEntries(area, cs) :: InSectionOf(e, area, cs)
    decreases |cs|
  {
    if cs != [] {
      var sec := cs[0];
      SectionEntriesPlaced(area, cs[1..]);
      forall e | e in SectionEntries(area, cs) ensures InSectionOf(e, area, cs) {
        if e in SectionEntries(area, cs[1..]) {
          var s' :| s' in cs[1..] && s'.tag == SectorTag && InSection(e, area, s');
          assert s' in cs;
        } else {
          assert sec.tag == SectorTag;
          ObjectEntriesPlaced(area, sec, sec.children);
          assert InSection(e, area, sec);
        }
      }
    }
  }

  lemma {:induction false} AreaEntriesPlaced(root: Transform, cs: seq<Transform>)
    requires forall c | c in cs :: c in root.children
    ensures forall e | e in AreaEntries(cs) :: Placed(e, root)
    decreases |cs|
  {
    if cs != [] {
      assert forall c | c in cs[1..] :: c in cs;
      AreaEntriesPlaced(root, cs[1..]);
      SectionEntriesPlaced(cs[0].name, cs[0].children);
      forall e | e in AreaEntries(cs) ensures Placed(e, root) {
        if e !in AreaEntries(cs[1..]) {
          assert InArea(e, cs[0]);
        }
      }
    }
  }

  /** Only Area-tagged children of the root, Sector-tagged children of those and Object-tagged
      children of sections are indexed, each under the names of its area, section and itself. */
  lemma EntriesPlaced(root: Transform)
    ensures forall e | e in Entries(root) :: Placed(e, root)
  {
    AreaEntriesPlaced(root, root.children);
  }

  lemma {:induction false} ObjectEntriesComplete(area: string, section: string, cs: seq<Transform>, o: Transform)
    requires o in cs && o.tag == ObjectTag
    ensures Entry([area, section, o.name], o) in ObjectEntries(area, section, cs)
    decreases |cs|
  {
    if cs[0] != o {
      assert o in cs[1..];
      ObjectEntriesComplete(area, section, cs[1..], o);
    }
  }

  lemma {:induction false} SectionEntriesComplete(area: string, cs: seq<Transform>, sec: Transform)
    requires sec in cs && sec.tag == SectorTag
    ensures Entry([area, sec.name], sec) in SectionEntries(area, cs)
    ensures forall o | o in sec.children && o.tag == ObjectTag ::
      Entry([area, sec.name, o.name], o) in SectionEntries(area, cs)
    decreases |cs|
  {
    if cs[0] != sec {
      assert sec in cs[1..];
      SectionEntriesComplete(area, cs[1..], sec);
    } else {
      forall o | o in sec.children && o.tag == ObjectTag
        ensures Entry([area, sec.name, o.name], o) in SectionEntries(area, cs)
      {
        ObjectEntriesComplete(area, sec.name, sec.children, o);
      }
    }
  }

  lemma {:induction false} AreaEntriesComplete(cs: seq<Transform>, area: Transform)
    requires area in cs && area.tag == AreaTag
    ensures Entry([area.name], area) in AreaEntries(cs)
    ensures forall e | e in SectionEntries(area.name, area.children) :: e in AreaEntries(cs)
    decreases |cs|
  {
    if cs[0] != area {
      assert area in cs[1..];
      AreaEntriesComplete(cs[1..], area);
    }
  }

  /** Every Area-tagged child of the root is indexed, every Sector-tagged child of one, and every
      Object-tagged child of one of those. */
  lemma EntriesComplete(root: Transform, area: Transform, sec: Transform, o: Transform)
    requires area in root.children && area.tag == AreaTag
    ensures Entry([area.name], area) in Entries(root)
    ensures sec in area.children && sec.tag == SectorTag ==> Entry([area.name, sec.name], sec) in Entries(root)
    ensures sec in area.children && sec.tag == SectorTag && o in sec.children && o.tag == ObjectTag ==>
      Entry([area.name, sec.name, o.name], o) in Entries(root)
  {
    AreaEntriesComplete(root.children, area);
    if sec in area.children && sec.tag == SectorTag {
      SectionEntriesComplete(area.name, area.children, sec);
    }
  }

  /** No name in the list holds a colon. */
  predicate ColonFree(ns: seq<string>) {
    forall i | 0 <= i < |ns| :: !Contains(ns[i], ":")
  }

  predicate AllColonFree(es: seq<Entry>) {
    forall i | 0 <= i < |es| :: ColonFree(es[i].names)
  }

  /** With colon-free names, the joined key determines the names. */
  lemma KeyDeterminesNames(xs: seq<string>, ys: seq<string>)
    requires |xs| >= 1 && |ys| >= 1 && ColonFree(xs) && ColonFree(ys)
    ensures Join(xs, ":") == Join(ys, ":") <==> xs == ys
  {
    SplitJoin(xs, ":");
    SplitJoin(ys, ":");
  }

  /** The last node processed with exactly these names. */
  function LastNamed(es: seq<Entry>, ns: seq<string>): (r: Option<Entry>)
    ensures r.Some? ==> r.value in es && r.value.names == ns
    ensures r.None? <==> forall i | 0 <= i < |es| :: es[i].names != ns
    decreases |es|
  {
    if es == [] then None
    else
      var n := |es| - 1;
      if es[n].names == ns then Some(es[n])
      else
        var r := LastNamed(es[..n], ns);
        assert r.Some? ==> r.value in es[..n];
        assert forall i | 0 <= i < n :: es[..n][i] == es[i];
        r
  }

  lemma {:induction false} LastValueIsLastNamed(es: seq<Entry>, ns: seq<string>)
    requires |ns| >= 1 && ColonFree(ns) && AllColonFree(es)
    requires forall i | 0 <= i < |es| :: |es[i].names| >= 1
    ensures LastValue(Pairs(es), Join(ns, ":")) == LastNamed(es, ns)
    decreases |es|
  {
    if es != [] {
      var n := |es| - 1;
      KeyDeterminesNames(es[n].names, ns);
      assert Pairs(es)[..n] == Pairs(es[..n]);
      LastValueIsLastNamed(es[..n], ns);
    }
  }

  lemma EntriesHaveNames(root: Transform)
    ensures forall i | 0 <= i < |Entries(root)| :: 1 <= |Entries(root)[i].names| <= 3
  {
    EntriesPlaced(root);
    forall i | 0 <= i < |Entries(root)| ensures 1 <= |Entries(root)[i].names| <= 3 {
      assert Placed(Entries(root)[i], root);
    }
  }

  /** Looking a key up in the built index finds the last node processed under those names:
      a later node with the same key overwrites an earlier one. */
  lemma LookupFindsLastNamed(root: Transform, idx: Index, ns: seq<string>)
    requires Build(root) == Success(idx)
    requires AllColonFree(Entries(root)) && |ns| >= 1 && ColonFree(ns)
    ensures Get(idx, Join(ns, ":")) == LastNamed(Entries(root), ns)
  {
    EntriesHaveNames(root);
    PutAllGet([], Pairs(Entries(root)), Join(ns, ":"));
    LastValueIsLastNamed(Entries(root), ns);
  }

  /** The names of the children with the given tag, in sibling order. */
  function TaggedNames(cs: seq<Transform>, tag: string): (ns: seq<string>)
    ensures |ns| <= |cs|
    ensures forall n | n in ns :: exists c | c in cs :: c.tag == tag && c.name == n
    ensures forall c | c in cs && c.tag == tag :: c.name in ns
    decreases |cs|
  {
    if cs == [] then []
    else
      var rest := TaggedNames(cs[1..], tag);
      assert forall c | c in cs :: c == cs[0] || c in cs[1..];
      (if cs[0].tag == tag then [cs[0].name] else []) + rest
  }

  /** The listing keeps sibling order: the names of two runs of children are the names of the
      first run followed by those of the second. */
  lemma {:induction false} TaggedNamesAppend(a: seq<Transform>, b: seq<Transform>, tag: string)
    ensures TaggedNames(a + b, tag) == TaggedNames(a, tag) + TaggedNames(b, tag)
    decreases |a|
  {
    if a == [] {
      assert a + b == b;
    } else {
      assert (a + b)[1..] == a[1..] + b;
      TaggedNamesAppend(a[1..], b, tag);
    }
  }

  /** The keys without a colon, in enumeration order. */
  function WithoutColon(ks: seq<string>): (r: seq<string>)
    ensures forall k :: k in r <==> k in ks && !Contains(k, ":")
    ensures Distinct(ks) ==> Distinct(r)
    decreases |ks|
  {
    if ks == [] then []
    else
      var rest := WithoutColon(ks[1..]);
      assert forall k :: k in ks <==> k == ks[0] || k in ks[1..];
      if Contains(ks[0], ":") then rest else [ks[0]] + rest
  }

  /** `GetAllAreas`: the keys without a colon. */
  function GetAllAreas(idx: Index): (r: seq<string>)
    ensures forall k :: k in r <==> k in Keys(idx) && !Contains(k, ":")
  {
    WithoutColon(Keys(idx))
  }

  /** `GetSectionsInArea`: the non-object children of the node stored under the key. A section's
      children are all objects and an object has none, so only an area yields names. */
  function GetSectionsInArea(idx: Index, area: string): (r: seq<string>)
    ensures Get(idx, area).None? ==> r == []
    ensures Get(idx, area).Some? ==>
      var e := Get(idx, area).value;
      (forall s | s in r :: |e.names| == 1 && exists c | c in e.node.children :: c.tag == SectorTag && c.name == s)
      && (|e.names| == 1 ==> forall c | c in e.node.children && c.tag == SectorTag :: c.name in r)
  {
    match Get(idx, area)
    case None => []
    case Some(e) => if |e.names| == 1 then TaggedNames(e.node.children, SectorTag) else []
  }

  /** `GetObjectsInSection`: the object children of the node stored under `area:section`. */
  function GetObjectsInSection(idx: Index, area: string, section: string): (r: seq<string>)
    ensures Get(idx, SectionKey(area, section)).None? ==> r == []
    ensures Get(idx, SectionKey(area, section)).Some? ==>
      var e := Get(idx, SectionKey(area, section)).value;
      (forall o | o in r :: |e.names| == 2 && exists c | c in e.node.children :: c.tag == ObjectTag && c.name == o)
      && (|e.names| == 2 ==> forall c | c in e.node.children && c.tag == ObjectTag :: c.name in r)
  {
    match Get(idx, SectionKey(area, section))
    case None => []
    case Some(e) => if |e.names| == 2 then TaggedNames(e.node.children, ObjectTag) else []
  }

  /** `GetObjectGameObject`: the scene object stored under `area:section:object`, if any. */
  function GetObjectGameObject(idx: Index, area: string, section: string, obj: string): (r: Option<ObjectId>)
    ensures r.None? <==> ObjectKey(area, section, obj) !in Keys(idx)
  {
    match Get(idx, ObjectKey(area, section, obj))
    case None => None
    case Some(e) => Some(e.node.id)
  }

  lemma SectionKeyIsJoin(area: string, section: string)
    ensures SectionKey(area, section) == Join([area, section], ":")
  {
    assert [area, section][1..] == [section];
  }

  lemma ObjectKeyIsJoin(area: string, section: string, obj: string)
    ensures ObjectKey(area, section, obj) == Join([area, section, obj], ":")
  {
    assert [area, section, obj][1..] == [section, obj];
    assert [section, obj][1..] == [obj];
    assert Join([section, obj], ":") == section + ":" + obj;
    assert Join([area, section, obj], ":") == area + ":" + Join([section, obj], ":");
  }

  /** A joined key of two or more names holds a colon. */
  lemma JoinedHasColon(ns: seq<string>)
    requires |ns| >= 2
    ensures Contains(Join(ns, ":"), ":")
  {
    var k := Join(ns, ":");
    assert k == ns[0] + ":" + Join(ns[1..], ":");
    assert k[|ns[0]|..|ns[0]| + 1] == ":";
    OccurrenceIsContained(k, ":", |ns[0]|);
  }

  /** The keys of the built index are the keys of the processed nodes, each once. */
  lemma BuiltKeys(root: Transform, idx: Index)
    requires Build(root) == Success(idx)
    ensures Distinct(Keys(idx))
    ensures forall k :: k in Keys(idx) <==> exists i | 0 <= i < |Entries(root)| :: Key(Entries(root)[i]) == k
  {
    var es := Entries(root);
    PutAllKeys(Pairs(es));
    InsertionOrderDistinct(Keys(Pairs(es)));
    forall k ensures k in Keys(idx) <==> exists i | 0 <= i < |es| :: Key(es[i]) == k {
      if k in Keys(idx) {
        var i :| 0 <= i < |es| && Keys(Pairs(es))[i] == k;
        assert Key(es[i]) == k;
      }
      if exists i | 0 <= i < |es| :: Key(es[i]) == k {
        var i :| 0 <= i < |es| && Key(es[i]) == k;
        assert Keys(Pairs(es))[i] == k;
      }
    }
  }

  /** A processed node whose key has no colon is an area. */
  lemma ColonFreeKeyIsArea(root: Transform, e: Entry)
    requires e in Entries(root) && !Contains(Key(e), ":")
    ensures exists area | area in root.children :: area.tag == AreaTag && area.name == Key(e)
  {
    EntriesPlaced(root);
    assert Placed(e, root);
    var area :| area in root.children && area.tag == AreaTag && InArea(e, area);
    if |e.names| >= 2 {
      JoinedHasColon(e.names);
    } else {
      assert e.names == [area.name];
    }
  }

  lemma ListedAreaIsArea(root: Transform, idx: Index, k: string)
    requires Build(root) == Success(idx)
    requires k in GetAllAreas(idx)
    ensures !Contains(k, ":") && exists area | area in root.children :: area.tag == AreaTag && area.name == k
  {
    var es := Entries(root);
    BuiltKeys(root, idx);
    var i :| 0 <= i < |es| && Key(es[i]) == k;
    assert es[i] in es;
    ColonFreeKeyIsArea(root, es[i]);
  }

  lemma AreaIsListed(root: Transform, idx: Index, area: Transform)
    requires Build(root) == Success(idx)
    requires area in root.children && area.tag == AreaTag && !Contains(area.name, ":")
    ensures area.name in GetAllAreas(idx)
  {
    var es := Entries(root);
    BuiltKeys(root, idx);
    EntriesComplete(root, area, area, area);
    var i :| 0 <= i < |es| && es[i] == Entry([area.name], area);
    assert Key(es[i]) == area.name;
  }

  /** The areas listed are exactly the colon-free names of the Area-tagged children of the root,
      each once, whatever the sections and objects are called. */
  lemma AllAreasAreAreaNames(root: Transform, idx: Index)
    requires Build(root) == Success(idx)
    ensures Distinct(GetAllAreas(idx))
    ensures forall k :: k in GetAllAreas(idx) <==>
      !Contains(k, ":") && exists area | area in root.children :: area.tag == AreaTag && area.name == k
  {
    BuiltKeys(root, idx);
    forall k ensures k in GetAllAreas(idx) <==>
      !Contains(k, ":") && exists area | area in root.children :: area.tag == AreaTag && area.name == k
    {
      if k in GetAllAreas(idx) {
        ListedAreaIsArea(root, idx, k);
      }
      if !Contains(k, ":") && exists area | area in root.children :: area.tag == AreaTag && area.name == k {
        var area :| area in root.children && area.tag == AreaTag && area.name == k;
        AreaIsListed(root, idx, area);
      }
    }
  }

  /** Under colon-free names, the sections listed for an area are the Sector-tagged children of
      the last area processed under that name, and nothing for any other name. */
  lemma SectionsInAreaLookup(root: Transform, idx: Index, area: string)
    requires Build(root) == Success(idx)
    requires AllColonFree(Entries(root)) && !Contains(area, ":")
    ensures GetSectionsInArea(idx, area) ==
      match LastNamed(Entries(root), [area])
      case None => []
      case Some(e) => TaggedNames(e.node.children, SectorTag)
  {
    LookupFindsLastNamed(root, idx, [area]);
  }

  /** Under colon-free names, the objects listed for a section are the Object-tagged children of
      the last section processed under those names. */
  lemma ObjectsInSectionLookup(root: Transform, idx: Index, area: string, section: string)
    requires Build(root) == Success(idx)
    requires AllColonFree(Entries(root)) && ColonFree([area, section])
    ensures GetObjectsInSection(idx, area, section) ==
      match LastNamed(Entries(root), [area, section])
      case None => []
      case Some(e) => TaggedNames(e.node.children, ObjectTag)
  {
    SectionKeyIsJoin(area, section);
    LookupFindsLastNamed(root, idx, [area, section]);
  }

  /** The scene holds an Object-tagged `obj` in a Sector-tagged `section` of an Area-tagged
      child `area` of the root. */
  predicate HasObject(root: Transform, area: string, section: string, obj: string) {
    exists a, s, o | a in root.children && s in a.children && o in s.children ::
      a.tag == AreaTag && s.tag == SectorTag && o.tag == ObjectTag
      && a.name == area && s.name == section && o.name == obj
  }

  lemma NamedObjectIsInScene(root: Transform, e: Entry, area: string, section: string, obj: string)
    requires e in Entries(root) && e.names == [area, section, obj]
    ensures HasObject(root, area, section, obj)
  {
    EntriesPlaced(root);
    PlacedObjectInScene(root, e, area, section, obj);
  }

  lemma PlacedObjectInScene(root: Transform, e: Entry, area: string, section: string, obj: string)
    requires Placed(e, root) && e.names == [area, section, obj]
    ensures HasObject(root, area, section, obj)
  {
    assert |e.names| == 3;
    var a :| a in root.children && a.tag == AreaTag && InArea(e, a);
    assert InSectionOf(e, a.name, a.children);
    var s :| s in a.children && s.tag == SectorTag && InSection(e, a.name, s);
    assert e.names == [a.name, s.name, e.node.name];
    assert a.name == area && s.name == section && e.node.name == obj;
  }

  lemma ObjectInSceneIsNamed(root: Transform, area: string, section: string, obj: string)
    requires HasObject(root, area, section, obj)
    ensures LastNamed(Entries(root), [area, section, obj]).Some?
  {
    var a, s, o :| a in root.children && s in a.children && o in s.children
      && a.tag == AreaTag && s.tag == SectorTag && o.tag == ObjectTag
      && a.name == area && s.name == section && o.name == obj;
    EntriesComplete(root, a, s, o);
    var es := Entries(root);
    var i :| 0 <= i < |es| && es[i] == Entry([area, section, obj], o);
  }

  /** A node named `area:section:obj` is processed exactly when the scene has an Object-tagged
      child of that name in a Sector-tagged child of an Area-tagged child of the root. */
  lemma ObjectNamedIffInScene(root: Transform, area: string, section: string, obj: string)
    ensures LastNamed(Entries(root), [area, section, obj]).Some? <==> HasObject(root, area, section, obj)
  {
    var found := LastNamed(Entries(root), [area, section, obj]);
    if found.Some? {
      NamedObjectIsInScene(root, found.value, area, section, obj);
    }
    if HasObject(root, area, section, obj) {
      ObjectInSceneIsNamed(root, area, section, obj);
    }
  }

  /** Under colon-free names, an object lookup finds the scene object of the last node processed
      under those names, and nothing when there is none; with the lemma above, the lookup
      succeeds exactly for the objects the scene has. */
  lemma ObjectLookup(root: Transform, idx: Index, area: string, section: string, obj: string)
    requires Build(root) == Success(idx)
    requires AllColonFree(Entries(root)) && ColonFree([area, section, obj])
    ensures GetObjectGameObject(idx, area, section, obj) ==
      match LastNamed(Entries(root), [area, section, obj])
      case None => None
      case Some(e) => Some(e.node.id)
  {
    ObjectKeyIsJoin(area, section, obj);
    LookupFindsLastNamed(root, idx, [area, section, obj]);
  }

  /** The object key as `ProcessObjects` computes it: the section node's full path, a colon and
      the object's name, with every occurrence of `World:` then removed. */
  function ObjectKeyAsWritten(sectionNode: AreaNode, obj: string): string {
    ReplaceAll(FullPath(sectionNode) + ":" + obj, RootName + ":", "")
  }

  /** The section node of a section named `section` in an area named `area`, as the build
      creates it. */
  function SectionNodeOf(area: string, section: string): AreaNode {
    var world := AreaNode(RootName, 0, None, [], false);
    var areaNode := AreaNode(area, 0, Some(world), [], false);
    AreaNode(section, 0, Some(areaNode), [], false)
  }

  /** The section node's full path runs from the world root through the area. */
  lemma SectionNodePath(area: string, section: string)
    ensures FullPath(SectionNodeOf(area, section)) == RootName + ":" + area + ":" + section
  {
    var node := SectionNodeOf(area, section);
    var areaNode := node.parent.value;
    var world := areaNode.parent.value;
    assert FullPath(world) == RootName;
    assert FullPath(areaNode) == RootName + ":" + area;
  }

  /** When the names contain no `World:` and do not put one together across a colon, the key
      computed by the build is the one the lookup uses. */
  lemma ObjectKeyAsWrittenAgrees(area: string, section: string, obj: string)
    requires !Contains(ObjectKey(area, section, obj), RootName + ":")
    ensures ObjectKeyAsWritten(SectionNodeOf(area, section), obj) == ObjectKey(area, section, obj)
  {
    var pat, rest := RootName + ":", ObjectKey(area, section, obj);
    assert FullPath(SectionNodeOf(area, section)) + ":" + obj == pat + rest by {
      SectionNodePath(area, section);
    }
    calc {
      ReplaceAll(pat + rest, pat, "");
      { ReplaceAtFront(rest, pat, ""); }
      "" + ReplaceAll(rest, pat, "");
      { NowhereAt(rest, pat); ReplaceAbsent(rest, pat, ""); }
      rest;
    }
  }

  /** An object in a section of an area whose name ends in `World`, say `NewWorld`, is stored
      under the key with `World:` cut out of the middle (`NewKitchen:Cup`), so the lookup under
      `NewWorld:Kitchen:Cup` misses it. */
  lemma ObjectKeyAsWrittenMisses(prefix: string, section: string, obj: string)
    requires forall i | 0 <= i < |prefix| :: prefix[i] != 'W'
    requires forall i | 0 <= i < |section + ":" + obj| :: (section + ":" + obj)[i] != 'W'
    ensures ObjectKeyAsWritten(SectionNodeOf(prefix + RootName, section), obj) == prefix + section + ":" + obj
    ensures ObjectKeyAsWritten(SectionNodeOf(prefix + RootName, section), obj) != ObjectKey(prefix + RootName, section, obj)
  {
    var pat := RootName + ":";
    var rest := section + ":" + obj;
    assert FullPath(SectionNodeOf(prefix + RootName, section)) + ":" + obj == pat + (prefix + (pat + rest)) by {
      SectionNodePath(prefix + RootName, section);
    }
    assert pat[0] == 'W';
    CutPatternTwice(pat, prefix, rest);
    assert |ObjectKey(prefix + RootName, section, obj)| == |prefix| + |rest| + 6;
  }

  /** Removing every `pat` from `<pat><prefix><pat><rest>`, where neither part holds the first
      character of `pat`, leaves `<prefix><rest>`. */
  lemma CutPatternTwice(pat: string, prefix: string, rest: string)
    requires |pat| > 0
    requires forall i | 0 <= i < |prefix| :: prefix[i] != pat[0]
    requires forall i | 0 <= i < |rest| :: rest[i] != pat[0]
    ensures ReplaceAll(pat + (prefix + (pat + rest)), pat, "") == prefix + rest
  {
    assert ReplaceAll(pat + rest, pat, "") == rest by {
      ReplaceAtFront(rest, pat, "");
      FirstCharAbsent(rest, pat);
      ReplaceAbsent(rest, pat, "");
    }
    assert ReplaceAll(prefix + (pat + rest), pat, "") == prefix + ReplaceAll(pat + rest, pat, "") by {
      NotAtInPrefix(prefix, pat + rest, pat);
      ReplaceAfter(prefix, pat + rest, pat, "");
    }
    ReplaceAtFront(prefix + (pat + rest), pat, "");
  }

  /** A pattern cannot start inside a prefix that lacks its first character. */
  lemma NotAtInPrefix(x: string, t: string, pat: string)
    requires |pat| > 0 && forall i | 0 <= i < |x| :: x[i] != pat[0]
    ensures forall j | 0 <= j < |x| :: !IsAt(x + t, pat, j)
  {
    forall j | 0 <= j < |x| ensures !IsAt(x + t, pat, j) {
      if j + |pat| <= |x + t| {
        assert (x + t)[j..j + |pat|][0] == (x + t)[j] == x[j];
      }
    }
  }

  /** The instance: area `NewWorld`, section `Kitchen`, object `Cup`. */
  lemma NewWorldKitchenCup()
    ensures ObjectKeyAsWritten(SectionNodeOf("New" + RootName, "Kitchen"), "Cup") != ObjectKey("New" + RootName, "Kitchen", "Cup")
  {
    var rest := "Kitchen" + ":" + "Cup";
    assert forall i | 0 <= i < |rest| :: rest[i] != 'W';
    ObjectKeyAsWrittenMisses("New", "Kitchen", "Cup");
  }


}

=== FILE: wrappers.dfy ===
/** Failure-compatible wrappers used for the source's null references and thrown exceptions. */
module Wrappers {

  /** `None` stands for a null reference or a missing dictionary entry. */
  datatype Option<+T> = None | Some(value: T) {
    predicate IsFailure() {
      None?
    }

    function PropagateFailure<U>(): Option<U>
      requires None?
    {
      None
    }

    function Extract(): T
      requires Some?
    {
      value
    }

    function GetOr(default: T): T {
      match this
      case Some(v) => v
      case None => default
    }
  }

  /** `Failure` stands for an exception the source throws (argument validation, parse errors). */
  datatype Result<+R, +E> = Success(value: R) | Failure(error: E) {
    predicate IsFailure() {
      Failure?
    }

    function PropagateFailure<U>(): Result<U, E>
      requires Failure?
    {
      Failure(error)
    }

    function Extract(): R
      requires Success?
    {
      value
    }
  }
}
